=== FILE: README.md ===
# sstl util core, modelled in Dafny

This project models the core of the `ch.syseca.sstl.util` Java utility library.

- **MessageFormatNA** is a `java.text.MessageFormat` with named arguments. The model covers:
  - the two-pass rewrite of `{name}` placeholders into indices numbered after the largest explicit index;
  - the time-zone choice for date sub-formats;
  - the fluent argument setters;
  - the argument list that `format()` hands to MessageFormat.
- **AbstractPropertiesFormat** and its two strategies, `PropertiesFormat` (sorted) and `LinkedPropertiesFormat` (insertion order), write a property set as `key=value;` text. Inside keys and values, `=` and `;` are doubled ("char insertion").
- **ListUtil**: `firstOrNull`, `lastOrNull`, `removeLast`, `truncate`, `fill` and `resize` on nullable lists.
- **WildcardSearch**: `*`/`_` pattern matching with a backslash escape and optional case folding.
- **ExtResolver**: `getKey` and `next` for bean property expressions with quoted map keys.
- **TimeRange**: the half-open time range, with containment, overlap, intersection, length, equality and hash.
- **DateUtil**: nullable date comparison and ageing.
- **Severity**: the log-level order.
- **DistinctFilter**: the stateful distinct predicate.
- **HexOutputStream / HexInputStream**: bytes as two lowercase hex digits each, and the read side that reverses it.

Every operation is a pure function or a method on immutable values:
- A Java object's mutable state becomes an input and an output.
- Java exceptions become the `Err` side of `Wrappers.Result`.
- `null` becomes `Option.None`.

Each operation comes with a partner stated as a lemma:
- a round trip (`parse(format(p))`, `read(write(b))`, `getKey` of a quoted key);
- a reference definition (wildcard matching against a `Glob` relation, the distinct filter against a right-fold, the name rewrite against a cut of the pattern into pieces);
- or an algebraic law (order, equivalence, idempotence).

The unit tests of the library appear as example lemmas.

Where the code and its documentation disagree, the model follows the code:
- The class comment of `HexOutputStream` says the byte `0x41` is written as `30`. The code writes `41`.
- The comment of `WildcardSearch` says `_` matches exactly one character. As written, `_` also matches past the end of the text. This is logged under Findings, and the corrected matcher is modelled next to the as-written one.
- `OutputStream.write(bytes, off, len)` documents `len` as a count. `HexOutputStream` uses it as an end index. This is also logged under Findings.

Source paths below are relative to the repository root.

## Model

| member | source | states |
|---|---|---|
| ListUtil.FirstOrNull | core/src/main/java/ch/syseca/sstl/util/list/ListUtil.java:30-32 | null for an empty list, otherwise the element at index 0 |
| ListUtil.LastOrNull | core/src/main/java/ch/syseca/sstl/util/list/ListUtil.java:43-45 | null for an empty list, otherwise the element at the last index |
| ListUtil.RemoveLast | core/src/main/java/ch/syseca/sstl/util/list/ListUtil.java:56-64 | an empty list is unchanged and null is returned; otherwise the list loses one element, and appending the returned element restores it |
| ListUtil.FirstIsLastOfReverse | core/src/main/java/ch/syseca/sstl/util/list/ListUtil.java:30-45 | firstOrNull of a list is lastOrNull of its reverse |
| ListUtil.RemoveLastStep | core/src/main/java/ch/syseca/sstl/util/list/ListUtil.java:87-93 | one more removeLast keeps the truncate loop invariant: the list is the original prefix and the reversed removals are the lost suffix |
| ListUtil.Truncate | core/src/main/java/ch/syseca/sstl/util/list/ListUtil.java:77-96 | the list keeps its first newSize elements and the removed suffix comes back in original order; a null or short list is unchanged with an empty result; a negative size empties the list and returns one null per missing element first |
| ListUtil.Fill | core/src/main/java/ch/syseca/sstl/util/list/ListUtil.java:120-124 | the list keeps its elements and grows to newSize; each appended element is the generator applied to the list as it stood |
| ListUtil.FillNull | core/src/main/java/ch/syseca/sstl/util/list/ListUtil.java:107-109 | the list is padded with nulls up to newSize, its elements kept |
| ListUtil.FillIdempotent | core/src/main/java/ch/syseca/sstl/util/list/ListUtil.java:120-124 | filling to a size the list already reaches changes nothing, so filling twice is filling once |
| ListUtil.Resize | core/src/main/java/ch/syseca/sstl/util/list/ListUtil.java:138-144 | the list ends with exactly max(newSize, 0) elements: the original prefix, then generated elements |
| ListUtil.FillExample | core/src/test/java/ch/syseca/sstl/util/list/ListUtilTest.java:64-90 | filling an empty list to 4 with a size-plus-one generator gives 1,2,3,4; refilling to 3 is a no-op; first 1, last 4 |
| ListUtil.TruncateExample | core/src/test/java/ch/syseca/sstl/util/list/ListUtilTest.java:17-45 | truncating 1..5 to 3 keeps 1,2,3 and returns 4,5; truncating again, or a null list, returns nothing |
| DistinctFilter.New | core/src/main/java/ch/syseca/sstl/util/funct/DistinctFilter.java:29-31 | a fresh filter has seen nothing and maps every element to itself |
| DistinctFilter.WithKey | core/src/main/java/ch/syseca/sstl/util/funct/DistinctFilter.java:19-21 | a fresh filter with the given key mapper has seen nothing |
| DistinctFilter.WithMapper | core/src/main/java/ch/syseca/sstl/util/funct/DistinctFilter.java:24-26 | a new filter with an empty seen-set and the new mapper, whatever the receiver has seen |
| DistinctFilter.Test | core/src/main/java/ch/syseca/sstl/util/funct/DistinctFilter.java:35-37 | accepts iff the element's key was not seen; afterwards the key is seen, and the seen-set only grows |
| DistinctFilter.RunIsFirstNew | core/src/main/java/ch/syseca/sstl/util/funct/DistinctFilter.java:35-37 | filtering a stream keeps exactly the reference first-occurrence elements, and every key of the stream ends up seen |
| DistinctFilter.FirstNewProperties | core/src/main/java/ch/syseca/sstl/util/funct/DistinctFilter.java:35-37 | the kept elements are a subsequence of the stream with pairwise distinct, previously unseen keys, and every new key is represented |
| DistinctFilter.DistinctExample | core/src/test/java/ch/syseca/sstl/util/funct/FiltersTest.java:15-23 | A,B,C,A,D,B,A is filtered to A,B,C,D |
| DistinctFilter.DistinctByKeyExample | core/src/test/java/ch/syseca/sstl/util/funct/FiltersTest.java:27-35 | keyed by first character, A1,B1,C1,A2,D1,B2,A3 is filtered to A1,B1,C1,D1 |
| Severity.Ordinal | core/src/main/java/ch/syseca/sstl/util/misc/Severity.java:18-83 | the ordinal is the position of the level in the declaration order TRACE, INFO, WARN, ERROR, FATAL |
| Severity.WorseThan | core/src/main/java/ch/syseca/sstl/util/misc/Severity.java:99-101 | the level's ordinal is greater than the other's |
| Severity.WorseThanIsDeclarationOrder | core/src/main/java/ch/syseca/sstl/util/misc/Severity.java:99-101 | worseThan holds exactly when the level is declared later |
| Severity.WorseThanIsStrictTotalOrder | core/src/main/java/ch/syseca/sstl/util/misc/Severity.java:99-101 | worseThan is irreflexive, asymmetric, transitive and total on distinct levels |
| Severity.WorstOf | core/src/main/java/ch/syseca/sstl/util/misc/Severity.java:104-106 | the result is one of the two, neither argument is worse, and the first wins a tie |
| Severity.WorstOfAll | core/src/main/java/ch/syseca/sstl/util/misc/Severity.java:109-119 | the result is one of the arguments, none is worse, and no earlier argument is equally bad |
| Severity.WorseThanExamples | core/src/test/java/ch/syseca/sstl/util/misc/SeverityTest.java:15-19 | WARN and ERROR are worse than INFO, ERROR worse than WARN |
| Severity.WorstOfAllExamples | core/src/test/java/ch/syseca/sstl/util/misc/SeverityTest.java:23-29 | the worst of the tested argument lists is WARN, ERROR and FATAL |
| DateUtil.Equal | core/src/main/java/ch/syseca/sstl/util/date/DateUtil.java:26-38 | true iff both are null or both have the same time |
| DateUtil.NotEqual | core/src/main/java/ch/syseca/sstl/util/date/DateUtil.java:53-55 | exactly the negation of equal |
| DateUtil.EqualIsEquivalence | core/src/main/java/ch/syseca/sstl/util/date/DateUtil.java:26-38 | equal is reflexive, symmetric and transitive |
| DateUtil.OrderDuality | core/src/main/java/ch/syseca/sstl/util/date/DateUtil.java:151-192 | before and after are converses; equalOrAfter is not-before and equalOrBefore is not-after |
| DateUtil.Before | core/src/main/java/ch/syseca/sstl/util/date/DateUtil.java:151-153 | the first date's time is strictly less than the second's |
| DateUtil.After | core/src/main/java/ch/syseca/sstl/util/date/DateUtil.java:164-166 | the first date's time is strictly greater than the second's |
| DateUtil.EqualOrAfter | core/src/main/java/ch/syseca/sstl/util/date/DateUtil.java:177-179 | the first date's time is at least the second's |
| DateUtil.EqualOrBefore | core/src/main/java/ch/syseca/sstl/util/date/DateUtil.java:190-192 | the first date's time is at most the second's |
| DateUtil.Min | core/src/main/java/ch/syseca/sstl/util/date/DateUtil.java:125-127 | a NullPointer iff either date is null; otherwise one of the two, not later than either, the first on equal times |
| DateUtil.Max | core/src/main/java/ch/syseca/sstl/util/date/DateUtil.java:138-140 | a NullPointer iff either date is null; otherwise one of the two, not earlier than either, the first on equal times |
| DateUtil.Compare | core/src/main/java/ch/syseca/sstl/util/date/DateUtil.java:203-222 | 0 for two nulls, a NullPointer iff exactly one is null, otherwise -1, 0 or 1 by whether the first time is earlier, equal or later |
| DateUtil.CompareAntisymmetric | core/src/main/java/ch/syseca/sstl/util/date/DateUtil.java:203-222 | compare(a, b) fails iff compare(b, a) does, and otherwise compare(a, b) == -compare(b, a) |
| DateUtil.MinMaxExamples | core/src/test/java/ch/syseca/sstl/util/date/DateUtilTest.java:63-80 | min of t and t + 1 is t and max is t + 1, in either argument order |
| DateUtil.CompareExamples | core/src/test/java/ch/syseca/sstl/util/date/DateUtilTest.java:126-143 | compare gives 0 for equal times, 1 for a later and -1 for an earlier first date |
| DateUtil.FactorToConvertToMillis | core/src/main/java/ch/syseca/sstl/util/date/DateUtil.java:267-300 | milliseconds per unit for millisecond, second, minute, hour and day fields; other fields are an IllegalArgument |
| DateUtil.IsOlder | core/src/main/java/ch/syseca/sstl/util/date/DateUtil.java:252-254 | true iff the date lies before the reference time minus amount units; an unsupported field is an error |
| DateUtil.IsNotOlder | core/src/main/java/ch/syseca/sstl/util/date/DateUtil.java:262-264 | the negation of isOlder, with the same error |
| DateUtil.IsOlderMonotonic | core/src/main/java/ch/syseca/sstl/util/date/DateUtil.java:252-300 | a date older than some amount is older than every smaller amount |
| DateUtil.IsOlderExamples | core/src/test/java/ch/syseca/sstl/util/date/DateUtilTest.java:148-173 | 61 s is older than 1 minute, 59 s is not, 25 h is older than 1 day |
| TimeRange.GetLongRange | core/src/main/java/ch/syseca/sstl/util/date/TimeRange.java:103-108 | a closed range with minimum <= maximum; for a non-empty range it runs from minTime to maxTime - 1 |
| TimeRange.ContainsTime | core/src/main/java/ch/syseca/sstl/util/date/TimeRange.java:118-120 | the time lies in the closed long range of the time range |
| TimeRange.ContainsRange | core/src/main/java/ch/syseca/sstl/util/date/TimeRange.java:143-145 | both ends of the other's closed long range lie in this one's |
| TimeRange.IsOverlappedBy | core/src/main/java/ch/syseca/sstl/util/date/TimeRange.java:262-267 | the closed long ranges of the two time ranges intersect |
| TimeRange.Equals | core/src/main/java/ch/syseca/sstl/util/date/TimeRange.java:240-254 | both minTime and maxTime agree |
| TimeRange.ContainsTimeIsHalfOpen | core/src/main/java/ch/syseca/sstl/util/date/TimeRange.java:118-120 | for a non-empty range, containsTime iff minTime <= t < maxTime |
| TimeRange.EmptyRangeContainsTwoMillis | core/src/main/java/ch/syseca/sstl/util/date/TimeRange.java:103-120 | an empty range [t, t) contains t - 1 and t and no other time |
| TimeRange.ContainsTimeExamples | core/src/test/java/ch/syseca/sstl/util/date/TimeRangeTest.java:31-56 | [100, 200) contains 100 and 199 but not 50, 200 or 300 |
| TimeRange.ContainsRangeIsInclusion | core/src/main/java/ch/syseca/sstl/util/date/TimeRange.java:143-145 | for non-empty ranges, containsRange iff every time of the other range is in this one |
| TimeRange.ContainsRangeExamples | core/src/test/java/ch/syseca/sstl/util/date/TimeRangeTest.java:61-86 | [100, 200) contains [100, 110) and [100, 199) but not [80, 110), [30, 201) or [30, 400) |
| TimeRange.OverlapMeansCommonTime | core/src/main/java/ch/syseca/sstl/util/date/TimeRange.java:262-267 | two ranges overlap iff they share a millisecond; for non-empty ranges iff max(min) < min(max) |
| TimeRange.OverlapReflexiveSymmetric | core/src/main/java/ch/syseca/sstl/util/date/TimeRange.java:262-267 | overlap is reflexive and symmetric |
| TimeRange.AdjacentRangesDoNotOverlap | core/src/main/java/ch/syseca/sstl/util/date/TimeRange.java:18-27 | non-empty ranges [a, b) and [b, c) do not overlap |
| TimeRange.Intersect | core/src/main/java/ch/syseca/sstl/util/date/TimeRange.java:278-291 | an IllegalArgument iff the ranges do not overlap; otherwise it contains exactly the times both contain, and for non-empty ranges it is [max(min), min(max)) |
| TimeRange.IntersectSelf | core/src/main/java/ch/syseca/sstl/util/date/TimeRange.java:278-291 | a non-empty range intersected with itself is itself |
| TimeRange.IntersectOr | core/src/main/java/ch/syseca/sstl/util/date/TimeRange.java:302-308 | the intersection when there is one, otherwise the default |
| TimeRange.Millis | core/src/main/java/ch/syseca/sstl/util/date/TimeRange.java:228-230 | minTime plus the result is maxTime, and the result is positive iff the range is non-empty |
| TimeRange.IntersectionIsShorter | core/src/main/java/ch/syseca/sstl/util/date/TimeRange.java:228-291 | the intersection of non-empty ranges spans no more milliseconds than either |
| TimeRange.LongHash | core/src/main/java/ch/syseca/sstl/util/date/TimeRange.java:234-236 | the 32-bit word a long contributes to the hash, which is below 2^32 |
| TimeRange.HashCode | core/src/main/java/ch/syseca/sstl/util/date/TimeRange.java:234-236 | the builder hash with Java int wrap-around, within the int range |
| TimeRange.EqualsAndHashCode | core/src/main/java/ch/syseca/sstl/util/date/TimeRange.java:234-254 | equals is an equivalence that holds exactly for equal values, and equal ranges hash alike |
| TimeRange.OverlapExamples | core/src/test/java/ch/syseca/sstl/util/date/TimeRangeTest.java:111-150 | a day overlaps itself, a range inside it and ranges reaching into its first or last hour, but not the neighbouring days |
| TimeRange.IntersectExamples | core/src/test/java/ch/syseca/sstl/util/date/TimeRangeTest.java:154-196 | the tested intersections of a day, and the disjoint case rejected |
| TimeRange.MillisExample | core/src/test/java/ch/syseca/sstl/util/date/TimeRangeTest.java:90-96 | one minute spans 60000 ms |
| HexStreams.HexPair | core/src/main/java/ch/syseca/sstl/util/io/HexOutputStream.java:136-141 | two lowercase hex digits, high nibble first, that read back as the byte's unsigned value |
| HexStreams.Digit | core/src/main/java/ch/syseca/sstl/util/io/HexInputStream.java:51 | Character.digit(c, 16): the value 0..15 of a hex digit of either case, -1 for any other character |
| HexStreams.ToByte | core/src/main/java/ch/syseca/sstl/util/io/HexOutputStream.java:110-113 | the (byte) cast of write(int): the byte whose unsigned value is the int modulo 256 |
| HexStreams.DigitOfHexDigit | core/src/main/java/ch/syseca/sstl/util/io/HexInputStream.java:40-75 | the digit reader inverts the digit writer |
| HexStreams.Hex | core/src/main/java/ch/syseca/sstl/util/io/HexOutputStream.java:130-144 | two characters per byte |
| HexStreams.WriteHex | core/src/main/java/ch/syseca/sstl/util/io/HexOutputStream.java:130-144 | encodes the bytes from off up to len - 1 (len read as an end index); the capacity 2 * len wraps as a Java int and fails when negative |
| HexStreams.WriteRange | core/src/main/java/ch/syseca/sstl/util/io/HexOutputStream.java:98-101 | delegates to writeHex with the same arguments |
| HexStreams.WriteAll | core/src/main/java/ch/syseca/sstl/util/io/HexOutputStream.java:104-107 | the hex text of the whole array below 2^30 bytes; at 2^30 bytes or more the capacity overflows and the write fails |
| HexStreams.WriteByte | core/src/main/java/ch/syseca/sstl/util/io/HexOutputStream.java:110-113 | one hex pair of the low 8 bits of the int |
| HexStreams.WriteExamples | core/src/test/java/ch/syseca/sstl/util/io/HexStreamTest.java:28-39 | {0x41, 0x0a, 0x00, 0xff} is written 410a00ff; an empty array writes nothing |
| HexStreams.ReadByte | core/src/main/java/ch/syseca/sstl/util/io/HexInputStream.java:40-75 | -1 at the end; two hex digits always give the byte 16 * digit(c0) + digit(c1), advancing by two; a lone digit or a non-hex character fails without consuming |
| HexStreams.ReadAll | core/src/main/java/ch/syseca/sstl/util/io/HexInputStream.java:40-75 | repeated read up to -1 gives one value in 0..255 per character pair, or the first error |
| HexStreams.ReadAllIsPairValues | core/src/main/java/ch/syseca/sstl/util/io/HexInputStream.java:40-75 | reading to the end succeeds iff the rest is an even number of hex digits, and then yields 16 * digit(c0) + digit(c1) for each pair |
| HexStreams.UpperCaseExamples | core/src/main/java/ch/syseca/sstl/util/io/HexInputStream.java:51-66 | upper-case digits read like lower-case ones: 4A and 4a read as 0x4a, FF0b as 0xff, 0x0b |
| HexStreams.ReadHexRoundTrip | core/src/main/java/ch/syseca/sstl/util/io/HexInputStream.java:40-75 | reading the hex text of bytes gives back their unsigned values |
| HexStreams.WriteReadRoundTrip | core/src/test/java/ch/syseca/sstl/util/io/HexStreamTest.java:70-82 | what the writer writes for a whole array, the reader reads back |
| HexStreams.ReadExamples | core/src/test/java/ch/syseca/sstl/util/io/HexStreamTest.java:49-115 | 410aff00 reads as four bytes; 410a1 fails on the lone digit and 410akj on k, neither consuming |
| HexStreams.WriteRangeAsDocumented | core/src/main/java/ch/syseca/sstl/util/io/HexOutputStream.java:98-101 | the documented write(bytes, off, len): exactly len bytes from off, out-of-range arguments rejected |
| HexStreams.WriteRangeAsDocumentedRoundTrip | core/src/main/java/ch/syseca/sstl/util/io/HexOutputStream.java:98-101 | the documented writer's text reads back as exactly the len bytes from off |
| HexStreams.WriteRangeCountIsEndIndex | core/src/main/java/ch/syseca/sstl/util/io/HexOutputStream.java:130-144 | as written, write({1, 2, 3}, 1, 2) writes only the byte 2 |
| WildcardSearch.GetInstance | core/src/main/java/ch/syseca/sstl/util/text/WildcardSearch.java:81-89 | a matcher with the given wildcards and case mode |
| WildcardSearch.GetInstanceWithCase | core/src/main/java/ch/syseca/sstl/util/text/WildcardSearch.java:65-67 | the default '*', '_' and escape '\\', with the given case mode |
| WildcardSearch.GetDefaultInstance | core/src/main/java/ch/syseca/sstl/util/text/WildcardSearch.java:53-55 | the default wildcards, case-insensitive |
| WildcardSearch.ToLower | core/src/main/java/ch/syseca/sstl/util/text/WildcardSearch.java:177-180 | Character.toLowerCase: an upper-case letter becomes its lower-case letter, every other character stays |
| WildcardSearch.SameChar | core/src/main/java/ch/syseca/sstl/util/text/WildcardSearch.java:175-181 | pattern and text character are equal, or in case-insensitive mode equal after lowering both |
| WildcardSearch.MatchFrom | core/src/main/java/ch/syseca/sstl/util/text/WildcardSearch.java:143-150 | the loop of the multi-char wildcard: the rest of the pattern matches from text position i or from a later one up to the text length |
| WildcardSearch.CaseInsensitiveIgnoresCase | core/src/main/java/ch/syseca/sstl/util/text/WildcardSearch.java:168-185 | a case-insensitive matcher compares a letter and its other case as equal |
| WildcardSearch.LiteralPos | core/src/main/java/ch/syseca/sstl/util/text/WildcardSearch.java:158-166 | after an escape the next pattern character is compared; a trailing escape is compared as itself |
| WildcardSearch.Match | core/src/main/java/ch/syseca/sstl/util/text/WildcardSearch.java:126-186 | the recursive matcher as written; at the end of the pattern it succeeds iff the text is used up |
| WildcardSearch.MatchFromMeansSomePosition | core/src/main/java/ch/syseca/sstl/util/text/WildcardSearch.java:143-150 | the multi-char loop succeeds iff the rest of the pattern matches from some text position at or after i |
| WildcardSearch.MultiWildcardMeansSomeSplit | core/src/main/java/ch/syseca/sstl/util/text/WildcardSearch.java:143-150 | a '*' matches iff the rest of the pattern matches from some later text position |
| WildcardSearch.Matches | core/src/main/java/ch/syseca/sstl/util/text/WildcardSearch.java:103-113 | an IllegalArgument naming the null argument, otherwise the match from the start |
| WildcardSearch.NullArgumentExamples | core/src/test/java/ch/syseca/sstl/util/text/WildcardSearchTest.java:16-37 | a null text, pattern or both is rejected |
| WildcardSearch.PrefixExamples | core/src/test/java/ch/syseca/sstl/util/text/WildcardSearchTest.java:44-45 | "T*" and "t*" both match "Test", ignoring case |
| WildcardSearch.InfixExamples | core/src/test/java/ch/syseca/sstl/util/text/WildcardSearchTest.java:46-47 | "*" and "*e*" match "Test" |
| WildcardSearch.InfixMissExample | core/src/test/java/ch/syseca/sstl/util/text/WildcardSearchTest.java:51 | "*x*" does not match "Test" |
| WildcardSearch.SingleExamples | core/src/test/java/ch/syseca/sstl/util/text/WildcardSearchTest.java:48-49 | "t_st", "T_st" and "T_s*" match "Test" |
| WildcardSearch.EscapedMultiExamples | core/src/test/java/ch/syseca/sstl/util/text/WildcardSearchTest.java:53-55 | an escaped '*' matches only a literal '*' |
| WildcardSearch.EscapedSingleExamples | core/src/test/java/ch/syseca/sstl/util/text/WildcardSearchTest.java:57-59 | an escaped '_' matches only a literal '_' |
| WildcardSearch.TrailingEscapeIsLiteral | core/src/main/java/ch/syseca/sstl/util/text/WildcardSearch.java:158-166 | a pattern ending in a backslash matches a text ending in a backslash |
| WildcardSearch.SingleWildcardPastEnd | core/src/main/java/ch/syseca/sstl/util/text/WildcardSearch.java:153-155 | as written, "" matches "_" and "a" matches "a_" |
| WildcardSearch.MatchExact | core/src/main/java/ch/syseca/sstl/util/text/WildcardSearch.java:4-21 | the documented matcher, where '_' needs a character; at the end of the pattern it succeeds iff the text is used up |
| WildcardSearch.MatchesExact | core/src/main/java/ch/syseca/sstl/util/text/WildcardSearch.java:103-113 | the null checks of matches, with the documented matcher |
| WildcardSearch.MatchExactIsGlob | core/src/main/java/ch/syseca/sstl/util/text/WildcardSearch.java:4-21 | the corrected matcher accepts exactly what the reference wildcard relation accepts |
| WildcardSearch.MatchExactFromIsGlob | core/src/main/java/ch/syseca/sstl/util/text/WildcardSearch.java:143-150 | the corrected multi-char loop agrees with the reference relation from every position |
| WildcardSearch.StarFreeMatchesOwnLength | core/src/main/java/ch/syseca/sstl/util/text/WildcardSearch.java:4-21 | a pattern without '*' and without the escape character only matches texts of its own length, under the documented semantics |
| WildcardSearch.ExactImpliesAsWritten | core/src/main/java/ch/syseca/sstl/util/text/WildcardSearch.java:126-186 | whatever the corrected matcher accepts, the as-written matcher accepts too |
| ExtResolver.IndexOf | core/src/main/java/ch/syseca/sstl/util/beanutil/expression/ExtResolver.java:51-53 | the first position at or after from holding c, or -1 when there is none |
| ExtResolver.Quote | core/src/main/java/ch/syseca/sstl/util/beanutil/expression/ExtResolver.java:56-83 | the written form of a key, with every quote doubled |
| ExtResolver.GetQuotedString | core/src/main/java/ch/syseca/sstl/util/beanutil/expression/ExtResolver.java:56-83 | the key read from just after the first quote of the expression |
| ExtResolver.QuotedFrom | core/src/main/java/ch/syseca/sstl/util/beanutil/expression/ExtResolver.java:61-80 | the reading loop: a doubled quote contributes one quote, a single quote ends the key, any other character is kept |
| ExtResolver.QuotedFromQuote | core/src/main/java/ch/syseca/sstl/util/beanutil/expression/ExtResolver.java:56-83 | reading a quoted key written with Quote up to its closing quote gives the key back |
| ExtResolver.KeyFrom | core/src/main/java/ch/syseca/sstl/util/beanutil/expression/ExtResolver.java:31-44 | a key is only found when a '(' stands at or after the scan start |
| ExtResolver.GetKey | core/src/main/java/ch/syseca/sstl/util/beanutil/expression/ExtResolver.java:26-48 | None for a null or empty expression; a key is only found in an expression holding '(' |
| ExtResolver.GetKeyNoneBeforeMapped | core/src/main/java/ch/syseca/sstl/util/beanutil/expression/ExtResolver.java:31-44 | getKey is None for a name alone or followed by '.' or '[', and a key or an error for a name followed by '(': so None iff a '.' or '[' comes before the first '(' or there is no '(' |
| ExtResolver.UnquotedKey | core/src/main/java/ch/syseca/sstl/util/beanutil/expression/ExtResolver.java:38-44 | without quotes, the key is the text between '(' and the first ')' |
| ExtResolver.MissingEndDelimiter | core/src/main/java/ch/syseca/sstl/util/beanutil/expression/ExtResolver.java:38-44 | a '(' with no ')' after it and no quote is an IllegalArgument |
| ExtResolver.QuotedKeyAt | core/src/main/java/ch/syseca/sstl/util/beanutil/expression/ExtResolver.java:36-37 | with a quote after the '(' the key is what getQuotedString reads after the first quote |
| ExtResolver.QuotedKeyRoundTrip | core/src/main/java/ch/syseca/sstl/util/beanutil/expression/ExtResolver.java:26-83 | getKey of name(pad'Quote(k)')rest is k, whatever parentheses and quotes k holds |
| ExtResolver.GetKeyUnquotedExamples | core/src/test/java/ch/syseca/sstl/util/beanutil/expression/ExtResolverTest.java:24-34 | getKey of map(key1) is key1 and of map([abc]\|[123]\|[xyz]) is [abc]\|[123]\|[xyz] |
| ExtResolver.GetKeyQuotedExamples | core/src/test/java/ch/syseca/sstl/util/beanutil/expression/ExtResolverTest.java:38-40 | getKey of map('(abc)\|(123)\|('')\|[xyz]'), with or without blanks around the quotes, is (abc)\|(123)\|(')\|[xyz] |
| ExtResolver.QuoteAppend | core/src/main/java/ch/syseca/sstl/util/beanutil/expression/ExtResolver.java:56-83 | quoting distributes over concatenation |
| ExtResolver.QuoteWithoutQuotes | core/src/main/java/ch/syseca/sstl/util/beanutil/expression/ExtResolver.java:56-83 | a key without quotes is written as itself |
| ExtResolver.QuoteOneQuote | core/src/main/java/ch/syseca/sstl/util/beanutil/expression/ExtResolver.java:56-83 | a key with one quote is written with that quote doubled |
| ExtResolver.NextFrom | core/src/main/java/ch/syseca/sstl/util/beanutil/expression/ExtResolver.java:108-142 | the result is a prefix of the expression at least as long as the scan start |
| ExtResolver.Next | core/src/main/java/ch/syseca/sstl/util/beanutil/expression/ExtResolver.java:99-145 | None for null; otherwise a prefix of the expression, the whole one when no terminator is found |
| ExtResolver.NextStopsAtNested | core/src/main/java/ch/syseca/sstl/util/beanutil/expression/ExtResolver.java:133-142 | a plain name is returned up to, not including, the first '.' |
| ExtResolver.NextThroughIndexEnd | core/src/main/java/ch/syseca/sstl/util/beanutil/expression/ExtResolver.java:112-115 | an indexed property is returned through the first ']' |
| ExtResolver.NextUnquotedKey | core/src/main/java/ch/syseca/sstl/util/beanutil/expression/ExtResolver.java:116-132 | an unquoted mapped property is returned through the first ')' |
| ExtResolver.ScanQuotedBody | core/src/main/java/ch/syseca/sstl/util/beanutil/expression/ExtResolver.java:117-127 | inside the quotes, Quote(k) is skipped whole: doubled quotes escape and ')' is ignored |
| ExtResolver.NextQuotedKey | core/src/main/java/ch/syseca/sstl/util/beanutil/expression/ExtResolver.java:116-132 | a quoted mapped property is returned through the first ')' after the closing quote, whatever k holds |
| ExtResolver.NextUnquotedExamples | core/src/test/java/ch/syseca/sstl/util/beanutil/expression/ExtResolverTest.java:48-61 | next of a.b is a, of map(key1) is map(key1), and of map([abc]\|[123]\|[xyz]) the whole expression |
| ExtResolver.NextQuotedExamples | core/src/test/java/ch/syseca/sstl/util/beanutil/expression/ExtResolverTest.java:65-67 | next of the quoted key expressions, with or without blanks, is the whole expression |
| PropertiesFormat.CreateNewPropertySet | core/src/main/java/ch/syseca/sstl/util/text/PropertiesFormat.java:11-14 | both formats start from an empty set |
| PropertiesFormat.Put | core/src/main/java/ch/syseca/sstl/util/text/AbstractPropertiesFormat.java:120 | the key maps to the value; an existing key keeps its position, a new one is appended; distinct keys stay distinct |
| PropertiesFormat.Encode | core/src/main/java/ch/syseca/sstl/util/text/AbstractPropertiesFormat.java:145-154 | never shorter than the text, opening with its first character, which is doubled when special |
| PropertiesFormat.EncodePlain | core/src/main/java/ch/syseca/sstl/util/text/AbstractPropertiesFormat.java:145-154 | text without '=' and ';' is written as itself |
| PropertiesFormat.EncodeAppend | core/src/main/java/ch/syseca/sstl/util/text/AbstractPropertiesFormat.java:145-154 | encoding distributes over concatenation |
| PropertiesFormat.Decode | core/src/main/java/ch/syseca/sstl/util/text/AbstractPropertiesFormat.java:169-220 | on success the index advances and stops just after the separator or at the end; an error is at a lone special character other than the separator |
| PropertiesFormat.DecodeEncode | core/src/main/java/ch/syseca/sstl/util/text/AbstractPropertiesFormat.java:145-203 | decoding encode(s) and the separator gives s back and consumes exactly that, unless the separator is doubled |
| PropertiesFormat.DecodeEncodeToEnd | core/src/main/java/ch/syseca/sstl/util/text/AbstractPropertiesFormat.java:145-203 | decoding encode(s) that runs to the end of the source gives s back |
| PropertiesFormat.DecodePlain | core/src/main/java/ch/syseca/sstl/util/text/AbstractPropertiesFormat.java:169-203 | text without special characters is copied up to the separator or the end |
| PropertiesFormat.Trim | core/src/main/java/ch/syseca/sstl/util/text/AbstractPropertiesFormat.java:120 | a trimmed text no longer than the input; a text trim leaves alone is returned as it is |
| PropertiesFormat.TrimPadded | core/src/main/java/ch/syseca/sstl/util/text/AbstractPropertiesFormat.java:120 | a trimmed text padded with blanks trims back to itself |
| PropertiesFormat.IsWhitespace | core/src/main/java/ch/syseca/sstl/util/text/AbstractPropertiesFormat.java:76 | the whitespace of the isNotBlank test: blank, tab, the line and form separators and the four information separators |
| PropertiesFormat.ParseEntry | core/src/main/java/ch/syseca/sstl/util/text/AbstractPropertiesFormat.java:91-121 | one loop round: an error index stays within the source; a property read advances the index and has a trimmed key and value |
| PropertiesFormat.ParseLoop | core/src/main/java/ch/syseca/sstl/util/text/AbstractPropertiesFormat.java:91-121 | the set only grows and keeps distinct keys; an error index stays within the source |
| PropertiesFormat.ParseObject | core/src/main/java/ch/syseca/sstl/util/text/AbstractPropertiesFormat.java:86-129 | the parsed set, with distinct keys, or the error index and no set |
| PropertiesFormat.ParseProperties | core/src/main/java/ch/syseca/sstl/util/text/AbstractPropertiesFormat.java:73-83 | null or blank text gives an empty set; any parse error is a ParseException |
| PropertiesFormat.FormatEntry | core/src/main/java/ch/syseca/sstl/util/text/AbstractPropertiesFormat.java:50-57 | encode(key), '=', encode(value) when not null, ';' |
| PropertiesFormat.KeyLessStrictTotal | core/src/main/java/ch/syseca/sstl/util/text/PropertiesFormat.java:17-20 | the String.compareTo order on keys is irreflexive, asymmetric and total |
| PropertiesFormat.KeyLessTransitive | core/src/main/java/ch/syseca/sstl/util/text/PropertiesFormat.java:17-20 | the String.compareTo order on keys is transitive |
| PropertiesFormat.Insert | core/src/main/java/ch/syseca/sstl/util/text/PropertiesFormat.java:17-20 | inserting a new key into key-sorted entries keeps them sorted and adds exactly that entry |
| PropertiesFormat.SortByKey | core/src/main/java/ch/syseca/sstl/util/text/PropertiesFormat.java:17-20 | the TreeMap copy holds the same entries, sorted by key |
| PropertiesFormat.KeyLess | core/src/main/java/ch/syseca/sstl/util/text/PropertiesFormat.java:17-20 | the key order of the TreeMap: lexicographic by character, a proper prefix first |
| PropertiesFormat.SortedUnique | core/src/main/java/ch/syseca/sstl/util/text/PropertiesFormat.java:17-20 | two key-sorted sequences with the same entries and distinct keys are equal |
| PropertiesFormat.Export | core/src/main/java/ch/syseca/sstl/util/text/LinkedPropertiesFormat.java:15-18 | the linked format exports the set in insertion order, the sorted one the same entries sorted by key |
| PropertiesFormat.Format | core/src/main/java/ch/syseca/sstl/util/text/AbstractPropertiesFormat.java:47-60 | the exported entries one after another, each as FormatEntry writes it |
| PropertiesFormat.FormatOne | core/src/main/java/ch/syseca/sstl/util/text/AbstractPropertiesFormat.java:47-60 | both formats write a single entry alike |
| PropertiesFormat.SortedFormatIgnoresInsertionOrder | core/src/main/java/ch/syseca/sstl/util/text/PropertiesFormat.java:17-20 | the sorted format writes the same text for sets with the same entries in any order |
| PropertiesFormat.ParseFormatted | core/src/main/java/ch/syseca/sstl/util/text/AbstractPropertiesFormat.java:47-129 | parsing written entries that can be read back gives those entries, in order |
| PropertiesFormat.LinkedRoundTrip | core/src/main/java/ch/syseca/sstl/util/text/LinkedPropertiesFormat.java:9-18 | parse(format(ps)) == ps for the linked format, in insertion order |
| PropertiesFormat.SortedRoundTrip | core/src/main/java/ch/syseca/sstl/util/text/PropertiesFormat.java:11-20 | parse(format(ps)) gives the entries sorted by key, and formatting that again gives the same text |
| PropertiesFormat.FormatCollision | core/src/main/java/ch/syseca/sstl/util/text/AbstractPropertiesFormat.java:47-60 | a value opening with '=' is written like a key ending with '=' |
| PropertiesFormat.CollisionParsesAsKey | core/src/main/java/ch/syseca/sstl/util/text/AbstractPropertiesFormat.java:86-220 | that text parses as the key ending with '=' |
| PropertiesFormatExamples.ParseEmptyExamples | core/src/test/java/ch/syseca/sstl/util/text/LinkedPropertiesFormatTest.java:38-50 | null and "" parse to an empty set |
| PropertiesFormatExamples.ParseBlanksExample | core/src/test/java/ch/syseca/sstl/util/text/LinkedPropertiesFormatTest.java:45-46 | blanks parse to an empty set |
| PropertiesFormatExamples.ParsePlainExample | core/src/test/java/ch/syseca/sstl/util/text/LinkedPropertiesFormatTest.java:22-30 | a=3;b=56; parses to a = 3, b = 56 |
| PropertiesFormatExamples.ParseExample | core/src/test/java/ch/syseca/sstl/util/text/LinkedPropertiesFormatTest.java:58-67 | a=2+2==4;b=56;;;c=9 parses to a = 2+2=4, b = 56; and c = 9 |
| PropertiesFormatExamples.ParseTrailingBlanksExample | core/src/test/java/ch/syseca/sstl/util/text/LinkedPropertiesFormatTest.java:109-117 | blanks around keys and values are dropped |
| PropertiesFormatExamples.ParseErrorExample | core/src/test/java/ch/syseca/sstl/util/text/LinkedPropertiesFormatTest.java:90-101 | a blank key before more data is a ParseException |
| PropertiesFormatExamples.FormatExample | core/src/test/java/ch/syseca/sstl/util/text/LinkedPropertiesFormatTest.java:73-78 | {a: 4} is written a=4; |
| PropertiesFormatExamples.FormatSpecialExample | core/src/test/java/ch/syseca/sstl/util/text/LinkedPropertiesFormatTest.java:80-81 | {a: 1+2=3;} is written a=1+2==3;;; |
| PropertiesFormatExamples.SortedOrderExample | core/src/test/java/ch/syseca/sstl/util/text/PropertiesFormatTest.java:121-129 | b put before a is written a=1;b=2; by the sorted format |
| MessageFormatNA.Advance | core/src/main/java/ch/syseca/sstl/util/text/MessageFormatNA.java:162-214 | depth and quote mode after one copied character; the flag is raised only by the '{' that brings the depth to 1 |
| MessageFormatNA.DoubledQuoteIsNeutral | core/src/main/java/ch/syseca/sstl/util/text/MessageFormatNA.java:187-193 | a doubled quote at depth 0 leaves the state as it was |
| MessageFormatNA.QuotedBraceOpensNothing | core/src/main/java/ch/syseca/sstl/util/text/MessageFormatNA.java:166-177 | a quoted '{' at depth 0 opens no placeholder |
| MessageFormatNA.ParseName | core/src/main/java/ch/syseca/sstl/util/text/MessageFormatNA.java:228-241 | the maximal run of ASCII letters at the position, and the position after it |
| MessageFormatNA.NatToStringRoundTrip | core/src/main/java/ch/syseca/sstl/util/text/MessageFormatNA.java:128 | reading back the decimal digits of a value gives the value |
| MessageFormatNA.ParseInt | core/src/main/java/ch/syseca/sstl/util/text/MessageFormatNA.java:221-225 | reads the maximal run of ASCII digits at the position and stops after it |
| MessageFormatNA.ParseIntReadsIndex | core/src/main/java/ch/syseca/sstl/util/text/MessageFormatNA.java:143-145 | parseInt reads back the index that Integer.toString wrote |
| MessageFormatNA.LexFlattens | core/src/main/java/ch/syseca/sstl/util/text/MessageFormatNA.java:155-218 | the pieces the scanner sees spell the pattern |
| MessageFormatNA.MaxFromIsFold | core/src/main/java/ch/syseca/sstl/util/text/MessageFormatNA.java:138-152 | the running maximum is the maximum over the digit tokens of the pieces |
| MessageFormatNA.EvaluateMaxArgIndex | core/src/main/java/ch/syseca/sstl/util/text/MessageFormatNA.java:138-152 | -1 without digit placeholders, otherwise the largest explicit index; names play no part |
| MessageFormatNA.MaxFrom | core/src/main/java/ch/syseca/sstl/util/text/MessageFormatNA.java:138-152 | the scan of evaluateMaxArgIndex: the largest of the running maximum and the explicit indices from position i on |
| MessageFormatNA.DedupKeepsFirstOccurrenceOrder | core/src/main/java/ch/syseca/sstl/util/text/MessageFormatNA.java:124-127 | distinct names keep the order of their first occurrence |
| MessageFormatNA.ComputeIfAbsentAllocates | core/src/main/java/ch/syseca/sstl/util/text/MessageFormatNA.java:124-127 | computeIfAbsent with the counter numbers names in first-occurrence order |
| MessageFormatNA.NamesFromKeeps | core/src/main/java/ch/syseca/sstl/util/text/MessageFormatNA.java:119-132 | the name pass only adds to the map |
| MessageFormatNA.NamesFromAllocates | core/src/main/java/ch/syseca/sstl/util/text/MessageFormatNA.java:119-132 | the one-pass rewrite agrees with the piece-wise reference: first-occurrence numbering and each name token rendered as its index |
| MessageFormatNA.NamesToIndex | core/src/main/java/ch/syseca/sstl/util/text/MessageFormatNA.java:114-135 | the map holds exactly the names, numbered max + 1, max + 2, ... in first-occurrence order, and the text has each name replaced |
| MessageFormatNA.NamesFrom | core/src/main/java/ch/syseca/sstl/util/text/MessageFormatNA.java:114-135 | the rewrite from position i on, allocating from the given map and counter |
| MessageFormatNA.ComputeIfAbsent | core/src/main/java/ch/syseca/sstl/util/text/MessageFormatNA.java:124-127 | a known name keeps its index; a new name gets the counter plus one, which becomes the counter |
| MessageFormatNA.NameIndicesAreFresh | core/src/main/java/ch/syseca/sstl/util/text/MessageFormatNA.java:114-135 | name indices are pairwise distinct, non-negative and above every explicit index |
| MessageFormatNA.NameIndicesFollowFirstOccurrence | core/src/main/java/ch/syseca/sstl/util/text/MessageFormatNA.java:124-127 | a name first occurring later gets a larger index |
| MessageFormatNA.RewriteOnlyTouchesNames | core/src/main/java/ch/syseca/sstl/util/text/MessageFormatNA.java:114-135 | only name tokens change; a pattern without names comes back unchanged with an empty map |
| MessageFormatNA.UpdateDateFormatTimeZone | core/src/main/java/ch/syseca/sstl/util/text/MessageFormatNA.java:264-274 | date formats get the configured or default zone, those ending in 'Z' get GMT, others are untouched |
| MessageFormatNA.WithZone | core/src/main/java/ch/syseca/sstl/util/text/MessageFormatNA.java:267-272 | a SimpleDateFormat printing a literal Z gets GMT, any other date format the given zone, other formats are untouched |
| MessageFormatNA.ZoneChoiceIsStable | core/src/main/java/ch/syseca/sstl/util/text/MessageFormatNA.java:264-281 | choosing the zones again changes nothing |
| MessageFormatNA.ApplyPattern | core/src/main/java/ch/syseca/sstl/util/text/MessageFormatNA.java:107-111 | the map is the one the rewrite builds and holds exactly the pattern's names, the text is their rewrite, the zones are chosen, and arguments and zone are kept |
| MessageFormatNA.New | core/src/main/java/ch/syseca/sstl/util/text/MessageFormatNA.java:67-69 | no arguments and no zone; the map is the one the rewrite of the pattern builds |
| MessageFormatNA.SetTimeZone | core/src/main/java/ch/syseca/sstl/util/text/MessageFormatNA.java:277-281 | the zone is remembered and the sub-formats get it |
| MessageFormatNA.AddNamedArgumentSupplier | core/src/main/java/ch/syseca/sstl/util/text/MessageFormatNA.java:82-85 | the name is bound to the supplier; other bindings are unchanged |
| MessageFormatNA.AddNamedArgument | core/src/main/java/ch/syseca/sstl/util/text/MessageFormatNA.java:77-79 | the name is bound to a supplier of the constant value |
| MessageFormatNA.AddAllNamedArgumentSupplier | core/src/main/java/ch/syseca/sstl/util/text/MessageFormatNA.java:88-91 | each given binding wins; other bindings are unchanged |
| MessageFormatNA.AddIndexedArgument | core/src/main/java/ch/syseca/sstl/util/text/MessageFormatNA.java:94-97 | the value is appended to the indexed arguments |
| MessageFormatNA.AddToArgList | core/src/main/java/ch/syseca/sstl/util/text/MessageFormatNA.java:292-295 | the list is padded with nulls to cover pos, which holds the value; other elements are kept |
| MessageFormatNA.SetIndexedArgument | core/src/main/java/ch/syseca/sstl/util/text/MessageFormatNA.java:100-104 | a negative position is an error; otherwise the position holds the value, padded with nulls |
| MessageFormatNA.ResolvedArgsAreUnique | core/src/main/java/ch/syseca/sstl/util/text/MessageFormatNA.java:244-261 | the argument list is fully determined, so the map's iteration order does not matter |
| MessageFormatNA.Format | core/src/main/java/ch/syseca/sstl/util/text/MessageFormatNA.java:244-261 | each name's slot holds its supplier's value or null, others the indexed argument or null; each pattern name's supplier is called once |
| MessageFormatNA.AddedNameResolves | core/src/main/java/ch/syseca/sstl/util/text/MessageFormatNA.java:77-85 | a value added under a name is what the name resolves to |
| MessageFormatNA.UnboundNameWritesNull | core/src/main/java/ch/syseca/sstl/util/text/MessageFormatNA.java:249-257 | a name without a supplier puts null in its slot, even over an indexed argument |
| MessageFormatNA.NoNamesPassesIndexed | core/src/main/java/ch/syseca/sstl/util/text/MessageFormatNA.java:244-261 | without names, format passes exactly the indexed arguments |
| MessageFormatNAExamples.MaxIndexOfIndexedPattern | core/src/test/java/ch/syseca/sstl/util/text/MessageFormatNATest.java:46 | the largest index of {0} {1} {2} is 2 |
| MessageFormatNAExamples.MaxIndexComesFirst | core/src/test/java/ch/syseca/sstl/util/text/MessageFormatNATest.java:47 | the largest index of {6} {1} {2} is 6 |
| MessageFormatNAExamples.MaxIndexIgnoresNames | core/src/test/java/ch/syseca/sstl/util/text/MessageFormatNATest.java:48 | the largest index of {name} {0} {1} is 1 |
| MessageFormatNAExamples.MaxIndexBeforeNames | core/src/test/java/ch/syseca/sstl/util/text/MessageFormatNATest.java:55 | the largest explicit index of the mixed pattern is 2 |
| MessageFormatNAExamples.NamesAfterMaxIndex | core/src/test/java/ch/syseca/sstl/util/text/MessageFormatNATest.java:53-61 | name and familyName become 3 and 4 and are rewritten so |
| MessageFormatNAExamples.MaxIndexOfRepeatedName | core/src/test/java/ch/syseca/sstl/util/text/MessageFormatNATest.java:216 | {v}={v} has no explicit index |
| MessageFormatNAExamples.RepeatedNameSharesIndex | core/src/test/java/ch/syseca/sstl/util/text/MessageFormatNATest.java:213-218 | {v}={v} becomes {0}={0} with v at 0 |
| MessageFormatNAExamples.CountingSupplier | core/src/test/java/ch/syseca/sstl/util/text/MessageFormatNATest.java:19-27 | the counting supplier of the tests: not yet called, it answers start + 1, then start + 2 |
| MessageFormatNAExamples.SameArgMultipleTimes | core/src/test/java/ch/syseca/sstl/util/text/MessageFormatNATest.java:213-218 | format() of {v}={v} with a counting supplier from 2 builds the argument array [3], calling the supplier once |
| MessageFormatNAExamples.MaxIndexOfQuotedNames | core/src/test/java/ch/syseca/sstl/util/text/MessageFormatNATest.java:137 | the pattern with doubled quotes and a sub-format has no explicit index |
| MessageFormatNAExamples.QuotedNamesAreRewritten | core/src/test/java/ch/syseca/sstl/util/text/MessageFormatNATest.java:137-153 | names between doubled quotes become 0, 1 and 2, the sub-format kept |
| MessageFormatNAExamples.MaxIndexOfNamesOnly | core/src/test/java/ch/syseca/sstl/util/text/MessageFormatNATest.java:158 | {first} {second} {third} has no explicit index |
| MessageFormatNAExamples.NamesNumberedFromZero | core/src/test/java/ch/syseca/sstl/util/text/MessageFormatNATest.java:155-162 | {first} {second} {third} becomes {0} {1} {2} |

## Left out

- MessageFormat's rendering of the argument list is not modelled. This covers number, date and choice sub-formats, NumberFormat, Locale and the final text. The model stops at the argument array handed to `MessageFormat.format`.
- MessageFormatNA.ParseInt: NumberFormat's locale-dependent integer parsing (grouping separators, signs) is reduced to the maximal run of ASCII digits. In every pattern MessageFormat accepts, that is all it meets before ',' or '}'. A grouped number such as "{1,000}", or "{1'000}" in a Swiss locale, is read by Java as one index, while the model reads only the leading digits; MessageFormat rejects such patterns afterwards. The `intValue()` of the parsed Long truncates to 32 bits, which is not modelled: in Java "{4294967297}" counts as index 1, in the model as 4294967297.
- MessageFormatNA.NamesToIndex: the int wrap-around of `namedArgIdx.increment()` past Integer.MAX_VALUE is not modelled, and neither are MessageFormatNA.NamesFrom, MessageFormatNA.ComputeIfAbsent and MessageFormatNA.NameIndicesAreFresh, which rest on it. For "{2147483647} {name}" Java gives `name` the index -2147483648 and MessageFormat then rejects the rewritten pattern, while the model gives 2147483648, which NameIndicesAreFresh proves to be above every explicit index.
- MessageFormatNA.New: the `pattern` field is never assigned in the source. MessageFormat's own pattern parsing of the rewritten text is reduced to the list of parsed sub-formats, which is a parameter.
- MessageFormatNA.AddNamedArgument: a supplier is modelled as a function of how often it has been called. Supplier objects shared between formatters, and their side effects, are not modelled.
- MessageFormatNA.SetIndexedArgument: the int overflow of `pos + 1` at Integer.MAX_VALUE is not modelled.
- DateUtil's calendar functions `dayOf`, `add` and `toInstant` are not modelled: they depend on Calendar and time-zone rules. The clock overloads of `isOlder`/`isNotOlder` are modelled with the reference time as a parameter.
- DateUtil.IsOlder: the long wrap-around of `referenceTime.getTime() - amount * factor` is not modelled; the product itself, an int times at most 86 400 000, stays in the long range. With the reference time Long.MIN_VALUE, amount 1 and MILLISECOND, Java compares against Long.MAX_VALUE, while the model compares against Long.MIN_VALUE - 1.
- ListUtil.Truncate: the int wrap-around of `list.size() - newSize` is not modelled. For newSize <= size - 2^31 Java's difference wraps to a number <= 0 and nothing is removed: `truncate([x], Integer.MIN_VALUE)` leaves [x] and returns an empty list, while the model empties the list and returns 2^31 nulls followed by x.
- ListUtil.Resize: the same wrap-around is not modelled. `resize([x], Integer.MIN_VALUE, g)` leaves [x] in Java, while the model ends with an empty list.
- ListUtil.FirstOrNull, ListUtil.LastOrNull, ListUtil.RemoveLast, ListUtil.Fill and ListUtil.Resize take a non-null list; the NullPointerException these methods throw on null is not modelled. Truncate does model a null list.
- DateUtil.Before, DateUtil.After, DateUtil.EqualOrAfter, DateUtil.EqualOrBefore and DateUtil.IsOlder take non-null dates; the NullPointerException these methods throw on null is not modelled. Min, Max and Compare do model null.
- TimeRange.Intersect: the identity shortcut `this == other` is not modelled. For an empty range the source returns the range itself, while the model computes the intersection of the closed long ranges. The long wrap-around of `getMaximum() + 1` is not modelled either: for two distinct ranges [Long.MAX_VALUE, Long.MAX_VALUE) the intersection's maximum is Long.MAX_VALUE, so Java builds maxTime Long.MIN_VALUE, while the model builds Long.MAX_VALUE + 1.
- TimeRange.GetLongRange: the long overflow of `maxTime - 1` at Long.MIN_VALUE is not modelled.
- TimeRange.Millis: the long wrap-around of `maxTime - minTime` is not modelled. In Java `new TimeRange(Long.MIN_VALUE, 1).millis()` is negative; in the model it is 2^63 + 1.
- TimeRange's `toString` (MessageFormat and Instant formatting) is not modelled. Neither are the constructors from Date, Instant and ZonedDateTime; the range is built from two epoch-millisecond values.
- The Writer and Reader plumbing of the hex streams (`flush`, `close`, buffering) is not modelled. The output is the text appended; the input is the text read.
- The serialised-object round trip of HexStreamTest is covered by HexStreams.ReadHexRoundTrip on the bytes. Java serialisation is not modelled.
- Severity's `log` methods are not modelled: they write to an SLF4J logger.
- The parallel-stream test of DistinctFilter is not modelled: it concerns concurrency.
- The two assertions of ExtResolverTest that use commons-beanutils' DefaultResolver are not modelled; that class is not part of this model.
- The 100-entry insertion-order example of LinkedPropertiesFormatTest is not stated for 100 entries. PropertiesFormat.LinkedRoundTrip states it for every property set whose entries can be read back.
- Error messages of IllegalArgument exceptions are abstracted to a short tag naming the argument or the reason.
- WildcardSearch.ToLower: case folding is restricted to ASCII letters.
- PropertiesFormat.IsWhitespace: whitespace is restricted to the ASCII whitespace characters.
- HexStreams.Digit: Character.digit is restricted to ASCII.
- HexStreams.ReadByte: the model assumes a pushback capacity of at least 2, as the PushbackReader the stream creates itself has. A PushbackReader handed in by the caller is used as it is (HexInputStream.java:31-32); with the default capacity 1, the second unread after a bad second character throws an IOException, which the model does not show.
- Strings are sequences of Unicode scalar values in the model, while a Java String is a sequence of UTF-16 code units. They differ only on characters outside the Basic Multilingual Plane, which Java stores as two surrogate units. So positions and lengths differ there: the error index of a ParseException and the positions ExtResolver scans count scalars in the model and code units in Java.
- WildcardSearch.Match: the single-char wildcard '_' consumes one Unicode scalar in the model but one UTF-16 code unit in Java. So "_" matches a single supplementary character such as U+1F600 only in the model; Java needs "__".
- PropertiesFormat.SortByKey: the TreeMap orders keys by String.compareTo, which compares UTF-16 code units, while KeyLess compares Unicode scalars. The orders agree on the Basic Multilingual Plane but not beyond it: U+FFFF sorts before U+10000 in the model but after it in Java, because the surrogate unit 0xD800 is smaller than 0xFFFF.

## Findings

| source | as written | input that shows it | evidently intended | confidence | as-written member | corrected member |
|---|---|---|---|---|---|---|
| core/src/main/java/ch/syseca/sstl/util/text/WildcardSearch.java:153-155 | the single-char wildcard advances the text position even when the text is used up, so it matches past the end | matches("", "_") and matches("a", "a_") are true | '_' matches exactly one character (class comment, line 8) | not executed | WildcardSearch.SingleWildcardPastEnd | WildcardSearch.MatchExactIsGlob |
| core/src/main/java/ch/syseca/sstl/util/io/HexOutputStream.java:130-144 | the loop runs from off to len - 1, treating len as an end index | write({1, 2, 3}, 1, 2) writes "02" | write len bytes starting at off, as OutputStream.write(byte[], int, int) documents | not executed | HexStreams.WriteRangeCountIsEndIndex | HexStreams.WriteRangeAsDocumentedRoundTrip |

=== FILE: date_util.dfy ===
/** DateUtil: comparisons of dates by their epoch milliseconds. A date is any value of type D together
    with `time`, its getTime(); two dates may carry the same time and still be different objects,
    which is what makes "the first argument on a tie" observable. */
module DateUtil {
  import opened Wrappers

  /** equal: both null, or both non-null with the same time. */
  function Equal<D>(a: Option<D>, b: Option<D>, time: D -> int): (r: bool)
    ensures a.None? && b.None? ==> r
    ensures a.None? != b.None? ==> !r
    ensures a.Some? && b.Some? ==> (r <==> time(a.value) == time(b.value))
  {
    if a.None? && b.None? then true
    else if a.Some? && b.Some? then time(a.value) == time(b.value)
    else false
  }

  /** notEqual: the negation of equal. */
  function NotEqual<D>(a: Option<D>, b: Option<D>, time: D -> int): (r: bool)
    ensures r <==> !Equal(a, b, time)
  {
    !Equal(a, b, time)
  }

  /** equal is an equivalence relation on nullable dates. */
  lemma EqualIsEquivalence<D>(a: Option<D>, b: Option<D>, c: Option<D>, time: D -> int)
    ensures Equal(a, a, time)
    ensures Equal(a, b, time) == Equal(b, a, time)
    ensures Equal(a, b, time) && Equal(b, c, time) ==> Equal(a, c, time)
  {
  }

  /** before: strictly earlier. */
  predicate Before<D>(d1: D, d2: D, time: D -> int) {
    time(d1) < time(d2)
  }

  /** after: strictly later. */
  predicate After<D>(d1: D, d2: D, time: D -> int) {
    time(d1) > time(d2)
  }

  /** equalOrAfter: not earlier. */
  predicate EqualOrAfter<D>(d1: D, d2: D, time: D -> int) {
    time(d1) >= time(d2)
  }

  /** equalOrBefore: not later. */
  predicate EqualOrBefore<D>(d1: D, d2: D, time: D -> int) {
    time(d1) <= time(d2)
  }

  /** before and after are converses, and each non-strict test is the negation of the opposite
      strict one. */
  lemma OrderDuality<D>(d1: D, d2: D, time: D -> int)
    ensures Before(d1, d2, time) <==> After(d2, d1, time)
    ensures EqualOrAfter(d1, d2, time) <==> !Before(d1, d2, time)
    ensures EqualOrBefore(d1, d2, time) <==> !After(d1, d2, time)
    ensures EqualOrAfter(d1, d2, time) <==> EqualOrBefore(d2, d1, time)
  {
  }

  /** The exceptions a call can throw: a null date dereferenced, or an unsupported calendar field. */
  datatype Error = NullPointer | IllegalArgument(field: int)

  /** min: the earlier date, the first one when both have the same time. Both dates are
      dereferenced, so a null one throws. */
  function Min<D>(d1: Option<D>, d2: Option<D>, time: D -> int): (r: Result<D, Error>)
    ensures r.Err? <==> d1.None? || d2.None?
    ensures r.Err? ==> r.error == NullPointer
    ensures r.Ok? ==> r.value == d1.value || r.value == d2.value
    ensures r.Ok? ==> time(r.value) <= time(d1.value) && time(r.value) <= time(d2.value)
    ensures r.Ok? && time(d1.value) == time(d2.value) ==> r.value == d1.value
  {
    if d1.None? || d2.None? then Err(NullPointer)
    else if Before(d2.value, d1.value, time) then Ok(d2.value) else Ok(d1.value)
  }

  /** max: the later date, the first one when both have the same time; a null date throws. */
  function Max<D>(d1: Option<D>, d2: Option<D>, time: D -> int): (r: Result<D, Error>)
    ensures r.Err? <==> d1.None? || d2.None?
    ensures r.Err? ==> r.error == NullPointer
    ensures r.Ok? ==> r.value == d1.value || r.value == d2.value
    ensures r.Ok? ==> time(r.value) >= time(d1.value) && time(r.value) >= time(d2.value)
    ensures r.Ok? && time(d1.value) == time(d2.value) ==> r.value == d1.value
  {
    if d1.None? || d2.None? then Err(NullPointer)
    else if After(d2.value, d1.value, time) then Ok(d2.value) else Ok(d1.value)
  }

  /** compare: -1, 0 or 1 by the sign of time(d1) - time(d2). The identity shortcut `d1 == d2`
      comes first, so two nulls compare as 0; a single null is dereferenced and throws. */
  function Compare<D(==)>(d1: Option<D>, d2: Option<D>, time: D -> int): (r: Result<int, Error>)
    ensures d1.None? && d2.None? ==> r == Ok(0)
    ensures r.Err? <==> d1.None? != d2.None?
    ensures r.Err? ==> r.error == NullPointer
    ensures r.Ok? && d1.Some? ==> (r.value == -1 || r.value == 0 || r.value == 1)
    ensures r.Ok? && d1.Some? ==> (r.value == 0 <==> time(d1.value) == time(d2.value))
    ensures r.Ok? && d1.Some? ==> (r.value == 1 <==> time(d1.value) > time(d2.value))
  {
    if d1 == d2 then Ok(0)
    else if d1.None? || d2.None? then Err(NullPointer)
    else
      var t1 := time(d1.value);
      var t2 := time(d2.value);
      if t1 == t2 then Ok(0) else if t1 > t2 then Ok(1) else Ok(-1)
  }

  /** compare is antisymmetric, as java.lang.Comparable requires, and throws for the same
      arguments in either order. */
  lemma CompareAntisymmetric<D>(d1: Option<D>, d2: Option<D>, time: D -> int)
    ensures Compare(d1, d2, time).Err? <==> Compare(d2, d1, time).Err?
    ensures Compare(d1, d2, time).Ok? ==> Compare(d2, d1, time).value == -Compare(d1, d2, time).value
  {
  }

  /** DateUtilTest.testMin and testMax: of two dates one millisecond apart, min is the earlier and
      max the later, in either argument order. */
  lemma MinMaxExamples(t: int)
    ensures Min(Some(t), Some(t + 1), Millis) == Ok(t) && Min(Some(t + 1), Some(t), Millis) == Ok(t)
    ensures Max(Some(t), Some(t + 1), Millis) == Ok(t + 1) && Max(Some(t + 1), Some(t), Millis) == Ok(t + 1)
  {
  }

  /** DateUtilTest.testCompare: compare answers 0 for equal times, 1 for a later and -1 for an
      earlier first date. */
  lemma CompareExamples(t: int)
    ensures Compare(Some(t), Some(t), Millis) == Ok(0)
    ensures Compare(Some(t + 1), Some(t), Millis) == Ok(1)
    ensures Compare(Some(t - 1), Some(t), Millis) == Ok(-1)
  {
  }

  /** java.util.Calendar field numbers. */
  const DAY_OF_MONTH := 5
  const DAY_OF_YEAR := 6
  const DAY_OF_WEEK := 7
  const DAY_OF_WEEK_IN_MONTH := 8
  const HOUR := 10
  const HOUR_OF_DAY := 11
  const MINUTE := 12
  const SECOND := 13
  const MILLISECOND := 14

  /** factorToConvertToMillis: milliseconds per unit of the calendar field; other fields are
      rejected. */
  function FactorToConvertToMillis(field: int): (r: Result<int, Error>)
    ensures field == MILLISECOND <==> r == Ok(1)
    ensures field == SECOND <==> r == Ok(1000)
    ensures field == MINUTE <==> r == Ok(60_000)
    ensures field == HOUR || field == HOUR_OF_DAY <==> r == Ok(3_600_000)
    ensures field in {DAY_OF_MONTH, DAY_OF_WEEK, DAY_OF_WEEK_IN_MONTH, DAY_OF_YEAR} <==> r == Ok(86_400_000)
    ensures r.Err? <==> field !in {MILLISECOND, SECOND, MINUTE, HOUR, HOUR_OF_DAY,
                                   DAY_OF_MONTH, DAY_OF_WEEK, DAY_OF_WEEK_IN_MONTH, DAY_OF_YEAR}
    ensures r.Err? ==> r.error == IllegalArgument(field)
  {
    if field == MILLISECOND then Ok(1)
    else if field == SECOND then Ok(1000)
    else if field == MINUTE then Ok(60 * 1000)
    else if field == HOUR || field == HOUR_OF_DAY then Ok(60 * 60 * 1000)
    else if field == DAY_OF_MONTH || field == DAY_OF_WEEK || field == DAY_OF_WEEK_IN_MONTH
         || field == DAY_OF_YEAR then Ok(24 * 60 * 60 * 1000)
    else Err(IllegalArgument(field))
  }

  /** isOlder(date, amount, field, referenceTime): the date lies before the reference time moved
      back by `amount` units of `field`. */
  function IsOlder<D>(date: D, amount: int, field: int, referenceTime: D, time: D -> int): (r: Result<bool, Error>)
    ensures r.Err? <==> FactorToConvertToMillis(field).Err?
    ensures r.Ok? ==> (r.value <==> time(date) < time(referenceTime) - amount * FactorToConvertToMillis(field).value)
  {
    match FactorToConvertToMillis(field)
    case Err(e) => Err(e)
    case Ok(factor) => Ok(time(date) < time(referenceTime) - amount * factor)
  }

  /** isNotOlder: the negation of isOlder, with the same error. */
  function IsNotOlder<D>(date: D, amount: int, field: int, referenceTime: D, time: D -> int): (r: Result<bool, Error>)
    ensures r.Err? <==> IsOlder(date, amount, field, referenceTime, time).Err?
    ensures r.Ok? ==> r.value == !IsOlder(date, amount, field, referenceTime, time).value
  {
    match IsOlder(date, amount, field, referenceTime, time)
    case Err(e) => Err(e)
    case Ok(b) => Ok(!b)
  }

  /** Ageing is monotonic: a date older than `amount` units is older than any smaller amount, for
      any supported field. */
  lemma IsOlderMonotonic<D>(date: D, amount: int, smaller: int, field: int, referenceTime: D, time: D -> int)
    requires smaller <= amount
    requires IsOlder(date, amount, field, referenceTime, time) == Ok(true)
    ensures IsOlder(date, smaller, field, referenceTime, time) == Ok(true)
  {
    var f := FactorToConvertToMillis(field).value;
    assert smaller * f <= amount * f by {
      assert f > 0;
    }
  }

  /** The epoch-millisecond date of DateUtilTest. */
  function Millis(t: int): int {
    t
  }

  /** DateUtilTest.testOlder: 61 seconds ago is older than one minute, 59 seconds ago is not; 25 hours
      ago is older than one day. */
  lemma IsOlderExamples(now: int)
    ensures IsOlder(now, 1, MINUTE, now, Millis) == Ok(false)
    ensures IsOlder(now - 61 * 1000, 1, MINUTE, now, Millis) == Ok(true)
    ensures IsOlder(now - 59 * 1000, 1, MINUTE, now, Millis) == Ok(false)
    ensures IsOlder(now - 25 * 60 * 60 * 1000, 1, DAY_OF_MONTH, now, Millis) == Ok(true)
    ensures IsNotOlder(now - 59 * 60 * 1000, 1, HOUR_OF_DAY, now, Millis) == Ok(true)
  {
  }
}

=== FILE: distinct_filter.dfy ===
/** DistinctFilter: a stream predicate that lets an element through the first time its key is seen.
    The filter's state is the set of keys seen so far; `test` returns the new state with its verdict. */
module DistinctFilter {

  /** The seen-set and the key mapper of one filter instance. */
  datatype Filter<!T, K(==)> = Filter(seen: set<K>, mapper: T -> K)

  /** The identity mapper of the no-argument constructor. */
  function Identity<T>(x: T): T {
    x
  }

  /** The no-argument constructor: nothing seen, elements are their own keys. */
  function New<T(==)>(): (r: Filter<T, T>)
    ensures r.seen == {}
    ensures r.mapper == Identity
  {
    Filter({}, Identity)
  }

  /** The constructor taking a key mapper. */
  function WithKey<T, K(==)>(mapper: T -> K): (r: Filter<T, K>)
    ensures r.seen == {}
    ensures r.mapper == mapper
  {
    Filter({}, mapper)
  }

  /** withMapper: a fresh filter with an empty seen-set; the receiver, a value, is not touched. */
  function WithMapper<T, K(==), K2(==)>(f: Filter<T, K>, mapper: T -> K2): (r: Filter<T, K2>)
    ensures r.seen == {}
    ensures r.mapper == mapper
  {
    WithKey(mapper)
  }

  /** The filter after a call to test, and the call's result. */
  datatype Tested<!T, K(==)> = Tested(filter: Filter<T, K>, accepted: bool)

  /** test: true iff the element's key was not seen before; the key is recorded either way. */
  function Test<T, K(==)>(f: Filter<T, K>, o: T): (r: Tested<T, K>)
    ensures r.accepted <==> f.mapper(o) !in f.seen
    ensures r.filter.seen == f.seen + {f.mapper(o)}
    ensures r.filter.mapper == f.mapper
  {
    var k := f.mapper(o);
    Tested(Filter(f.seen + {k}, f.mapper), k !in f.seen)
  }

  /** The filter after a stream has passed through it, and the elements it let through. */
  datatype Filtered<!T, K(==)> = Filtered(filter: Filter<T, K>, kept: seq<T>)

  /** `stream.filter(f)`: test each element in order and keep the accepted ones. */
  function Run<T, K(==)>(f: Filter<T, K>, xs: seq<T>): Filtered<T, K>
    decreases |xs|
  {
    if |xs| == 0 then Filtered(f, [])
    else
      var t := Test(f, xs[0]);
      var rest := Run(t.filter, xs[1..]);
      Filtered(rest.filter, (if t.accepted then [xs[0]] else []) + rest.kept)
  }

  /** The keys of a sequence's elements. */
  function Keys<T, K(==)>(xs: seq<T>, key: T -> K): set<K> {
    set i | 0 <= i < |xs| :: key(xs[i])
  }

  /** Reference definition, built from the right: an element belongs to the result iff its key is
      neither in `seen` nor the key of an earlier element. */
  function FirstNew<T, K(==)>(xs: seq<T>, key: T -> K, seen: set<K>): seq<T>
    decreases |xs|
  {
    if |xs| == 0 then []
    else
      var init := xs[..|xs| - 1];
      var x := xs[|xs| - 1];
      FirstNew(init, key, seen) + (if key(x) in seen || key(x) in Keys(init, key) then [] else [x])
  }

  /** The first occurrence of every element, in order. */
  function Distinct<T(==)>(xs: seq<T>): seq<T> {
    FirstNew(xs, Identity, {})
  }

  lemma KeysSnoc<T, K>(xs: seq<T>, x: T, key: T -> K)
    ensures Keys(xs + [x], key) == Keys(xs, key) + {key(x)}
  {
    var ys := xs + [x];
    assert key(x) == key(ys[|xs|]);
    forall k | k in Keys(ys, key) ensures k in Keys(xs, key) + {key(x)} {
      var i :| 0 <= i < |ys| && key(ys[i]) == k;
      if i < |xs| { assert ys[i] == xs[i]; }
    }
    forall k | k in Keys(xs, key) ensures k in Keys(ys, key) {
      var i :| 0 <= i < |xs| && key(xs[i]) == k;
      assert ys[i] == xs[i];
    }
  }

  lemma KeysCons<T, K>(x: T, xs: seq<T>, key: T -> K)
    ensures Keys([x] + xs, key) == {key(x)} + Keys(xs, key)
  {
    var ys := [x] + xs;
    assert key(ys[0]) == key(x);
    forall k | k in Keys(ys, key) ensures k in {key(x)} + Keys(xs, key) {
      var i :| 0 <= i < |ys| && key(ys[i]) == k;
      if i > 0 { assert ys[i] == xs[i - 1]; }
    }
    forall k | k in Keys(xs, key) ensures k in Keys(ys, key) {
      var i :| 0 <= i < |xs| && key(xs[i]) == k;
      assert ys[i + 1] == xs[i];
    }
  }

  /** Unfolding the reference definition from the left. */
  lemma {:induction false} FirstNewCons<T, K>(x: T, ys: seq<T>, key: T -> K, seen: set<K>)
    ensures FirstNew([x] + ys, key, seen)
            == (if key(x) in seen then [] else [x]) + FirstNew(ys, key, seen + {key(x)})
    decreases |ys|
  {
    var xs := [x] + ys;
    if |ys| == 0 {
      assert xs[..0] == [];
    } else {
      var init := ys[..|ys| - 1];
      var y := ys[|ys| - 1];
      assert xs[..|xs| - 1] == [x] + init;
      assert xs[|xs| - 1] == y;
      FirstNewCons(x, init, key, seen);
      KeysCons(x, init, key);
    }
  }

  /** Running a filter over a stream keeps exactly the reference elements and leaves every key of
      the stream in the seen-set. */
  lemma {:induction false} RunIsFirstNew<T, K>(f: Filter<T, K>, xs: seq<T>)
    ensures Run(f, xs).kept == FirstNew(xs, f.mapper, f.seen)
    ensures Run(f, xs).filter.seen == f.seen + Keys(xs, f.mapper)
    ensures Run(f, xs).filter.mapper == f.mapper
    decreases |xs|
  {
    if |xs| == 0 {
      assert Keys(xs, f.mapper) == {};
    } else {
      var t := Test(f, xs[0]);
      RunIsFirstNew(t.filter, xs[1..]);
      assert xs == [xs[0]] + xs[1..];
      FirstNewCons(xs[0], xs[1..], f.mapper, f.seen);
      KeysCons(xs[0], xs[1..], f.mapper);
    }
  }

  /** The reference result keeps the order of the stream: it is a subsequence of it. */
  ghost predicate IsSubsequence<T>(a: seq<T>, b: seq<T>)
    decreases |b|
  {
    if |a| == 0 then true
    else if |b| == 0 then false
    else if a[|a| - 1] == b[|b| - 1] then IsSubsequence(a[..|a| - 1], b[..|b| - 1])
    else IsSubsequence(a, b[..|b| - 1])
  }

  lemma {:induction false} SubsequenceSnoc<T>(a: seq<T>, b: seq<T>, x: T)
    requires IsSubsequence(a, b)
    ensures IsSubsequence(a, b + [x])
    decreases |b|, 1
  {
    var bx := b + [x];
    assert bx[..|bx| - 1] == b;
    if |a| > 0 && a[|a| - 1] == x {
      SubsequenceDropLast(a, b);
    }
  }

  lemma {:induction false} SubsequenceDropLast<T>(a: seq<T>, b: seq<T>)
    requires |a| > 0 && IsSubsequence(a, b)
    ensures IsSubsequence(a[..|a| - 1], b)
    decreases |b|, 0
  {
    assert b[..|b| - 1] + [b[|b| - 1]] == b;
    if a[|a| - 1] == b[|b| - 1] {
      SubsequenceSnoc(a[..|a| - 1], b[..|b| - 1], b[|b| - 1]);
    } else {
      SubsequenceDropLast(a, b[..|b| - 1]);
      SubsequenceSnoc(a[..|a| - 1], b[..|b| - 1], b[|b| - 1]);
    }
  }

  /** What the reference keeps: elements of the stream, in stream order, with pairwise distinct
      keys none of which was seen before, and every new key of the stream represented. */
  lemma {:induction false} FirstNewProperties<T, K>(xs: seq<T>, key: T -> K, seen: set<K>)
    ensures IsSubsequence(FirstNew(xs, key, seen), xs)
    ensures Keys(FirstNew(xs, key, seen), key) == Keys(xs, key) - seen
    ensures forall i, j :: 0 <= i < j < |FirstNew(xs, key, seen)| ==>
              key(FirstNew(xs, key, seen)[i]) != key(FirstNew(xs, key, seen)[j])
    decreases |xs|
  {
    if |xs| == 0 {
      assert Keys(xs, key) == {};
    } else {
      var init := xs[..|xs| - 1];
      var x := xs[|xs| - 1];
      var a := FirstNew(init, key, seen);
      FirstNewProperties(init, key, seen);
      assert xs == init + [x];
      KeysSnoc(init, x, key);
      if key(x) in seen || key(x) in Keys(init, key) {
        SubsequenceSnoc(a, init, x);
        assert FirstNew(xs, key, seen) == a;
      } else {
        var r := a + [x];
        assert FirstNew(xs, key, seen) == r;
        assert r[..|r| - 1] == a;
        KeysSnoc(a, x, key);
        forall i, j | 0 <= i < j < |r| ensures key(r[i]) != key(r[j]) {
          if j == |r| - 1 {
            assert key(r[i]) in Keys(a, key);
          }
        }
      }
    }
  }

  /** FiltersTest.testDistinct: A,B,C,A,D,B,A becomes A,B,C,D. */
  lemma DistinctExample()
    ensures Run(New<string>(), ["A", "B", "C", "A", "D", "B", "A"]).kept == ["A", "B", "C", "D"]
  {
  }

  /** The first character of a string, the key mapper of FiltersTest.testDistinctWithMapper. */
  function FirstChar(s: string): char {
    if |s| == 0 then ' ' else s[0]
  }

  /** FiltersTest.testDistinctWithMapper: keyed by first character, A1,B1,C1,A2,D1,B2,A3 becomes
      A1,B1,C1,D1. */
  lemma DistinctByKeyExample()
    ensures Run(WithKey(FirstChar), ["A1", "B1", "C1", "A2", "D1", "B2", "A3"]).kept
            == ["A1", "B1", "C1", "D1"]
  {
  }
}

=== FILE: ext_resolver.dfy ===
/** ExtResolver: the property-expression resolver of the bean utilities, extended so that a mapped
    key may be quoted, as in map('a)b'), with a doubled quote standing for one quote character. */
module ExtResolver {
  import opened Wrappers

  const Nested: char := '.'
  const MappedStart: char := '('
  const MappedEnd: char := ')'
  const IndexedStart: char := '['
  const IndexedEnd: char := ']'
  const KeyQuote: char := '\''

  /** The exception getKey throws for a mapped key without its closing parenthesis. */
  datatype Error = IllegalArgument(message: string)

  /** String.indexOf(c, from): the first position >= from holding c, or -1. */
  function IndexOf(s: string, c: char, from: nat): (r: int)
    ensures r == -1 || from <= r < |s|
    ensures r >= 0 ==> s[r] == c && forall k :: from <= k < r ==> s[k] != c
    ensures r == -1 ==> forall k :: from <= k < |s| ==> s[k] != c
    decreases |s| - from
  {
    if from >= |s| then -1 else if s[from] == c then from else IndexOf(s, c, from + 1)
  }

  /** isQuotedString: some quote occurs at or after fromIndex. */
  predicate IsQuotedString(s: string, fromIndex: nat) {
    IndexOf(s, KeyQuote, fromIndex) >= fromIndex
  }

  /** isChar: position pos exists and holds c. */
  predicate IsChar(s: string, pos: int, c: char) {
    0 <= pos < |s| && s[pos] == c
  }

  /** A character that ends the property name in getKey's search for the mapped key. */
  predicate IsKeyStop(c: char) {
    c == Nested || c == IndexedStart || c == MappedStart
  }

  /** The loop of getQuotedString from position i: copy characters up to the first lone quote; a
      doubled quote copies one quote. */
  function QuotedFrom(s: string, i: nat, escaped: bool): string
    decreases |s| - i
  {
    if i >= |s| then ""
    else if escaped then [s[i]] + QuotedFrom(s, i + 1, false)
    else if s[i] == KeyQuote then (if IsChar(s, i + 1, KeyQuote) then QuotedFrom(s, i + 1, true) else "")
    else [s[i]] + QuotedFrom(s, i + 1, false)
  }

  /** getQuotedString: the quoted text after the FIRST quote of the whole expression. */
  function GetQuotedString(s: string): string {
    QuotedFrom(s, IndexOf(s, KeyQuote, 0) + 1, false)
  }

  /** A key as a quoted key is written: every quote doubled. */
  function Quote(k: string): (r: string)
    ensures |r| >= |k|
  {
    if k == [] then "" else (if k[0] == KeyQuote then "''" else [k[0]]) + Quote(k[1..])
  }

  /** Reading a quoted key written with Quote, up to its closing quote, gives the key back. */
  lemma {:induction false} QuotedFromQuote(s: string, i: nat, k: string, rest: string)
    requires i <= |s| && s[i..] == Quote(k) + "'" + rest
    requires rest == [] || rest[0] != KeyQuote
    ensures QuotedFrom(s, i, false) == k
    decreases |k|
  {
    if k == [] {
      assert s[i] == KeyQuote;
      assert !IsChar(s, i + 1, KeyQuote) by {
        if i + 1 < |s| {
          assert s[i + 1] == s[i..][1] == rest[0];
        }
      }
    } else {
      var head := if k[0] == KeyQuote then "''" else [k[0]];
      assert s[i..] == head + (Quote(k[1..]) + "'" + rest);
      assert s[i + |head|..] == Quote(k[1..]) + "'" + rest by {
        assert s[i + |head|..] == s[i..][|head|..];
      }
      QuotedFromQuote(s, i + |head|, k[1..], rest);
      assert s[i] == s[i..][0];
      if k[0] == KeyQuote {
        assert s[i + 1] == s[i..][1];
        assert k == [KeyQuote] + k[1..];
      } else {
        assert k == [k[0]] + k[1..];
      }
    }
  }

  /** getKey's loop from position i: at the first '.', '[' or '(' decide; no key without '('. */
  function KeyFrom(s: string, i: nat): (r: Result<Option<string>, Error>)
    ensures r.Ok? && r.value.Some? ==> exists j :: i <= j < |s| && s[j] == MappedStart
    decreases |s| - i
  {
    if i >= |s| then Ok(None)
    else if s[i] == Nested || s[i] == IndexedStart then Ok(None)
    else if s[i] == MappedStart then
      if IsQuotedString(s, i + 1) then Ok(Some(GetQuotedString(s)))
      else
        var end := IndexOf(s, MappedEnd, i);
        if end < 0 then Err(IllegalArgument("Missing End Delimiter"))
        else Ok(Some(s[i + 1..end]))
    else KeyFrom(s, i + 1)
  }

  /** getKey: the map key of a mapped property expression, None when there is none. */
  function GetKey(expression: Option<string>): (r: Result<Option<string>, Error>)
    ensures expression.None? || expression == Some("") ==> r == Ok(None)
    ensures r.Ok? && r.value.Some? ==> MappedStart in expression.value
  {
    if expression.None? || |expression.value| == 0 then Ok(None) else KeyFrom(expression.value, 0)
  }

  /** The name part of an expression: no '.', '[', '(' and no quote. */
  predicate IsPlainName(name: string) {
    forall k :: 0 <= k < |name| ==> !IsKeyStop(name[k]) && name[k] != KeyQuote
  }

  lemma {:induction false} KeyFromSkipsName(s: string, i: nat, j: nat)
    requires i <= j <= |s| && forall k :: i <= k < j ==> !IsKeyStop(s[k])
    ensures KeyFrom(s, i) == KeyFrom(s, j)
    decreases j - i
  {
    if i < j {
      KeyFromSkipsName(s, i + 1, j);
    }
  }

  /** getKey answers None iff a '.' or '[' comes before the first '(' (or there is no '('). Every
      expression is a name without '.', '[' and '(', alone or followed by one of them: getKey is None
      for the name alone and after '.' or '[', and a key or an error after '('. */
  lemma GetKeyNoneBeforeMapped(name: string, c: char, rest: string)
    requires forall k :: 0 <= k < |name| ==> !IsKeyStop(name[k])
    requires c == Nested || c == IndexedStart
    ensures GetKey(Some(name + [c] + rest)) == Ok(None)
    ensures GetKey(Some(name)) == Ok(None)
    ensures GetKey(Some(name + [MappedStart] + rest)) != Ok(None)
  {
    var s := name + [c] + rest;
    KeyFromSkipsName(s, 0, |name|);
    if name != [] {
      KeyFromSkipsName(name, 0, |name|);
    }
    var m := name + [MappedStart] + rest;
    KeyFromSkipsName(m, 0, |name|);
    assert m[|name|] == MappedStart;
  }

  /** An unquoted mapped key: the text between '(' and the first ')' after it. */
  lemma UnquotedKey(name: string, key: string, rest: string, s: string)
    requires forall k :: 0 <= k < |name| ==> !IsKeyStop(name[k])
    requires MappedEnd !in key && KeyQuote !in key && KeyQuote !in rest
    requires s == name + "(" + key + ")" + rest
    ensures GetKey(Some(s)) == Ok(Some(key))
  {
    var n := |name|;
    assert s[n] == MappedStart && s[n + 1 + |key|] == MappedEnd;
    assert s[n + 1..n + 1 + |key|] == key;
    assert forall j :: 0 <= j < n ==> s[j] == name[j];
    assert forall j :: n < j < n + 1 + |key| ==> s[j] == key[j - n - 1];
    assert forall j :: n + 1 + |key| < j < |s| ==> s[j] == rest[j - n - 2 - |key|];
    KeyFromSkipsName(s, 0, n);
    assert !IsQuotedString(s, n + 1);
    assert IndexOf(s, MappedEnd, n) == n + 1 + |key|;
  }

  /** A '(' without a ')' after it, and no quote, is an IllegalArgument. */
  lemma MissingEndDelimiter(name: string, key: string, s: string)
    requires forall k :: 0 <= k < |name| ==> !IsKeyStop(name[k])
    requires MappedEnd !in key && KeyQuote !in key
    requires s == name + "(" + key
    ensures GetKey(Some(s)) == Err(IllegalArgument("Missing End Delimiter"))
  {
    var n := |name|;
    assert s[n] == MappedStart;
    assert forall j :: 0 <= j < n ==> s[j] == name[j];
    assert forall j :: n < j < |s| ==> s[j] == key[j - n - 1];
    KeyFromSkipsName(s, 0, n);
    assert !IsQuotedString(s, n + 1);
    assert IndexOf(s, MappedEnd, n) < 0;
  }

  /** getKey on an expression whose first quote, at q, comes after the first '(' at n: the key is
      what getQuotedString reads from just after that quote. */
  lemma QuotedKeyAt(s: string, n: nat, q: nat, k: string)
    requires n < q < |s| && s[n] == MappedStart && s[q] == KeyQuote
    requires forall j :: 0 <= j < n ==> !IsKeyStop(s[j])
    requires forall j :: 0 <= j < q ==> s[j] != KeyQuote
    requires QuotedFrom(s, q + 1, false) == k
    ensures GetKey(Some(s)) == Ok(Some(k))
  {
    KeyFromSkipsName(s, 0, n);
    assert IndexOf(s, KeyQuote, n + 1) == q;
    assert IndexOf(s, KeyQuote, 0) == q;
  }

  /** A quoted mapped key round-trips: getKey(name(pad'Quote(k)')rest) == k, parentheses and
      quotes in k included, whatever quote-free text pad stands between '(' and the quote. */
  lemma QuotedKeyRoundTrip(name: string, pad: string, k: string, rest: string, s: string)
    requires IsPlainName(name) && KeyQuote !in pad
    requires s == name + "(" + pad + "'" + Quote(k) + "')" + rest
    ensures GetKey(Some(s)) == Ok(Some(k))
  {
    var n, q := |name|, |name| + 1 + |pad|;
    var tail := Quote(k) + "'" + (")" + rest);
    assert s == name + "(" + pad + "'" + tail;
    assert s[n] == MappedStart && s[q] == KeyQuote;
    assert forall j :: 0 <= j < n ==> s[j] == name[j];
    assert forall j :: n < j < q ==> s[j] == pad[j - n - 1];
    assert s[q + 1..] == tail;
    QuotedFromQuote(s, q + 1, k, ")" + rest);
    QuotedKeyAt(s, n, q, k);
  }

  /** ExtResolverTest: getKey of "map(key1)" and "map([abc]|[123]|[xyz])". The strings are
      assembled from parts so that the verifier reasons about them symbolically. */
  lemma GetKeyUnquotedExamples(name: string, simple: string, unquoted: string)
    requires name == "map" && simple == "key1" && unquoted == "[abc]|[123]|[xyz]"
    ensures GetKey(Some(name + "(" + simple + ")")) == Ok(Some(simple))
    ensures GetKey(Some(name + "(" + unquoted + ")")) == Ok(Some(unquoted))
  {
    assert MappedEnd !in simple && KeyQuote !in simple;
    assert MappedEnd !in unquoted && KeyQuote !in unquoted;
    UnquotedKey(name, simple, "", name + "(" + simple + ")");
    UnquotedKey(name, unquoted, "", name + "(" + unquoted + ")");
  }

  /** ExtResolverTest: getKey of "map('(abc)|(123)|('')|[xyz]')" is "(abc)|(123)|(')|[xyz]", and
      with spaces before the quote and after the ')' the same. */
  lemma GetKeyQuotedExamples(name: string, pad: string, a: string, b: string, k: string)
    requires name == "map" && pad == "  " && a == "(abc)|(123)|(" && b == ")|[xyz]"
    requires k == a + "'" + b
    ensures GetKey(Some(name + "('" + (a + "''" + b) + "')")) == Ok(Some(k))
    ensures GetKey(Some(name + "(" + pad + "'" + (a + "''" + b) + "')" + pad)) == Ok(Some(k))
  {
    assert KeyQuote !in a && KeyQuote !in b && KeyQuote !in pad;
    assert IsPlainName(name);
    QuoteOneQuote(a, b);
    var quoted := name + "('" + (a + "''" + b) + "')";
    assert quoted == name + "(" + "" + "'" + (a + "''" + b) + "')" + "";
    QuotedKeyRoundTrip(name, "", k, "", quoted);
    QuotedKeyRoundTrip(name, pad, k, pad, name + "(" + pad + "'" + (a + "''" + b) + "')" + pad);
  }

  /** Quote works character by character. */
  lemma {:induction false} QuoteAppend(a: string, b: string)
    ensures Quote(a + b) == Quote(a) + Quote(b)
    decreases |a|
  {
    if a == [] {
      assert a + b == b;
    } else {
      assert (a + b)[1..] == a[1..] + b;
      QuoteAppend(a[1..], b);
    }
  }

  /** A key without quotes is written as itself. */
  lemma {:induction false} QuoteWithoutQuotes(k: string)
    requires KeyQuote !in k
    ensures Quote(k) == k
    decreases |k|
  {
    if k != [] {
      QuoteWithoutQuotes(k[1..]);
      assert k == [k[0]] + k[1..];
    }
  }

  /** A key with exactly one quote is written with that quote doubled. */
  lemma QuoteOneQuote(a: string, b: string)
    requires KeyQuote !in a && KeyQuote !in b
    ensures Quote(a + "'" + b) == a + "''" + b
  {
    QuoteWithoutQuotes(a);
    QuoteWithoutQuotes(b);
    QuoteAppend(a, "'" + b);
    QuoteAppend("'", b);
    assert a + "'" + b == a + ("'" + b);
  }

  /** The scanner state of next. */
  datatype ScanState = ScanState(indexed: bool, mapped: bool, quoted: bool,
                                 quoteStarted: bool, quoteEnded: bool, escaped: bool)

  const Initial := ScanState(false, false, false, false, false, false)

  /** A quote inside a mapped key: it clears an escape, opens the quote, closes it, or (when
      doubled) escapes the next quote. */
  function QuoteStep(s: string, i: nat, st: ScanState): ScanState {
    if st.escaped then st.(escaped := false)
    else if !st.quoteStarted then st.(quoteStarted := true)
    else if !IsChar(s, i + 1, KeyQuote) then st.(quoteEnded := true)
    else st.(escaped := true)
  }

  /** The loop of next from position i in state st. */
  function NextFrom(s: string, i: nat, st: ScanState): (r: string)
    requires i <= |s|
    ensures i <= |r| <= |s| && r == s[..|r|]
    decreases |s| - i
  {
    if i == |s| then s
    else
      var c := s[i];
      if st.indexed then
        if c == IndexedEnd then s[..i + 1] else NextFrom(s, i + 1, st)
      else if st.mapped then
        if c == KeyQuote then NextFrom(s, i + 1, QuoteStep(s, i, st))
        else if c == MappedEnd && (!st.quoted || st.quoteEnded) then s[..i + 1]
        else NextFrom(s, i + 1, st)
      else if c == Nested then s[..i]
      else if c == MappedStart then NextFrom(s, i + 1, st.(mapped := true, quoted := IsQuotedString(s, i + 1)))
      else if c == IndexedStart then NextFrom(s, i + 1, st.(indexed := true))
      else NextFrom(s, i + 1, st)
  }

  /** next: the first property expression, always a prefix of the expression; the whole expression
      when no terminator is found. */
  function Next(expression: Option<string>): (r: Option<string>)
    ensures r.None? <==> expression.None? || expression == Some("")
    ensures r.Some? ==> |r.value| <= |expression.value| && r.value == expression.value[..|r.value|]
  {
    if expression.None? || |expression.value| == 0 then None else Some(NextFrom(expression.value, 0, Initial))
  }

  lemma {:induction false} NextSkipsName(s: string, i: nat, j: nat)
    requires i <= j <= |s| && forall k :: i <= k < j ==> !IsKeyStop(s[k])
    ensures NextFrom(s, i, Initial) == NextFrom(s, j, Initial)
    decreases j - i
  {
    if i < j {
      NextSkipsName(s, i + 1, j);
    }
  }

  /** next stops just before the first '.' outside brackets. */
  lemma NextStopsAtNested(name: string, rest: string)
    requires forall k :: 0 <= k < |name| ==> !IsKeyStop(name[k])
    ensures Next(Some(name + "." + rest)) == Some(name)
  {
    var s := name + "." + rest;
    NextSkipsName(s, 0, |name|);
    assert s[|name|] == Nested && s[..|name|] == name;
  }

  lemma {:induction false} IndexedScan(s: string, i: nat, st: ScanState, j: nat)
    requires st.indexed && i <= j < |s| && s[j] == IndexedEnd
    requires forall k :: i <= k < j ==> s[k] != IndexedEnd
    ensures NextFrom(s, i, st) == s[..j + 1]
    decreases j - i
  {
    if i < j {
      IndexedScan(s, i + 1, st, j);
    }
  }

  /** For '[', next returns through the first ']'. */
  lemma NextThroughIndexEnd(name: string, index: string, rest: string)
    requires forall k :: 0 <= k < |name| ==> !IsKeyStop(name[k])
    requires IndexedEnd !in index
    ensures Next(Some(name + "[" + index + "]" + rest)) == Some(name + "[" + index + "]")
  {
    var s := name + "[" + index + "]" + rest;
    NextSkipsName(s, 0, |name|);
    assert s[|name|] == IndexedStart;
    var j := |name| + 1 + |index|;
    forall k | |name| + 1 <= k < j
      ensures s[k] != IndexedEnd
    {
      assert s[k] == index[k - |name| - 1];
    }
    IndexedScan(s, |name| + 1, Initial.(indexed := true), j);
    assert s[..j + 1] == name + "[" + index + "]";
  }

  lemma {:induction false} UnquotedMappedScan(s: string, i: nat, st: ScanState, j: nat)
    requires !st.indexed && st.mapped && !st.quoted
    requires i <= j < |s| && s[j] == MappedEnd
    requires forall k :: i <= k < j ==> s[k] != MappedEnd && s[k] != KeyQuote
    ensures NextFrom(s, i, st) == s[..j + 1]
    decreases j - i
  {
    if i < j {
      UnquotedMappedScan(s, i + 1, st, j);
    }
  }

  /** For an unquoted mapped key, next returns through the first ')'. */
  lemma NextUnquotedKey(name: string, key: string, rest: string, s: string)
    requires forall k :: 0 <= k < |name| ==> !IsKeyStop(name[k])
    requires MappedEnd !in key && KeyQuote !in key && KeyQuote !in rest
    requires s == name + "(" + key + ")" + rest
    ensures Next(Some(s)) == Some(name + "(" + key + ")")
  {
    var n := |name|;
    assert s[n] == MappedStart && s[n + 1 + |key|] == MappedEnd;
    assert s[..n + 2 + |key|] == name + "(" + key + ")";
    assert forall j :: n < j < n + 1 + |key| ==> s[j] == key[j - n - 1];
    assert forall j :: n + 1 + |key| < j < |s| ==> s[j] == rest[j - n - 2 - |key|];
    assert forall j :: 0 <= j < n ==> s[j] == name[j];
    NextSkipsName(s, 0, n);
    assert !IsQuotedString(s, n + 1);
    UnquotedMappedScan(s, n + 1, Initial.(mapped := true), n + 1 + |key|);
  }

  /** The states of next inside a quoted mapped key: before the opening quote, inside the quotes,
      and after the closing quote. */
  const BeforeQuote := ScanState(false, true, true, false, false, false)
  const OpenQuote := ScanState(false, true, true, true, false, false)
  const ClosedQuote := ScanState(false, true, true, true, true, false)

  /** A '(' with a quote somewhere after it starts a quoted mapped key. */
  lemma MappedQuotedOpens(s: string, n: nat, q: nat)
    requires n < q < |s| && s[n] == MappedStart && s[q] == KeyQuote
    ensures NextFrom(s, n, Initial) == NextFrom(s, n + 1, BeforeQuote)
  {
    assert IndexOf(s, KeyQuote, n + 1) != -1;
  }

  /** Inside a mapped key, text without quotes leaves the state alone, and a ')' in it ends the
      expression only once the quote is closed. */
  lemma {:induction false} PadScan(s: string, i: nat, j: nat, st: ScanState)
    requires i <= j <= |s| && !st.indexed && st.mapped && st.quoted
    requires forall k :: i <= k < j ==> s[k] != KeyQuote && (s[k] == MappedEnd ==> !st.quoteEnded)
    ensures NextFrom(s, i, st) == NextFrom(s, j, st)
    decreases j - i
  {
    if i < j {
      PadScan(s, i + 1, j, st);
    }
  }

  /** The opening quote. */
  lemma QuoteStarts(s: string, q: nat)
    requires q < |s| && s[q] == KeyQuote
    ensures NextFrom(s, q, BeforeQuote) == NextFrom(s, q + 1, OpenQuote)
  {
  }

  /** A quote not followed by another closes the quote. */
  lemma QuoteEnds(s: string, e: nat)
    requires e < |s| && s[e] == KeyQuote && !IsChar(s, e + 1, KeyQuote)
    ensures NextFrom(s, e, OpenQuote) == NextFrom(s, e + 1, ClosedQuote)
  {
  }

  /** After the closing quote, the first ')' ends the expression. */
  lemma ClosedKeyEnds(s: string, c: nat)
    requires c < |s| && s[c] == MappedEnd
    ensures NextFrom(s, c, ClosedQuote) == s[..c + 1]
  {
  }

  /** Inside the quotes, a doubled quote stands for one quote character. */
  lemma DoubledQuoteStep(s: string, i: nat)
    requires i + 1 < |s| && s[i] == KeyQuote && s[i + 1] == KeyQuote
    ensures NextFrom(s, i, OpenQuote) == NextFrom(s, i + 2, OpenQuote)
  {
    assert NextFrom(s, i, OpenQuote) == NextFrom(s, i + 1, OpenQuote.(escaped := true));
  }

  /** Inside the quotes, any other character, ')' included, is skipped. */
  lemma QuotedCharStep(s: string, i: nat)
    requires i < |s| && s[i] != KeyQuote
    ensures NextFrom(s, i, OpenQuote) == NextFrom(s, i + 1, OpenQuote)
  {
  }

  /** Scanning Quote(k) inside the quotes ends in the same state: doubled quotes escape each other
      and ')' is ignored. */
  lemma {:induction false} ScanQuotedBody(s: string, i: nat, k: string)
    requires i + |Quote(k)| < |s| && s[i..i + |Quote(k)|] == Quote(k)
    ensures NextFrom(s, i, OpenQuote) == NextFrom(s, i + |Quote(k)|, OpenQuote)
    decreases |k|
  {
    if k != [] {
      var head := if k[0] == KeyQuote then "''" else [k[0]];
      var m := |Quote(k)|;
      assert Quote(k) == head + Quote(k[1..]);
      assert s[i] == s[i..i + m][0];
      assert s[i + |head|..i + m] == Quote(k[1..]) by {
        assert s[i + |head|..i + m] == s[i..i + m][|head|..];
      }
      if k[0] == KeyQuote {
        assert s[i + 1] == s[i..i + m][1];
        DoubledQuoteStep(s, i);
      } else {
        QuotedCharStep(s, i);
      }
      ScanQuotedBody(s, i + |head|, k[1..]);
    }
  }

  /** From the '(' at n through the opening quote at q, with quote-free text between. */
  lemma QuotedKeyOpens(s: string, n: nat, q: nat)
    requires n < q < |s| && s[n] == MappedStart && s[q] == KeyQuote
    requires forall j :: n < j < q ==> s[j] != KeyQuote
    ensures NextFrom(s, n, Initial) == NextFrom(s, q + 1, OpenQuote)
  {
    MappedQuotedOpens(s, n, q);
    PadScan(s, n + 1, q, BeforeQuote);
    QuoteStarts(s, q);
  }

  /** From the closing quote at e through the first ')' at c, with quote-free text between. */
  lemma QuotedKeyCloses(s: string, e: nat, c: nat)
    requires e < c < |s| && s[e] == KeyQuote && s[c] == MappedEnd
    requires forall j :: e < j < c ==> s[j] != KeyQuote && s[j] != MappedEnd
    ensures NextFrom(s, e, OpenQuote) == s[..c + 1]
  {
    assert !IsChar(s, e + 1, KeyQuote);
    QuoteEnds(s, e);
    PadScan(s, e + 1, c, ClosedQuote);
    ClosedKeyEnds(s, c);
  }

  /** The scan of a quoted mapped key from its '(' at n: the opening quote at q, Quote(k), the
      closing quote at e and the first ')' after it at c. */
  lemma QuotedKeyScan(s: string, n: nat, q: nat, e: nat, c: nat, k: string)
    requires n < q && e == q + 1 + |Quote(k)| && e < c < |s|
    requires s[n] == MappedStart && s[q] == KeyQuote && s[e] == KeyQuote && s[c] == MappedEnd
    requires s[q + 1..e] == Quote(k)
    requires forall j :: n < j < q ==> s[j] != KeyQuote
    requires forall j :: e < j < c ==> s[j] != KeyQuote && s[j] != MappedEnd
    ensures NextFrom(s, n, Initial) == s[..c + 1]
  {
    QuotedKeyOpens(s, n, q);
    ScanQuotedBody(s, q + 1, k);
    QuotedKeyCloses(s, e, c);
  }

  /** For a quoted mapped key, next ignores ')' inside the quotes and returns through the first ')'
      after the closing quote; quote-free text may stand around the quotes. */
  lemma NextQuotedKey(name: string, pad: string, k: string, pad2: string, rest: string, s: string)
    requires forall j :: 0 <= j < |name| ==> !IsKeyStop(name[j])
    requires KeyQuote !in pad && KeyQuote !in pad2 && MappedEnd !in pad2
    requires s == name + "(" + pad + "'" + Quote(k) + "'" + pad2 + ")" + rest
    ensures Next(Some(s)) == Some(name + "(" + pad + "'" + Quote(k) + "'" + pad2 + ")")
  {
    var n := |name|;
    var q := n + 1 + |pad|;
    var e := q + 1 + |Quote(k)|;
    var c := e + 1 + |pad2|;
    assert s[n] == MappedStart && s[q] == KeyQuote && s[e] == KeyQuote && s[c] == MappedEnd;
    assert s[q + 1..e] == Quote(k);
    assert s[..c + 1] == name + "(" + pad + "'" + Quote(k) + "'" + pad2 + ")";
    assert forall j :: 0 <= j < n ==> s[j] == name[j];
    assert forall j :: n < j < q ==> s[j] == pad[j - n - 1];
    assert forall j :: e < j < c ==> s[j] == pad2[j - e - 1];
    NextSkipsName(s, 0, n);
    QuotedKeyScan(s, n, q, e, c, k);
  }

  /** ExtResolverTest: next of "a.b", "map(key1)" and "map([abc]|[123]|[xyz])". */
  lemma NextUnquotedExamples(name: string, simple: string, unquoted: string)
    requires name == "map" && simple == "key1" && unquoted == "[abc]|[123]|[xyz]"
    ensures Next(Some("a" + "." + "b")) == Some("a")
    ensures Next(Some(name + "(" + simple + ")")) == Some(name + "(" + simple + ")")
    ensures Next(Some(name + "(" + unquoted + ")")) == Some(name + "(" + unquoted + ")")
  {
    NextStopsAtNested("a", "b");
    assert MappedEnd !in simple && KeyQuote !in simple;
    assert MappedEnd !in unquoted && KeyQuote !in unquoted;
    NextUnquotedKey(name, simple, "", name + "(" + simple + ")");
    NextUnquotedKey(name, unquoted, "", name + "(" + unquoted + ")");
  }

  /** ExtResolverTest: next of "map('(abc)|(123)|('')|[xyz]')" and of
      "map(  '(abc)|(123)|('')|[xyz]'  )" is the whole expression. */
  lemma NextQuotedExamples(name: string, pad: string, a: string, b: string, k: string)
    requires name == "map" && pad == "  " && a == "(abc)|(123)|(" && b == ")|[xyz]" && k == a + "'" + b
    ensures Next(Some(name + "('" + (a + "''" + b) + "')")) == Some(name + "('" + (a + "''" + b) + "')")
    ensures Next(Some(name + "(" + pad + "'" + (a + "''" + b) + "'" + pad + ")"))
         == Some(name + "(" + pad + "'" + (a + "''" + b) + "'" + pad + ")")
  {
    assert KeyQuote !in a && KeyQuote !in b && KeyQuote !in pad && MappedEnd !in pad;
    QuoteOneQuote(a, b);
    var quoted := name + "('" + (a + "''" + b) + "')";
    assert quoted == name + "(" + "" + "'" + Quote(k) + "'" + "" + ")";
    assert quoted == quoted + "";
    NextQuotedKey(name, "", k, "", "", quoted);
    var padded := name + "(" + pad + "'" + (a + "''" + b) + "'" + pad + ")";
    assert padded == padded + "";
    NextQuotedKey(name, pad, k, pad, "", padded);
  }
}

=== FILE: hex_streams.dfy ===
/** HexOutputStream and HexInputStream: a byte stream carried as text, two lowercase hex digits per
    byte. The Writer behind the output stream is modelled as the string written so far; the
    PushbackReader behind the input stream as a string with a read position, where pushing a
    character back means the position does not advance. */
module HexStreams {
  import opened Wrappers

  /** A Java int. */
  type Int32 = x: int | -0x8000_0000 <= x < 0x8000_0000

  /** A Java byte. */
  type JByte = b: int | -128 <= b < 128

  /** 0xff & b: the unsigned value of a byte. */
  function Unsigned(b: JByte): (r: int)
    ensures 0 <= r < 256
    ensures (r - b) % 256 == 0
  {
    if b < 0 then b + 256 else b
  }

  /** (byte) v: the low 8 bits of an int, read as a signed byte. */
  function ToByte(v: int): (r: JByte)
    ensures Unsigned(r) == v % 256
  {
    var u := v % 256;
    if u < 128 then u else u - 256
  }

  /** 2 * len in Java int arithmetic, which wraps around for |len| >= 2^30. */
  function Doubled(len: Int32): (r: Int32)
    ensures 0 <= len < 0x4000_0000 ==> r == 2 * len
    ensures 0x4000_0000 <= len ==> r < 0
  {
    if 2 * len >= 0x8000_0000 then 2 * len - 0x1_0000_0000
    else if 2 * len < -0x8000_0000 then 2 * len + 0x1_0000_0000
    else 2 * len
  }

  /** The lowercase hex digit of a value in 0..15, as Integer.toHexString writes it. */
  function HexDigit(v: int): (c: char)
    requires 0 <= v < 16
    ensures '0' <= c <= '9' || 'a' <= c <= 'f'
  {
    if v < 10 then ('0' as int + v) as char else ('a' as int + v - 10) as char
  }

  /** Integer.toHexString for a value in 0..255: no leading zeros. */
  function ToHexString(v: int): string
    requires 0 <= v < 256
  {
    if v < 16 then [HexDigit(v)] else [HexDigit(v / 16), HexDigit(v % 16)]
  }

  /** Character.digit(c, 16), restricted to ASCII: the value of a hex digit in either case, or -1. */
  function Digit(c: char): (r: int)
    ensures -1 <= r < 16
  {
    if '0' <= c <= '9' then c as int - '0' as int
    else if 'a' <= c <= 'f' then c as int - 'a' as int + 10
    else if 'A' <= c <= 'F' then c as int - 'A' as int + 10
    else -1
  }

  /** Digit reads back what HexDigit writes. */
  lemma DigitOfHexDigit(v: int)
    requires 0 <= v < 16
    ensures Digit(HexDigit(v)) == v
  {
  }

  /** One byte as the loop body of writeHex writes it: toHexString, padded with one "0". The pair
      is two lowercase hex digits, high nibble first, that read back as the byte's unsigned value. */
  function HexPair(b: JByte): (r: string)
    ensures |r| == 2
    ensures ('0' <= r[0] <= '9' || 'a' <= r[0] <= 'f') && ('0' <= r[1] <= '9' || 'a' <= r[1] <= 'f')
    ensures Digit(r[0]) == Unsigned(b) / 16 && Digit(r[1]) == Unsigned(b) % 16
  {
    var u := Unsigned(b);
    DigitOfHexDigit(u / 16);
    DigitOfHexDigit(u % 16);
    var t := ToHexString(u);
    if |t| == 1 then "0" + t else t
  }

  /** The hex text of a byte sequence, one pair per byte in order. */
  function Hex(bytes: seq<JByte>): (r: string)
    ensures |r| == 2 * |bytes|
  {
    if bytes == [] then "" else HexPair(bytes[0]) + Hex(bytes[1..])
  }

  /** The exceptions writeHex can raise before anything reaches the Writer. */
  datatype WriteError = NegativeArraySize | IndexOutOfBounds

  /** writeHex(bytes, off, len): the buffer is allocated with capacity 2 * len (Java int
      arithmetic), then the loop encodes indices off up to len - 1, so len acts as an end index
      rather than a count; the text reaches the Writer only when the loop completes. */
  function WriteHex(out: string, bytes: seq<JByte>, off: Int32, len: Int32): (r: Result<string, WriteError>)
    ensures Doubled(len) < 0 ==> r == Err(NegativeArraySize)
    ensures Doubled(len) >= 0 && off < len && (off < 0 || |bytes| < len) ==> r == Err(IndexOutOfBounds)
    ensures r.Ok? ==> r.value == out + (if off < len then Hex(bytes[off..len]) else "")
    ensures r.Ok? ==> |r.value| == |out| + 2 * (if off < len then len - off else 0)
  {
    if Doubled(len) < 0 then Err(NegativeArraySize)
    else if off >= len then Ok(out)
    else if off < 0 || |bytes| < len then Err(IndexOutOfBounds)
    else Ok(out + Hex(bytes[off..len]))
  }

  /** write(bytes, off, len) delegates to writeHex unchanged. */
  function WriteRange(out: string, bytes: seq<JByte>, off: Int32, len: Int32): (r: Result<string, WriteError>)
    ensures r == WriteHex(out, bytes, off, len)
    ensures 0 <= off < len <= |bytes| && 2 * len < 0x8000_0000 ==> r == Ok(out + Hex(bytes[off..len]))
  {
    WriteHex(out, bytes, off, len)
  }

  /** write(bytes): the whole array, appended as hex; an empty array writes nothing. An array of
      2^30 bytes or more makes the capacity 2 * len overflow and fail. */
  function WriteAll(out: string, bytes: seq<JByte>): (r: Result<string, WriteError>)
    requires |bytes| < 0x8000_0000
    ensures |bytes| < 0x4000_0000 ==> r == Ok(out + Hex(bytes))
    ensures bytes == [] ==> r == Ok(out)
    ensures 0x4000_0000 <= |bytes| ==> r == Err(NegativeArraySize)
  {
    assert bytes[0..|bytes|] == bytes;
    WriteHex(out, bytes, 0, |bytes|)
  }

  /** write(int b): only the low 8 bits of b are encoded, as one hex pair. */
  function WriteByte(out: string, b: Int32): (r: Result<string, WriteError>)
    ensures r.Ok? && |r.value| == |out| + 2 && r.value[..|out|] == out
    ensures 16 * Digit(r.value[|out|]) + Digit(r.value[|out| + 1]) == b % 256
  {
    WriteHex(out, [ToByte(b)], 0, 1)
  }

  /** HexStreamTest: an empty array writes nothing; {0x41, 0x0a, 0x00, 0xff} writes "410a00ff". */
  lemma WriteExamples()
    ensures WriteAll("", []) == Ok("")
    ensures WriteAll("", [0x41, 0x0a, 0x00, -1]) == Ok("410a00ff")
    ensures WriteByte("", 0x141) == Ok("41")
  {
    assert HexPair(0x41) == "41" && HexPair(0x0a) == "0a" && HexPair(0x00) == "00" && HexPair(-1) == "ff";
    var bytes: seq<JByte> := [0x41, 0x0a, 0x00, -1];
    assert Hex(bytes[3..]) == "ff";
    assert Hex(bytes[2..]) == "00" + Hex(bytes[3..]);
    assert Hex(bytes[1..]) == "0a" + Hex(bytes[2..]);
    assert Hex(bytes) == "41" + Hex(bytes[1..]);
    assert Hex(bytes) == "410a00ff";
    assert bytes[0..4] == bytes;
    assert "" + Hex(bytes[0..4]) == "410a00ff";
    assert [ToByte(0x141)][0..1] == [0x41];
    assert Hex([0x41]) == "41";
    assert "" + Hex([0x41]) == "41";
  }

  /** The exceptions read raises for a corrupted stream. */
  datatype ReadError = CharConversion(bad: char) | MissingChars

  /** The outcome of one read: the value (-1 at end of input) or an error, and the position after
      the characters the read consumed. */
  datatype Read = Read(value: Result<int, ReadError>, pos: nat)

  /** read(): two characters make one byte value 16 * digit(c0) + digit(c1). At end of input it
      answers -1; on any error every character read is pushed back, so the position stays. */
  function ReadByte(input: string, pos: nat): (r: Read)
    requires pos <= |input|
    ensures r.pos == pos || r.pos == pos + 2
    ensures r.pos <= |input|
    ensures r.value == Ok(-1) <==> pos == |input|
    ensures r.value.Err? || pos == |input| ==> r.pos == pos
    ensures r.value.Ok? && pos < |input| ==>
              r.pos == pos + 2 && 0 <= Digit(input[pos]) && 0 <= Digit(input[pos + 1])
              && r.value.value == 16 * Digit(input[pos]) + Digit(input[pos + 1]) && 0 <= r.value.value < 256
    ensures r.value == Err(MissingChars) <==> pos + 1 == |input| && 0 <= Digit(input[pos])
    ensures pos < |input| && Digit(input[pos]) < 0 ==> r.value == Err(CharConversion(input[pos]))
    ensures pos + 1 < |input| && 0 <= Digit(input[pos]) && Digit(input[pos + 1]) < 0 ==>
              r.value == Err(CharConversion(input[pos + 1]))
    ensures pos + 1 < |input| && 0 <= Digit(input[pos]) && 0 <= Digit(input[pos + 1]) ==>
              r == Read(Ok(16 * Digit(input[pos]) + Digit(input[pos + 1])), pos + 2)
  {
    if pos == |input| then Read(Ok(-1), pos)
    else
      var val0 := Digit(input[pos]);
      if val0 == -1 then Read(Err(CharConversion(input[pos])), pos)
      else if pos + 1 == |input| then Read(Err(MissingChars), pos)
      else
        var val1 := Digit(input[pos + 1]);
        if val1 == -1 then Read(Err(CharConversion(input[pos + 1])), pos)
        else Read(Ok(val0 * 16 + val1), pos + 2)
  }

  /** Repeated read() until -1: the byte values of the rest of the input, or the first error. */
  function ReadAll(input: string, pos: nat): (r: Result<seq<int>, ReadError>)
    requires pos <= |input|
    ensures r.Ok? ==> |r.value| == (|input| - pos) / 2 && (|input| - pos) % 2 == 0
    ensures r.Ok? ==> forall i :: 0 <= i < |r.value| ==> 0 <= r.value[i] < 256
    decreases |input| - pos
  {
    var step := ReadByte(input, pos);
    match step.value
    case Err(e) => Err(e)
    case Ok(v) =>
      if v == -1 then Ok([])
      else
        match ReadAll(input, step.pos)
        case Err(e) => Err(e)
        case Ok(rest) => Ok([v] + rest)
  }

  /** The rest of the input from pos is hex text: an even number of characters, each a hex digit
      in either case. */
  predicate IsHexText(input: string, pos: nat)
    requires pos <= |input|
  {
    (|input| - pos) % 2 == 0 && forall k :: pos <= k < |input| ==> 0 <= Digit(input[k])
  }

  /** Reference definition: the values of the character pairs of the input from pos, each
      16 * digit(c0) + digit(c1). */
  function PairValues(input: string, pos: nat): seq<int>
    requires pos <= |input| && (|input| - pos) % 2 == 0
    decreases |input| - pos
  {
    if pos == |input| then []
    else [16 * Digit(input[pos]) + Digit(input[pos + 1])] + PairValues(input, pos + 2)
  }

  /** Reading to the end succeeds exactly on hex text, and then yields the values of its pairs. */
  lemma {:induction false} ReadAllIsPairValues(input: string, pos: nat)
    requires pos <= |input|
    ensures ReadAll(input, pos).Ok? <==> IsHexText(input, pos)
    ensures IsHexText(input, pos) ==> ReadAll(input, pos) == Ok(PairValues(input, pos))
    decreases |input| - pos
  {
    if pos == |input| {
    } else if Digit(input[pos]) < 0 {
      assert !IsHexText(input, pos);
    } else if pos + 1 == |input| {
      assert !IsHexText(input, pos);
    } else if Digit(input[pos + 1]) < 0 {
      assert !IsHexText(input, pos) by {
        assert pos <= pos + 1 < |input|;
      }
    } else {
      ReadAllIsPairValues(input, pos + 2);
      assert IsHexText(input, pos) <==> IsHexText(input, pos + 2);
    }
  }

  /** Upper-case digits read like lower-case ones: "4A" and "4a" both read as 0x4a, "FF" as 0xff. */
  lemma UpperCaseExamples()
    ensures ReadAll("4A", 0) == Ok([0x4a])
    ensures ReadAll("4a", 0) == Ok([0x4a])
    ensures ReadAll("FF0b", 0) == Ok([0xff, 0x0b])
  {
    assert Digit('A') == 10 && Digit('F') == 15;
    var upper, lower, two := "4A", "4a", "FF0b";
    assert IsHexText(upper, 0) && IsHexText(lower, 0) && IsHexText(two, 0);
    ReadAllIsPairValues(upper, 0);
    ReadAllIsPairValues(lower, 0);
    ReadAllIsPairValues(two, 0);
    assert upper[0] == '4' && upper[1] == 'A';
    assert PairValues(upper, 2) == [];
    assert PairValues(upper, 0) == [0x4a];
    assert two[0] == 'F' && two[1] == 'F' && two[2] == '0' && two[3] == 'b';
    assert PairValues(two, 2) == [0x0b];
    assert PairValues(two, 0) == [0xff, 0x0b];
  }

  /** The unsigned values of a byte sequence. */
  function UnsignedAll(bytes: seq<JByte>): (r: seq<int>)
    ensures |r| == |bytes|
    ensures forall i :: 0 <= i < |bytes| ==> r[i] == Unsigned(bytes[i])
  {
    if bytes == [] then [] else [Unsigned(bytes[0])] + UnsignedAll(bytes[1..])
  }

  /** Round trip: reading the hex text of a byte sequence yields the bytes' unsigned values, which
      is what ObjectInputStream over a HexInputStream sees after an ObjectOutputStream wrote through
      a HexOutputStream. */
  lemma {:induction false} ReadHexRoundTrip(prefix: string, bytes: seq<JByte>)
    ensures ReadAll(prefix + Hex(bytes), |prefix|) == Ok(UnsignedAll(bytes))
    decreases |bytes|
  {
    var input := prefix + Hex(bytes);
    if bytes != [] {
      var pair := HexPair(bytes[0]);
      assert input == (prefix + pair) + Hex(bytes[1..]);
      assert input[|prefix|] == pair[0] && input[|prefix| + 1] == pair[1];
      ReadHexRoundTrip(prefix + pair, bytes[1..]);
      assert UnsignedAll(bytes) == [Unsigned(bytes[0])] + UnsignedAll(bytes[1..]);
    } else {
      assert input == prefix;
    }
  }

  /** What the writer writes, the reader reads back. */
  lemma WriteReadRoundTrip(bytes: seq<JByte>)
    requires |bytes| < 0x4000_0000
    ensures WriteAll("", bytes).Ok?
    ensures ReadAll(WriteAll("", bytes).value, 0) == Ok(UnsignedAll(bytes))
  {
    ReadHexRoundTrip("", bytes);
    assert "" + Hex(bytes) == Hex(bytes);
  }

  /** HexStreamTest: "410aff00" reads as 0x41, 0x0a, 0xff, 0x00; "410a1" fails on its lone last
      character and "410akj" on 'k', in both cases without consuming anything. */
  lemma ReadExamples()
    ensures ReadAll("410aff00", 0) == Ok([0x41, 0x0a, 0xff, 0x00])
    ensures ReadByte("410a1", 4) == Read(Err(MissingChars), 4)
    ensures ReadAll("410a1", 0) == Err(MissingChars)
    ensures ReadByte("410akj", 4) == Read(Err(CharConversion('k')), 4)
  {
    var input := "410aff00";
    assert ReadByte(input, 6) == Read(Ok(0x00), 8);
    assert ReadByte(input, 4) == Read(Ok(0xff), 6);
    assert ReadByte(input, 2) == Read(Ok(0x0a), 4);
    assert ReadByte(input, 0) == Read(Ok(0x41), 2);
    assert ReadAll(input, 8) == Ok([]);
    assert ReadAll(input, 6).value == [0x00];
    assert ReadAll(input, 4).value == [0xff, 0x00];
    assert ReadAll(input, 2).value == [0x0a, 0xff, 0x00];
    assert ReadAll(input, 0).value == [0x41, 0x0a, 0xff, 0x00];
    assert ReadByte("410a1", 0) == Read(Ok(0x41), 2);
    assert ReadByte("410a1", 2) == Read(Ok(0x0a), 4);
    assert ReadAll("410a1", 2) == Err(MissingChars);
  }

  /** The OutputStream contract for write(bytes, off, len): len bytes starting at off, with an
      IndexOutOfBounds for a range outside the array. */
  function WriteRangeAsDocumented(out: string, bytes: seq<JByte>, off: Int32, len: Int32): (r: Result<string, WriteError>)
    ensures r.Err? <==> off < 0 || len < 0 || |bytes| < off + len
    ensures r.Ok? ==> |r.value| == |out| + 2 * len && r.value[..|out|] == out
  {
    if off < 0 || len < 0 || |bytes| < off + len then Err(IndexOutOfBounds)
    else Ok(out + Hex(bytes[off..off + len]))
  }

  /** The documented writer reads back exactly the len bytes from off. */
  lemma WriteRangeAsDocumentedRoundTrip(bytes: seq<JByte>, off: Int32, len: Int32)
    requires 0 <= off && 0 <= len && off + len <= |bytes|
    ensures ReadAll(WriteRangeAsDocumented("", bytes, off, len).value, 0) == Ok(UnsignedAll(bytes[off..off + len]))
  {
    ReadHexRoundTrip("", bytes[off..off + len]);
    assert "" + Hex(bytes[off..off + len]) == Hex(bytes[off..off + len]);
  }

  /** writeHex as written treats len as an end index: write({1, 2, 3}, 1, 2) writes the single byte
      2 instead of the two bytes 2, 3. */
  lemma WriteRangeCountIsEndIndex()
    ensures WriteRange("", [1, 2, 3], 1, 2) == Ok("02")
    ensures WriteRangeAsDocumented("", [1, 2, 3], 1, 2) == Ok("0203")
  {
    var bytes: seq<JByte> := [1, 2, 3];
    assert HexPair(2) == "02" && HexPair(3) == "03";
    assert bytes[1..2] == [2] && bytes[1..3] == [2, 3];
    assert Hex([3]) == "03";
    assert Hex([2, 3]) == "02" + Hex([3]);
    assert Hex([2]) == "02";
    assert "" + Hex(bytes[1..2]) == "02";
    assert "" + Hex(bytes[1..3]) == "0203";
  }
}

=== FILE: list_util.dfy ===
/** Padding and truncation of lists (ListUtil). A Java List is a sequence; an operation that mutates
    its list argument returns the new contents instead. */
module ListUtil {
  import opened Wrappers

  /** Every element wrapped as a non-null reference. */
  function Lift<T>(s: seq<T>): (r: seq<Option<T>>)
    ensures |r| == |s|
    ensures forall i :: 0 <= i < |s| ==> r[i] == Some(s[i])
  {
    seq(|s|, i requires 0 <= i < |s| => Some(s[i]))
  }

  /** `n` nulls. */
  function Nulls<T>(n: nat): (r: seq<Option<T>>)
    ensures |r| == n
    ensures forall i :: 0 <= i < n ==> r[i].None?
  {
    seq(n, i => None)
  }

  /** Collections.reverse, as a value. */
  function Reverse<T>(s: seq<T>): (r: seq<T>)
    ensures |r| == |s|
    ensures forall i :: 0 <= i < |s| ==> r[i] == s[|s| - 1 - i]
  {
    if |s| == 0 then [] else [s[|s| - 1]] + Reverse(s[..|s| - 1])
  }

  /** firstOrNull: null on an empty list, otherwise the first element. */
  function FirstOrNull<T>(list: seq<T>): (r: Option<T>)
    ensures r.None? <==> |list| == 0
    ensures r.Some? ==> r.value == list[0]
  {
    if |list| == 0 then None else Some(list[0])
  }

  /** lastOrNull: null on an empty list, otherwise the last element. */
  function LastOrNull<T>(list: seq<T>): (r: Option<T>)
    ensures r.None? <==> |list| == 0
    ensures r.Some? ==> r.value == list[|list| - 1]
  {
    if |list| == 0 then None else Some(list[|list| - 1])
  }

  /** The list after removeLast and the element removeLast returned. */
  datatype Removal<T> = Removal(rest: seq<T>, removed: Option<T>)

  /** removeLast: an empty list is left alone and null is returned; otherwise the last element is
      taken off and returned, so putting it back restores the list. */
  function RemoveLast<T>(list: seq<T>): (r: Removal<T>)
    ensures r.removed == LastOrNull(list)
    ensures |list| == 0 ==> r.rest == list
    ensures |list| > 0 ==> r.rest + [r.removed.value] == list
  {
    if |list| == 0 then Removal(list, None)
    else Removal(list[..|list| - 1], Some(list[|list| - 1]))
  }

  /** The first element of a list is the last element of its reverse. */
  lemma FirstIsLastOfReverse<T>(s: seq<T>)
    ensures FirstOrNull(s) == LastOrNull(Reverse(s))
  {
  }

  /** Reversing a list with one more element at the end puts that element first. */
  lemma ReverseSnoc<T>(s: seq<T>, x: T)
    ensures Reverse(s + [x]) == [x] + Reverse(s)
  {
    assert (s + [x])[..|s|] == s;
  }

  /** The state of truncate after `done` calls of removeLast on `s`: the list lost its last `done`
      elements (or all of them), and the collected removals, reversed, are what was lost, with one
      null for every call made on the empty list. */
  ghost predicate RemovedFromEnd<T>(s: seq<T>, l: seq<T>, result: seq<Option<T>>, done: nat) {
    && (done <= |s| ==> l == s[..|s| - done] && Reverse(result) == Lift(s[|s| - done..]))
    && (done > |s| ==> l == [] && Reverse(result) == Nulls(done - |s|) + Lift(s))
  }

  /** One more removeLast keeps the truncate state. */
  lemma RemoveLastStep<T>(s: seq<T>, l: seq<T>, result: seq<Option<T>>, done: nat)
    requires RemovedFromEnd(s, l, result, done)
    ensures var r := RemoveLast(l);
            RemovedFromEnd(s, r.rest, result + [r.removed], done + 1)
  {
    var r := RemoveLast(l);
    ReverseSnoc(result, r.removed);
    if done < |s| {
      assert r.rest == s[..|s| - done - 1];
      assert Lift(s[|s| - done - 1..]) == [Some(s[|s| - done - 1])] + Lift(s[|s| - done..]);
    } else {
      assert [r.removed] + Nulls(done - |s|) + Lift(s) == Nulls(done + 1 - |s|) + Lift(s);
    }
  }

  /** truncate: the list keeps its first `newSize` elements and the removed suffix is returned in
      its original order. A null list, or one no longer than `newSize`, is left alone and the result
      is empty. A negative `newSize` empties the list and, because removeLast keeps returning null
      once the list is empty, the result starts with `-newSize` nulls. */
  method Truncate<T>(list: Option<seq<T>>, newSize: int) returns (rest: Option<seq<T>>, removed: seq<Option<T>>)
    ensures list.None? ==> rest.None? && removed == []
    ensures list.Some? && newSize >= |list.value| ==> rest == list && removed == []
    ensures list.Some? && 0 <= newSize < |list.value| ==>
              rest == Some(list.value[..newSize]) && removed == Lift(list.value[newSize..])
    ensures list.Some? && newSize < 0 ==>
              rest == Some([]) && removed == Nulls(-newSize) + Lift(list.value)
  {
    if list.None? {
      return None, [];
    }
    var s := list.value;
    var l := s;
    var itemsToRemove := |s| - newSize;
    if itemsToRemove > 0 {
      ghost var total := itemsToRemove;
      var result: seq<Option<T>> := [];
      while itemsToRemove > 0
        invariant 0 <= itemsToRemove <= total
        invariant RemovedFromEnd(s, l, result, total - itemsToRemove)
      {
        RemoveLastStep(s, l, result, total - itemsToRemove);
        var r := RemoveLast(l);
        l := r.rest;
        result := result + [r.removed];
        itemsToRemove := itemsToRemove - 1;
      }
      removed := Reverse(result);
    } else {
      removed := [];
    }
    rest := Some(l);
  }

  /** fill with a generator: the list keeps its elements and grows to `newSize`, each appended
      element being what the generator makes of the list as it stands; a list that already has
      `newSize` elements is left alone. */
  function Fill<T>(list: seq<T>, newSize: int, generator: seq<T> -> T): (r: seq<T>)
    ensures |r| == if |list| >= newSize then |list| else newSize
    ensures r[..|list|] == list
    ensures forall i :: |list| <= i < |r| ==> r[i] == generator(r[..i])
    decreases newSize - |list|
  {
    if |list| >= newSize then list else Fill(list + [generator(list)], newSize, generator)
  }

  /** fill without a generator pads with nulls. */
  function FillNull<T>(list: seq<Option<T>>, newSize: int): (r: seq<Option<T>>)
    ensures |r| == if |list| >= newSize then |list| else newSize
    ensures r[..|list|] == list
    ensures forall i :: |list| <= i < |r| ==> r[i].None?
  {
    Fill(list, newSize, (l: seq<Option<T>>) => None)
  }

  /** Filling to a size the list already has changes nothing, so filling twice is filling once. */
  lemma FillIdempotent<T>(list: seq<T>, newSize: int, generator: seq<T> -> T)
    ensures Fill(Fill(list, newSize, generator), newSize, generator) == Fill(list, newSize, generator)
  {
  }

  /** resize: the list ends with exactly `newSize` elements (none for a negative size), by
      truncating it or by filling it from the generator. */
  method Resize<T>(list: seq<T>, newSize: int, generator: seq<T> -> T) returns (r: seq<T>)
    ensures |r| == if newSize < 0 then 0 else newSize
    ensures newSize <= |list| ==> r == list[..|r|]
    ensures newSize >= |list| ==> r[..|list|] == list
    ensures forall i :: |list| <= i < |r| ==> r[i] == generator(r[..i])
  {
    if |list| > newSize {
      var rest, _ := Truncate(Some(list), newSize);
      r := rest.value;
    } else if |list| < newSize {
      r := Fill(list, newSize, generator);
    } else {
      r := list;
    }
  }

  /** The generator of ListUtilTest.testFill2: one more than the current size. */
  function SizePlusOne(l: seq<int>): int {
    |l| + 1
  }

  /** Filling an empty list to four elements with SizePlusOne gives 1, 2, 3, 4; filling it again
      to three changes nothing; its first and last elements are 1 and 4. */
  lemma FillExample()
    ensures Fill([], 4, SizePlusOne) == [1, 2, 3, 4]
    ensures Fill([1, 2, 3, 4], 3, SizePlusOne) == [1, 2, 3, 4]
    ensures FirstOrNull([1, 2, 3, 4]) == Some(1) && LastOrNull([1, 2, 3, 4]) == Some(4)
  {
    var r := Fill([], 4, SizePlusOne);
    assert r[0] == SizePlusOne(r[..0]);
    assert r[1] == SizePlusOne(r[..1]);
    assert r[2] == SizePlusOne(r[..2]);
    assert r[3] == SizePlusOne(r[..3]);
  }

  /** ListUtilTest.testTruncate: truncating 1..5 to three elements keeps 1, 2, 3 and returns 4, 5;
      truncating to a size the list does not exceed, or a null list, returns nothing. */
  method TruncateExample() returns (rest: Option<seq<int>>, removed: seq<Option<int>>,
                                    removed2: seq<Option<int>>, removed3: seq<Option<int>>)
    ensures rest == Some([1, 2, 3]) && removed == [Some(4), Some(5)]
    ensures removed2 == [] && removed3 == []
  {
    rest, removed := Truncate(Some([1, 2, 3, 4, 5]), 3);
    assert [1, 2, 3, 4, 5][..3] == [1, 2, 3] && [1, 2, 3, 4, 5][3..] == [4, 5];
    assert Lift([4, 5]) == [Some(4), Some(5)];
    var rest2;
    rest2, removed2 := Truncate(rest, 5);
    var rest3;
    rest3, removed3 := Truncate(None, 5);
  }
}

=== FILE: message_format_na.dfy ===
/** MessageFormatNA: a java.text.MessageFormat that also accepts named placeholders such as
    `{name}`. Before the pattern reaches MessageFormat, every name is replaced by a fresh index above
    the largest explicit one; format() then builds the positional argument list from the indexed
    arguments and the named suppliers. This module models the rewrite and the argument resolution;
    the rendering itself belongs to MessageFormat and is not part of this model. */
module MessageFormatNA {
  import opened Wrappers
  import ListUtil

  // ---------------------------------------------------------------------------------------------
  // The scanner of rebuildPattern

  /** The scanner state carried between the characters of a pattern: the brace depth, whether a
      quoted literal is open, and whether the next ordinary character is offered to the converter. */
  datatype Scan = Scan(braceCount: int, inQuote: bool, checkForArgName: bool)

  /** The state before the first character. */
  const Start := Scan(0, false, false)

  /** The characters the scanner treats specially; all others take the `default` branch. */
  predicate IsOrdinary(c: char) {
    c != '{' && c != '}' && c != '\''
  }

  /** An ordinary character met while the flag is up is handed to the converter. */
  predicate Offered(st: Scan, c: char) {
    IsOrdinary(c) && st.checkForArgName
  }

  /** The state after a character that the scanner copies through. A quote toggles literal mode
      only at depth 0; `{` in literal mode only closes it; `}` in literal mode changes nothing; the
      flag is raised by the `{` that brings the depth from 0 to 1 and lowered by the first ordinary
      character. */
  function Advance(st: Scan, c: char): (r: Scan)
    ensures r.inQuote != st.inQuote ==> (c == '\'' && st.braceCount == 0) || (c == '{' && st.inQuote)
    ensures r.braceCount != st.braceCount ==> !st.inQuote && (c == '{' || c == '}')
    ensures r.braceCount - st.braceCount in {-1, 0, 1}
    ensures r.checkForArgName && !st.checkForArgName ==> c == '{' && r.braceCount == 1
    ensures IsOrdinary(c) ==> r == st.(checkForArgName := false)
  {
    if c == '{' then
      if st.inQuote then st.(inQuote := false)
      else
        var depth := st.braceCount + 1;
        st.(braceCount := depth, checkForArgName := st.checkForArgName || depth == 1)
    else if c == '}' then
      if st.inQuote then st else st.(braceCount := st.braceCount - 1)
    else if c == '\'' then
      if st.braceCount == 0 then st.(inQuote := !st.inQuote) else st
    else
      st.(checkForArgName := false)
  }

  /** The scanner state after a prefix of a pattern, ignoring the converter: a converter only ever
      consumes ordinary characters, which leave depth and quote alone. */
  function StateAfter(s: string, st: Scan): (r: Scan)
    decreases |s|
  {
    if s == [] then st else StateAfter(s[1..], Advance(st, s[0]))
  }

  /** `''` at depth 0 opens and closes a literal, so the state is as before: this is why `''{name}''`
      is still a placeholder. */
  lemma DoubledQuoteIsNeutral(st: Scan)
    requires st.braceCount == 0 && !st.checkForArgName
    ensures StateAfter("''", st) == st
  {
    assert "''"[1..] == "'";
  }

  /** A quoted `{` at depth 0 opens no placeholder: `'{` leaves the depth at 0 and the flag down. */
  lemma QuotedBraceOpensNothing()
    ensures StateAfter("'{", Start) == Start
  {
    assert "'{"[1..] == "{";
  }

  // ---------------------------------------------------------------------------------------------
  // The two token classes, parseName and parseInt

  /** CharUtils.isAsciiAlpha. */
  predicate IsAsciiAlpha(c: char) {
    'a' <= c <= 'z' || 'A' <= c <= 'Z'
  }

  /** CharUtils.isAsciiNumeric. */
  predicate IsAsciiNumeric(c: char) {
    '0' <= c <= '9'
  }

  /** Which converter runs: the digits of evaluateMaxArgIndex or the letters of namesToIndex. */
  datatype TokenClass = Digits | Letters

  predicate InClass(cls: TokenClass, c: char) {
    match cls
    case Digits => IsAsciiNumeric(c)
    case Letters => IsAsciiAlpha(c)
  }

  /** Where the run of `cls` characters that starts at `i` ends. */
  function RunEnd(s: string, i: nat, cls: TokenClass): (j: nat)
    requires i <= |s|
    ensures i <= j <= |s|
    ensures forall k :: i <= k < j ==> InClass(cls, s[k])
    ensures j == |s| || !InClass(cls, s[j])
    decreases |s| - i
  {
    if i < |s| && InClass(cls, s[i]) then RunEnd(s, i + 1, cls) else i
  }

  /** parseName: the maximal run of ASCII letters at `i`, and the position after it. */
  function ParseName(s: string, i: nat): (r: (string, nat))
    requires i <= |s|
    ensures i <= r.1 <= |s| && r.0 == s[i..r.1]
    ensures forall k :: 0 <= k < |r.0| ==> IsAsciiAlpha(r.0[k])
    ensures r.1 == |s| || !IsAsciiAlpha(s[r.1])
  {
    var j := RunEnd(s, i, Letters);
    (s[i..j], j)
  }

  /** The value of a string of decimal digits. */
  function DigitsValue(ds: string): (n: nat)
    decreases |ds|
  {
    if ds == [] then 0
    else 10 * DigitsValue(ds[..|ds| - 1]) + DigitValue(ds[|ds| - 1])
  }

  function DigitValue(c: char): nat {
    if IsAsciiNumeric(c) then (c as int) - ('0' as int) else 0
  }

  /** The decimal digit of a value below ten. */
  function DigitChar(d: nat): (c: char)
    requires d < 10
    ensures IsAsciiNumeric(c) && DigitValue(c) == d
  {
    ('0' as int + d) as char
  }

  /** Integer.toString for a non-negative value: its decimal digits, no leading zero. */
  function NatToString(n: nat): (s: string)
    ensures s != [] && (forall k :: 0 <= k < |s| ==> IsAsciiNumeric(s[k]))
    ensures |s| > 1 ==> s[0] != '0'
    decreases n
  {
    if n < 10 then [DigitChar(n)] else NatToString(n / 10) + [DigitChar(n % 10)]
  }

  /** Integer.toString: a minus sign in front of a negative value. */
  function IntToString(i: int): (s: string)
    ensures s != []
  {
    if i < 0 then "-" + NatToString(-i) else NatToString(i)
  }

  /** Reading back what Integer.toString wrote gives the value. */
  lemma {:induction false} NatToStringRoundTrip(n: nat)
    ensures DigitsValue(NatToString(n)) == n
    decreases n
  {
    if n >= 10 {
      var s := NatToString(n);
      assert s[..|s| - 1] == NatToString(n / 10);
      NatToStringRoundTrip(n / 10);
    }
  }

  /** parseInt, with NumberFormat's parse taken as reading the maximal run of ASCII digits at `i`. */
  function ParseInt(s: string, i: nat): (r: (nat, nat))
    requires i <= |s|
    ensures i <= r.1 <= |s|
    ensures forall k :: i <= k < r.1 ==> IsAsciiNumeric(s[k])
    ensures r.1 == |s| || !IsAsciiNumeric(s[r.1])
  {
    var j := RunEnd(s, i, Digits);
    (DigitsValue(s[i..j]), j)
  }

  /** parseInt reads back the index that Integer.toString writes, up to the next non-digit. */
  lemma ParseIntReadsIndex(n: nat, rest: string)
    requires rest == [] || !IsAsciiNumeric(rest[0])
    ensures ParseInt(NatToString(n) + rest, 0) == (n, |NatToString(n)|)
  {
    var s := NatToString(n) + rest;
    var j := RunEnd(s, 0, Digits);
    assert forall k :: 0 <= k < |NatToString(n)| ==> s[k] == NatToString(n)[k];
    assert |NatToString(n)| < |s| ==> s[|NatToString(n)|] == rest[0];
    assert s[0..j] == NatToString(n);
    NatToStringRoundTrip(n);
  }

  // ---------------------------------------------------------------------------------------------
  // Reference view: the pattern cut into copied characters and converter tokens

  /** A character copied through, or a run the converter of one class consumes. */
  datatype Piece = Lit(c: char) | Token(text: string)

  /** The pieces rebuildPattern sees from position `i` on when its converter reads runs of `cls`. */
  function Lex(s: string, i: nat, st: Scan, cls: TokenClass): (r: seq<Piece>)
    requires i <= |s|
    ensures forall k :: 0 <= k < |r| && r[k].Token? ==> r[k].text != [] && InClass(cls, r[k].text[0])
    decreases |s| - i
  {
    if i == |s| then []
    else
      var c := s[i];
      if Offered(st, c) && InClass(cls, c) then
        var j := RunEnd(s, i, cls);
        [Token(s[i..j])] + Lex(s, j, st.(checkForArgName := false), cls)
      else
        [Lit(c)] + Lex(s, i + 1, Advance(st, c), cls)
  }

  /** The text the pieces were cut from. */
  function Flatten(ps: seq<Piece>): string {
    if ps == [] then []
    else (match ps[0] case Lit(c) => [c] case Token(t) => t) + Flatten(ps[1..])
  }

  /** Cutting loses nothing: the pieces spell the pattern. */
  lemma {:induction false} LexFlattens(s: string, i: nat, st: Scan, cls: TokenClass)
    requires i <= |s|
    ensures Flatten(Lex(s, i, st, cls)) == s[i..]
    decreases |s| - i
  {
    if i < |s| {
      var c := s[i];
      if Offered(st, c) && InClass(cls, c) {
        var j := RunEnd(s, i, cls);
        LexFlattens(s, j, st.(checkForArgName := false), cls);
        assert s[i..] == s[i..j] + s[j..];
      } else {
        LexFlattens(s, i + 1, Advance(st, c), cls);
        assert s[i..] == [c] + s[i + 1..];
      }
    }
  }

  /** The token texts, in pattern order. */
  function TokenTexts(ps: seq<Piece>): (r: seq<string>)
    ensures |r| <= |ps|
  {
    if ps == [] then []
    else (if ps[0].Token? then [ps[0].text] else []) + TokenTexts(ps[1..])
  }

  /** The values of digit runs. */
  function Values(ts: seq<string>): (r: seq<nat>)
    ensures |r| == |ts|
  {
    if ts == [] then [] else [DigitsValue(ts[0])] + Values(ts[1..])
  }

  /** The explicit indices of a pattern: the digit runs at placeholder starts, in pattern order. */
  function ExplicitIndices(pattern: string): seq<nat> {
    Values(TokenTexts(Lex(pattern, 0, Start, Digits)))
  }

  /** The names of a pattern: the letter runs at placeholder starts, in pattern order, repeats kept. */
  function Names(pattern: string): seq<string> {
    TokenTexts(Lex(pattern, 0, Start, Letters))
  }

  /** The pieces written back with each token replaced by the decimal index the map gives it. */
  function Render(ps: seq<Piece>, m: map<string, int>): (r: string)
    requires forall t :: t in TokenTexts(ps) ==> t in m
  {
    if ps == [] then []
    else
      assert forall t :: t in TokenTexts(ps[1..]) ==> t in TokenTexts(ps);
      (match ps[0] case Lit(c) => [c] case Token(t) => IntToString(m[t])) + Render(ps[1..], m)
  }

  /** With no token to replace, rendering writes the pattern back unchanged. */
  lemma {:induction false} RenderWithoutTokens(ps: seq<Piece>, m: map<string, int>)
    requires TokenTexts(ps) == []
    ensures Render(ps, m) == Flatten(ps)
  {
    if ps != [] {
      assert TokenTexts(ps[1..]) == [];
      RenderWithoutTokens(ps[1..], m);
    }
  }

  // ---------------------------------------------------------------------------------------------
  // evaluateMaxArgIndex

  function Max(a: int, b: int): int {
    if a < b then b else a
  }

  /** The largest of `acc` and the values. */
  function FoldMax(acc: int, vs: seq<nat>): (r: int)
    ensures r >= acc && forall k :: 0 <= k < |vs| ==> vs[k] <= r
    ensures r == acc || exists k :: 0 <= k < |vs| && vs[k] == r
    decreases |vs|
  {
    if vs == [] then acc else FoldMax(Max(acc, vs[0]), vs[1..])
  }

  /** rebuildPattern with the digit converter of evaluateMaxArgIndex, which only keeps the running
      maximum (the rebuilt text is dropped). */
  function MaxFrom(s: string, i: nat, st: Scan, result: int): int
    requires i <= |s|
    decreases |s| - i
  {
    if i == |s| then result
    else
      var c := s[i];
      if Offered(st, c) then
        if IsAsciiNumeric(c) then
          var (v, j) := ParseInt(s, i);
          MaxFrom(s, j, st.(checkForArgName := false), Max(result, v))
        else
          MaxFrom(s, i + 1, st.(checkForArgName := false), result)
      else
        MaxFrom(s, i + 1, Advance(st, c), result)
  }

  /** The running maximum is the maximum over the digit tokens of the reference view. */
  lemma {:induction false} MaxFromIsFold(s: string, i: nat, st: Scan, result: int)
    requires i <= |s|
    ensures MaxFrom(s, i, st, result) == FoldMax(result, Values(TokenTexts(Lex(s, i, st, Digits))))
    decreases |s| - i
  {
    if i < |s| {
      var c := s[i];
      if Offered(st, c) && IsAsciiNumeric(c) {
        var j := RunEnd(s, i, Digits);
        MaxFromIsFold(s, j, st.(checkForArgName := false), Max(result, DigitsValue(s[i..j])));
        var ts := TokenTexts(Lex(s, j, st.(checkForArgName := false), Digits));
        assert TokenTexts(Lex(s, i, st, Digits)) == [s[i..j]] + ts;
      } else {
        MaxFromIsFold(s, i + 1, Advance(st, c), result);
        assert TokenTexts(Lex(s, i, st, Digits)) == TokenTexts(Lex(s, i + 1, Advance(st, c), Digits));
      }
    }
  }

  /** evaluateMaxArgIndex: -1 when no placeholder starts with a digit, otherwise the largest explicit
      index; names play no part. */
  function EvaluateMaxArgIndex(pattern: string): (r: int)
    ensures r >= -1
    ensures forall k :: 0 <= k < |ExplicitIndices(pattern)| ==> ExplicitIndices(pattern)[k] <= r
    ensures r == -1 <==> ExplicitIndices(pattern) == []
    ensures r != -1 ==> exists k :: 0 <= k < |ExplicitIndices(pattern)| && ExplicitIndices(pattern)[k] == r
  {
    MaxFromIsFold(pattern, 0, Start, -1);
    MaxFrom(pattern, 0, Start, -1)
  }

  // ---------------------------------------------------------------------------------------------
  // namesToIndex

  predicate NoDup<T(==)>(xs: seq<T>) {
    forall i, j :: 0 <= i < j < |xs| ==> xs[i] != xs[j]
  }

  /** `d` followed by the names of `ns` it does not hold yet, each once, in order of first occurrence. */
  function Extend(d: seq<string>, ns: seq<string>): (r: seq<string>)
    ensures |d| <= |r| && r[..|d|] == d
    ensures forall x :: x in r <==> x in d || x in ns
    ensures NoDup(d) ==> NoDup(r)
    decreases |ns|
  {
    if ns == [] then d else Extend(if ns[0] in d then d else d + [ns[0]], ns[1..])
  }

  /** The distinct names in order of first occurrence. */
  function Dedup(ns: seq<string>): seq<string> {
    Extend([], ns)
  }

  /** Extending by `a + b` is extending by `a`, then by `b`. */
  lemma {:induction false} ExtendAppend(d: seq<string>, a: seq<string>, b: seq<string>)
    ensures Extend(d, a + b) == Extend(Extend(d, a), b)
    decreases |a|
  {
    if a == [] {
      assert a + b == b;
    } else {
      assert (a + b)[0] == a[0] && (a + b)[1..] == a[1..] + b;
      ExtendAppend(if a[0] in d then d else d + [a[0]], a[1..], b);
    }
  }

  /** A name not yet in `d` lands right after it. */
  lemma ExtendWithNew(d: seq<string>, ns: seq<string>)
    requires ns != [] && ns[0] !in d
    ensures |Extend(d, ns)| > |d| && Extend(d, ns)[|d|] == ns[0]
  {
    var r := Extend(d + [ns[0]], ns[1..]);
    assert r == Extend(d, ns);
    assert r[..|d| + 1] == d + [ns[0]];
    assert r[|d|] == r[..|d| + 1][|d|];
  }

  /** A name whose first occurrence comes after another name's comes after it in Dedup as well. */
  lemma DedupKeepsFirstOccurrenceOrder(ns: seq<string>, i: nat, j: nat)
    requires i < j < |ns| && ns[j] !in ns[..j]
    ensures exists p, q :: 0 <= p < q < |Dedup(ns)| && Dedup(ns)[p] == ns[i] && Dedup(ns)[q] == ns[j]
  {
    var dj := Dedup(ns[..j]);
    assert ns == ns[..j] + ns[j..];
    ExtendAppend([], ns[..j], ns[j..]);
    var full := Extend(dj, ns[j..]);
    assert full == Dedup(ns);
    assert ns[i] in dj by {
      assert ns[i] == ns[..j][i];
    }
    ExtendWithNew(dj, ns[j..]);
    var p :| 0 <= p < |dj| && dj[p] == ns[i];
    assert full[p] == full[..|dj|][p];
  }

  /** The name-to-index map of namesToIndex and the counter it allocates from. */
  datatype Allocation = Allocation(nameToIndex: map<string, int>, namedArgIdx: int)

  /** computeIfAbsent with the incrementing counter: a known name keeps its index, a new name is
      given the next one. */
  function ComputeIfAbsent(a: Allocation, name: string): (Allocation, int) {
    if name in a.nameToIndex then (a, a.nameToIndex[name])
    else
      var idx := a.namedArgIdx + 1;
      (Allocation(a.nameToIndex[name := idx], idx), idx)
  }

  /** The allocation holds exactly the names of `d`, the k-th of them at base + 1 + k, and the
      counter stands at the last index given out. */
  ghost predicate Allocated(a: Allocation, d: seq<string>, base: int) {
    NoDup(d) && a.namedArgIdx == base + |d|
    && (forall n :: n in a.nameToIndex <==> n in d)
    && (forall k :: 0 <= k < |d| ==> a.nameToIndex[d[k]] == base + 1 + k)
  }

  /** computeIfAbsent keeps the allocation in first-occurrence order. */
  lemma ComputeIfAbsentAllocates(a: Allocation, d: seq<string>, base: int, name: string)
    requires Allocated(a, d, base)
    ensures var (a', idx) := ComputeIfAbsent(a, name);
            Allocated(a', if name in d then d else d + [name], base)
            && name in a'.nameToIndex && a'.nameToIndex[name] == idx
  {
    if name !in d {
      var d' := d + [name];
      var (a', idx) := ComputeIfAbsent(a, name);
      forall k | 0 <= k < |d'|
        ensures a'.nameToIndex[d'[k]] == base + 1 + k
      {
        if k < |d| {
          assert d'[k] == d[k] && d[k] != name;
        }
      }
    }
  }

  /** The text namesToIndex builds and the allocation it leaves behind. */
  datatype Rewrite = Rewrite(text: string, alloc: Allocation)

  /** rebuildPattern with the name converter of namesToIndex: a letter run offered to the converter
      is replaced by the index computeIfAbsent gives its name; everything else is copied. */
  function NamesFrom(s: string, i: nat, st: Scan, a: Allocation): (r: Rewrite)
    requires i <= |s|
    decreases |s| - i
  {
    if i == |s| then Rewrite([], a)
    else
      var c := s[i];
      if Offered(st, c) then
        if IsAsciiAlpha(c) then
          var (name, j) := ParseName(s, i);
          var (a', idx) := ComputeIfAbsent(a, name);
          var rest := NamesFrom(s, j, st.(checkForArgName := false), a');
          Rewrite(IntToString(idx) + rest.text, rest.alloc)
        else
          var rest := NamesFrom(s, i + 1, st.(checkForArgName := false), a);
          Rewrite([c] + rest.text, rest.alloc)
      else
        var rest := NamesFrom(s, i + 1, Advance(st, c), a);
        Rewrite([c] + rest.text, rest.alloc)
  }

  /** The name pass only adds to the map: every name known before keeps its index. */
  lemma {:induction false} NamesFromKeeps(s: string, i: nat, st: Scan, a: Allocation)
    requires i <= |s|
    ensures var r := NamesFrom(s, i, st, a);
            forall n :: n in a.nameToIndex ==> n in r.alloc.nameToIndex && r.alloc.nameToIndex[n] == a.nameToIndex[n]
    decreases |s| - i
  {
    if i < |s| {
      var c := s[i];
      if Offered(st, c) && IsAsciiAlpha(c) {
        var j := RunEnd(s, i, Letters);
        var name, st' := s[i..j], st.(checkForArgName := false);
        var (a', idx) := ComputeIfAbsent(a, name);
        assert forall n :: n in a.nameToIndex ==> n in a'.nameToIndex && a'.nameToIndex[n] == a.nameToIndex[n];
        NamesFromKeeps(s, j, st', a');
        NamesTokenStep(s, i, j, st, a, name, a', idx, NamesFrom(s, j, st', a'));
      } else {
        var st' := if Offered(st, c) then st.(checkForArgName := false) else Advance(st, c);
        NamesFromKeeps(s, i + 1, st', a);
        NamesCopyStep(s, i, st, st', a, NamesFrom(s, i + 1, st', a));
      }
    }
  }

  /** One step of the reference view at a token. */
  lemma LexTokenStep(s: string, i: nat, st: Scan, cls: TokenClass)
    requires i < |s| && Offered(st, s[i]) && InClass(cls, s[i])
    ensures var j := RunEnd(s, i, cls);
            var ps := Lex(s, j, st.(checkForArgName := false), cls);
            Lex(s, i, st, cls) == [Token(s[i..j])] + ps
            && TokenTexts(Lex(s, i, st, cls)) == [s[i..j]] + TokenTexts(ps)
  {
    var j := RunEnd(s, i, cls);
    var ps := Lex(s, j, st.(checkForArgName := false), cls);
    assert ([Token(s[i..j])] + ps)[1..] == ps;
  }

  /** One step of the reference view at a copied character. */
  lemma LexLitStep(s: string, i: nat, st: Scan, cls: TokenClass)
    requires i < |s| && !(Offered(st, s[i]) && InClass(cls, s[i]))
    ensures var ps := Lex(s, i + 1, Advance(st, s[i]), cls);
            Lex(s, i, st, cls) == [Lit(s[i])] + ps
            && TokenTexts(Lex(s, i, st, cls)) == TokenTexts(ps)
  {
    var ps := Lex(s, i + 1, Advance(st, s[i]), cls);
    assert ([Lit(s[i])] + ps)[1..] == ps;
  }

  /** The one-pass rewrite agrees with the reference view: the allocation covers the names in order
      of first occurrence, and the text is the pattern with each name token rendered as its index. */
  lemma {:induction false} NamesFromAllocates(s: string, i: nat, st: Scan, a: Allocation, d: seq<string>, base: int)
    requires i <= |s| && Allocated(a, d, base)
    ensures var r := NamesFrom(s, i, st, a);
            var ps := Lex(s, i, st, Letters);
            Allocated(r.alloc, Extend(d, TokenTexts(ps)), base)
            && (forall t :: t in TokenTexts(ps) ==> t in r.alloc.nameToIndex)
            && r.text == Render(ps, r.alloc.nameToIndex)
    decreases |s| - i
  {
    if i < |s| {
      var c := s[i];
      if Offered(st, c) && IsAsciiAlpha(c) {
        var (name, j) := ParseName(s, i);
        var (a', idx) := ComputeIfAbsent(a, name);
        ComputeIfAbsentAllocates(a, d, base, name);
        NamesFromKeeps(s, j, st.(checkForArgName := false), a');
        NamesFromAllocates(s, j, st.(checkForArgName := false), a', if name in d then d else d + [name], base);
        LexTokenStep(s, i, st, Letters);
      } else {
        NamesFromAllocates(s, i + 1, Advance(st, c), a, d, base);
        LexLitStep(s, i, st, Letters);
      }
    }
  }

  /** namesToIndex: the map starts empty; the distinct names, in order of first occurrence, get
      max + 1, max + 2, ... where max is the largest explicit index; the text is the pattern with each
      name token replaced by its index. */
  function NamesToIndex(pattern: string): (r: Rewrite)
    ensures Allocated(r.alloc, Dedup(Names(pattern)), EvaluateMaxArgIndex(pattern))
    ensures forall t :: t in Names(pattern) ==> t in r.alloc.nameToIndex
    ensures r.text == Render(Lex(pattern, 0, Start, Letters), r.alloc.nameToIndex)
  {
    var max := EvaluateMaxArgIndex(pattern);
    NamesFromAllocates(pattern, 0, Start, Allocation(map[], max), [], max);
    NamesFrom(pattern, 0, Start, Allocation(map[], max))
  }

  /** The map holds exactly the pattern's names; their indices are pairwise distinct, not negative,
      and above every explicit index. */
  lemma NameIndicesAreFresh(pattern: string)
    ensures var m := NamesToIndex(pattern).alloc.nameToIndex;
            (forall n :: n in m <==> n in Names(pattern))
            && (forall n1, n2 :: n1 in m && n2 in m && n1 != n2 ==> m[n1] != m[n2])
            && (forall n :: n in m ==> m[n] >= 0 && m[n] > EvaluateMaxArgIndex(pattern))
            && (forall n, k :: n in m && 0 <= k < |ExplicitIndices(pattern)| ==> ExplicitIndices(pattern)[k] < m[n])
  {
    var m := NamesToIndex(pattern).alloc.nameToIndex;
    var d := Dedup(Names(pattern));
    forall n | n in m
      ensures exists k :: 0 <= k < |d| && d[k] == n
    {
      assert n in d;
    }
  }

  /** A name that first occurs later is given a larger index. */
  lemma NameIndicesFollowFirstOccurrence(pattern: string, i: nat, j: nat)
    requires i < j < |Names(pattern)| && Names(pattern)[j] !in Names(pattern)[..j]
    ensures var m := NamesToIndex(pattern).alloc.nameToIndex;
            Names(pattern)[i] in m && Names(pattern)[j] in m && m[Names(pattern)[i]] < m[Names(pattern)[j]]
  {
    DedupKeepsFirstOccurrenceOrder(Names(pattern), i, j);
  }

  /** The rewrite changes nothing but the name tokens: cutting the pattern into pieces spells the
      pattern, and the result is the same pieces with the name tokens rendered; a pattern without
      names comes back unchanged with an empty map. */
  lemma RewriteOnlyTouchesNames(pattern: string)
    ensures Flatten(Lex(pattern, 0, Start, Letters)) == pattern
    ensures Names(pattern) == [] ==> NamesToIndex(pattern).text == pattern && NamesToIndex(pattern).alloc.nameToIndex == map[]
  {
    LexFlattens(pattern, 0, Start, Letters);
    if Names(pattern) == [] {
      RenderWithoutTokens(Lex(pattern, 0, Start, Letters), NamesToIndex(pattern).alloc.nameToIndex);
    }
  }

  // ---------------------------------------------------------------------------------------------
  // The time-zone choice of updateDateFormatTimeZone

  /** A sub-format of the parsed pattern as the time-zone choice sees it: a SimpleDateFormat with its
      pattern, another DateFormat, or anything else (a number format, or no format at all). Zones are
      time-zone ids. */
  datatype SubFormat =
    | SimpleDateFormat(datePattern: string, zone: string)
    | OtherDateFormat(zone: string)
    | OtherFormat

  const Gmt := "GMT"

  predicate EndsWith(s: string, suffix: string) {
    |suffix| <= |s| && s[|s| - |suffix|..] == suffix
  }

  /** A date pattern that prints a literal Z is meant to show UTC. */
  predicate PrintsLiteralZ(f: SubFormat) {
    f.SimpleDateFormat? && EndsWith(f.datePattern, "'Z'")
  }

  /** The zone one sub-format ends up with. */
  function WithZone(f: SubFormat, tz: string): (r: SubFormat)
    ensures r.SimpleDateFormat? == f.SimpleDateFormat? && r.OtherDateFormat? == f.OtherDateFormat?
    ensures r.SimpleDateFormat? ==> r.datePattern == f.datePattern
    ensures PrintsLiteralZ(f) ==> r.zone == Gmt
    ensures f.OtherDateFormat? || (f.SimpleDateFormat? && !PrintsLiteralZ(f)) ==> r.zone == tz
    ensures f.OtherFormat? ==> r == f
  {
    match f
    case SimpleDateFormat(p, _) => if EndsWith(p, "'Z'") then SimpleDateFormat(p, Gmt) else SimpleDateFormat(p, tz)
    case OtherDateFormat(_) => OtherDateFormat(tz)
    case OtherFormat => OtherFormat
  }

  /** updateDateFormatTimeZone: every date sub-format gets the configured zone, or the default zone
      when none is configured, except that a SimpleDateFormat whose pattern ends in `'Z'` gets GMT;
      other sub-formats are left alone. */
  function UpdateDateFormatTimeZone(formats: seq<SubFormat>, timeZone: Option<string>, defaultZone: string): (r: seq<SubFormat>)
    ensures |r| == |formats|
    ensures forall i :: 0 <= i < |r| ==> r[i] == WithZone(formats[i], timeZone.GetOr(defaultZone))
  {
    seq(|formats|, i requires 0 <= i < |formats| => WithZone(formats[i], timeZone.GetOr(defaultZone)))
  }

  /** Choosing the zones again changes nothing, and afterwards every date sub-format shows GMT or the
      chosen zone. */
  lemma ZoneChoiceIsStable(formats: seq<SubFormat>, timeZone: Option<string>, defaultZone: string)
    ensures var once := UpdateDateFormatTimeZone(formats, timeZone, defaultZone);
            UpdateDateFormatTimeZone(once, timeZone, defaultZone) == once
            && forall i :: 0 <= i < |once| && !once[i].OtherFormat? ==>
                 once[i].zone == (if PrintsLiteralZ(once[i]) then Gmt else timeZone.GetOr(defaultZone))
  {
  }

  // ---------------------------------------------------------------------------------------------
  // The formatter's state and its argument builders

  /** A supplier: what its get() returns on each call, and how often it was called so far. */
  datatype Supplier<V> = Supplier(produce: nat -> Option<V>, calls: nat)

  /** The supplier behind addNamedArgument: it returns the same value on every call. */
  function Constant<V>(value: Option<V>): (s: Supplier<V>)
    ensures s.calls == 0 && forall n: nat :: s.produce(n) == value
  {
    Supplier(_ => value, 0)
  }

  /** A MessageFormatNA: the index-only pattern handed to MessageFormat, the name-to-index map, the
      sub-formats MessageFormat parsed, the named suppliers (a stored null is None), the indexed
      arguments (null is None) and the configured time zone. */
  datatype Engine<V> = Engine(
    indexOnlyPattern: string,
    nameToIndex: map<string, int>,
    formats: seq<SubFormat>,
    suppliers: map<string, Option<Supplier<V>>>,
    indexed: seq<Option<V>>,
    timeZone: Option<string>)

  /** What every reachable formatter satisfies: the named slots are distinct, non-negative indices. */
  ghost predicate Valid<V>(e: Engine<V>) {
    (forall n :: n in e.nameToIndex ==> e.nameToIndex[n] >= 0)
    && (forall n1, n2 :: n1 in e.nameToIndex && n2 in e.nameToIndex && n1 != n2 ==> e.nameToIndex[n1] != e.nameToIndex[n2])
  }

  /** applyPattern: the names are rewritten to indices (the map is rebuilt from scratch), the
      rewritten pattern goes to MessageFormat, whose sub-formats `parsed` then get their zones. */
  function ApplyPattern<V>(e: Engine<V>, pattern: string, parsed: seq<SubFormat>, defaultZone: string): (r: Engine<V>)
    ensures Valid(r)
    ensures forall n :: n in r.nameToIndex <==> n in Names(pattern)
    ensures r.nameToIndex == NamesToIndex(pattern).alloc.nameToIndex
    ensures r.indexOnlyPattern == NamesToIndex(pattern).text
    ensures r.formats == UpdateDateFormatTimeZone(parsed, e.timeZone, defaultZone)
    ensures r.suppliers == e.suppliers && r.indexed == e.indexed && r.timeZone == e.timeZone
  {
    var rewrite := NamesToIndex(pattern);
    NameIndicesAreFresh(pattern);
    e.(indexOnlyPattern := rewrite.text, nameToIndex := rewrite.alloc.nameToIndex,
       formats := UpdateDateFormatTimeZone(parsed, e.timeZone, defaultZone))
  }

  /** The constructor: no arguments, no time zone, and the pattern applied. */
  function New<V>(pattern: string, parsed: seq<SubFormat>, defaultZone: string): (r: Engine<V>)
    ensures Valid(r)
    ensures r.suppliers == map[] && r.indexed == [] && r.timeZone == None
    ensures r.nameToIndex == NamesToIndex(pattern).alloc.nameToIndex
  {
    ApplyPattern(Engine([], map[], [], map[], [], None), pattern, parsed, defaultZone)
  }

  /** setTimeZone: the zone is remembered and the sub-formats get their zones again. */
  function SetTimeZone<V>(e: Engine<V>, timeZone: Option<string>, defaultZone: string): (r: Engine<V>)
    ensures r.timeZone == timeZone
    ensures r.formats == UpdateDateFormatTimeZone(e.formats, timeZone, defaultZone)
    ensures r.nameToIndex == e.nameToIndex && r.suppliers == e.suppliers && r.indexed == e.indexed
  {
    e.(timeZone := timeZone, formats := UpdateDateFormatTimeZone(e.formats, timeZone, defaultZone))
  }

  /** addNamedArgumentSuplier: the name is bound to the supplier, replacing an earlier binding;
      other names keep theirs. */
  function AddNamedArgumentSupplier<V>(e: Engine<V>, name: string, supplier: Option<Supplier<V>>): (r: Engine<V>)
    ensures name in r.suppliers && r.suppliers[name] == supplier
    ensures forall n :: n != name ==> (n in r.suppliers <==> n in e.suppliers)
    ensures forall n :: n != name && n in e.suppliers ==> r.suppliers[n] == e.suppliers[n]
    ensures r == e.(suppliers := r.suppliers)
  {
    e.(suppliers := e.suppliers[name := supplier])
  }

  /** addNamedArgument: binds the name to a supplier that always returns the value. */
  function AddNamedArgument<V>(e: Engine<V>, name: string, value: Option<V>): (r: Engine<V>)
    ensures name in r.suppliers && r.suppliers[name].Some?
    ensures r.suppliers[name].value.calls == 0 && forall k: nat :: r.suppliers[name].value.produce(k) == value
    ensures forall n :: n != name ==> (n in r.suppliers <==> n in e.suppliers)
    ensures r == e.(suppliers := r.suppliers)
  {
    AddNamedArgumentSupplier(e, name, Some(Constant(value)))
  }

  /** addAllNamedArgumentSuplier: every binding of `suppliers` is added, overriding an earlier
      binding of the same name. */
  function AddAllNamedArgumentSupplier<V>(e: Engine<V>, suppliers: map<string, Option<Supplier<V>>>): (r: Engine<V>)
    ensures forall n :: n in r.suppliers <==> n in e.suppliers || n in suppliers
    ensures forall n :: n in suppliers ==> r.suppliers[n] == suppliers[n]
    ensures forall n :: n in e.suppliers && n !in suppliers ==> r.suppliers[n] == e.suppliers[n]
    ensures r == e.(suppliers := r.suppliers)
  {
    e.(suppliers := e.suppliers + suppliers)
  }

  /** addIndexedArgument: the value is appended. */
  function AddIndexedArgument<V>(e: Engine<V>, value: Option<V>): (r: Engine<V>)
    ensures |r.indexed| == |e.indexed| + 1 && r.indexed[..|e.indexed|] == e.indexed && r.indexed[|e.indexed|] == value
    ensures r == e.(indexed := r.indexed)
  {
    e.(indexed := e.indexed + [value])
  }

  /** fill to pos + 1, then set: the list grows with nulls to cover `pos` and keeps every other
      element. */
  function AddToArgList<V>(list: seq<Option<V>>, arg: Option<V>, pos: nat): (r: seq<Option<V>>)
    ensures |r| == Max(|list|, pos + 1)
    ensures r[pos] == arg
    ensures forall i :: 0 <= i < |r| && i != pos ==> r[i] == (if i < |list| then list[i] else None)
  {
    ListUtil.FillNull(list, pos + 1)[pos := arg]
  }

  /** The exception List.set throws for a negative position. */
  datatype IndexOutOfBounds = IndexOutOfBounds(index: int)

  /** setIndexedArgument: a negative position throws; otherwise the list is padded with nulls to
      cover the position, which then holds the value. */
  function SetIndexedArgument<V>(e: Engine<V>, pos: int, value: Option<V>): (r: Result<Engine<V>, IndexOutOfBounds>)
    ensures pos < 0 <==> r.Err?
    ensures r.Err? ==> r.error.index == pos
    ensures r.Ok? ==> r.value == e.(indexed := r.value.indexed)
    ensures r.Ok? ==> |r.value.indexed| == Max(|e.indexed|, pos + 1) && r.value.indexed[pos] == value
    ensures r.Ok? ==> forall i :: 0 <= i < |r.value.indexed| && i != pos ==>
                        r.value.indexed[i] == (if i < |e.indexed| then e.indexed[i] else None)
  {
    if pos < 0 then Err(IndexOutOfBounds(pos)) else Ok(e.(indexed := AddToArgList(e.indexed, value, pos)))
  }

  // ---------------------------------------------------------------------------------------------
  // format(): the positional argument list

  /** The value a name contributes: its supplier's next result, or null when it has none. */
  function Resolve<V>(e: Engine<V>, name: string): Option<V> {
    if name in e.suppliers && e.suppliers[name].Some? then
      var s := e.suppliers[name].value;
      s.produce(s.calls)
    else None
  }

  /** The binding of a name after one format(): a supplier of a name in the pattern has been called
      once more; other bindings are as before. */
  function Called<V>(e: Engine<V>, name: string): Option<Supplier<V>>
    requires name in e.suppliers
  {
    var b := e.suppliers[name];
    if name in e.nameToIndex && b.Some? then Some(b.value.(calls := b.value.calls + 1)) else b
  }

  ghost predicate IsNamedSlot<V>(e: Engine<V>, i: int) {
    exists n :: n in e.nameToIndex && e.nameToIndex[n] == i
  }

  /** The argument list format() hands to MessageFormat: each name's slot holds what the name
      resolves to, every other slot holds the indexed argument at that position or null, and the list
      is just long enough for the indexed arguments and every named slot. */
  ghost predicate ResolvedArgs<V>(e: Engine<V>, args: seq<Option<V>>) {
    |args| >= |e.indexed|
    && (forall n :: n in e.nameToIndex ==> 0 <= e.nameToIndex[n] < |args| && args[e.nameToIndex[n]] == Resolve(e, n))
    && (forall i :: 0 <= i < |args| && !IsNamedSlot(e, i) ==> args[i] == (if i < |e.indexed| then e.indexed[i] else None))
    && (|args| == |e.indexed| || exists n :: n in e.nameToIndex && |args| == e.nameToIndex[n] + 1)
  }

  /** The argument list is fully determined, so the HashMap's iteration order does not matter. */
  lemma ResolvedArgsAreUnique<V>(e: Engine<V>, a1: seq<Option<V>>, a2: seq<Option<V>>)
    requires ResolvedArgs(e, a1) && ResolvedArgs(e, a2)
    ensures a1 == a2
  {
    assert |a1| == |a2|;
    forall i | 0 <= i < |a1|
      ensures a1[i] == a2[i]
    {
      if IsNamedSlot(e, i) {
        var n :| n in e.nameToIndex && e.nameToIndex[n] == i;
      }
    }
  }

  /** What a slot holds before any name is resolved: the indexed argument there, or null. */
  function Unnamed<V>(e: Engine<V>, i: nat): Option<V> {
    if i < |e.indexed| then e.indexed[i] else None
  }

  /** The argument list after the first `k` names of `order` have been put in their slots. */
  ghost predicate ArgsSoFar<V>(e: Engine<V>, order: seq<string>, k: nat, args: seq<Option<V>>) {
    k <= |order|
    && (forall j :: 0 <= j < |order| ==> order[j] in e.nameToIndex && e.nameToIndex[order[j]] >= 0)
    && |args| >= |e.indexed|
    && (|args| == |e.indexed| || exists j :: 0 <= j < k && |args| == e.nameToIndex[order[j]] + 1)
    && (forall j :: 0 <= j < k ==> e.nameToIndex[order[j]] < |args| && args[e.nameToIndex[order[j]]] == Resolve(e, order[j]))
    && (forall i :: 0 <= i < |args| && (forall j :: 0 <= j < k ==> e.nameToIndex[order[j]] != i) ==> args[i] == Unnamed(e, i))
  }

  /** Putting the next name in its slot disturbs no slot filled before. */
  lemma ArgsStep<V>(e: Engine<V>, order: seq<string>, k: nat, args: seq<Option<V>>)
    requires Valid(e) && NoDup(order) && k < |order| && ArgsSoFar(e, order, k, args)
    ensures ArgsSoFar(e, order, k + 1, AddToArgList(args, Resolve(e, order[k]), e.nameToIndex[order[k]]))
  {
    var pos := e.nameToIndex[order[k]];
    var next := AddToArgList(args, Resolve(e, order[k]), pos);
    forall j | 0 <= j < k
      ensures e.nameToIndex[order[j]] != pos
    {
      assert order[j] != order[k];
    }
    if |next| != |args| {
      assert |next| == e.nameToIndex[order[k]] + 1;
    }
  }

  /** Once every name is in its slot, the list is the resolved argument list. */
  lemma ArgsDone<V>(e: Engine<V>, order: seq<string>, args: seq<Option<V>>)
    requires ArgsSoFar(e, order, |order|, args) && forall n :: n in order <==> n in e.nameToIndex
    ensures ResolvedArgs(e, args)
  {
    forall n | n in e.nameToIndex
      ensures 0 <= e.nameToIndex[n] < |args| && args[e.nameToIndex[n]] == Resolve(e, n)
    {
      var j :| 0 <= j < |order| && order[j] == n;
    }
  }

  /** The bindings after the first `k` names of `order` have been resolved. */
  ghost predicate SuppliersSoFar<V>(e: Engine<V>, order: seq<string>, k: nat, suppliers: map<string, Option<Supplier<V>>>)
    requires k <= |order|
  {
    (forall n :: n in suppliers <==> n in e.suppliers)
    && (forall n :: n in e.suppliers ==> suppliers[n] == if n in order[..k] then Called(e, n) else e.suppliers[n])
  }

  /** One get() on the supplier bound to `name`, if there is one. */
  function CallSupplier<V>(suppliers: map<string, Option<Supplier<V>>>, name: string): map<string, Option<Supplier<V>>> {
    if name in suppliers && suppliers[name].Some? then
      suppliers[name := Some(suppliers[name].value.(calls := suppliers[name].value.calls + 1))]
    else suppliers
  }

  /** Resolving the next name calls its supplier for the first time in this format(). */
  lemma SuppliersStep<V>(e: Engine<V>, order: seq<string>, k: nat, suppliers: map<string, Option<Supplier<V>>>)
    requires NoDup(order) && k < |order| && order[k] in e.nameToIndex && SuppliersSoFar(e, order, k, suppliers)
    ensures SuppliersSoFar(e, order, k + 1, CallSupplier(suppliers, order[k]))
    ensures (order[k] in suppliers && suppliers[order[k]].Some?) == (order[k] in e.suppliers && e.suppliers[order[k]].Some?)
    ensures order[k] in suppliers && suppliers[order[k]].Some? ==> suppliers[order[k]] == e.suppliers[order[k]]
  {
    assert order[k] !in order[..k];
    assert order[..k + 1] == order[..k] + [order[k]];
  }

  /** One round of format(): the next name's supplier, called for the first time, fills its slot. */
  lemma FormatStep<V>(e: Engine<V>, order: seq<string>, k: nat, args: seq<Option<V>>,
                      suppliers: map<string, Option<Supplier<V>>>, arg: Option<V>)
    requires Valid(e) && NoDup(order) && k < |order| && order[k] in e.nameToIndex
    requires ArgsSoFar(e, order, k, args) && SuppliersSoFar(e, order, k, suppliers)
    requires arg == if order[k] in suppliers && suppliers[order[k]].Some?
                    then suppliers[order[k]].value.produce(suppliers[order[k]].value.calls) else None
    ensures ArgsSoFar(e, order, k + 1, AddToArgList(args, arg, e.nameToIndex[order[k]]))
    ensures SuppliersSoFar(e, order, k + 1, CallSupplier(suppliers, order[k]))
  {
    SuppliersStep(e, order, k, suppliers);
    assert arg == Resolve(e, order[k]);
    ArgsStep(e, order, k, args);
  }

  /** format(): start from a copy of the indexed arguments, then for each name of the map, in the
      map's iteration order `order`, put its supplier's value (or null) into its slot. Each supplier
      of a name in the pattern is called exactly once. */
  method Format<V>(e: Engine<V>, order: seq<string>) returns (args: seq<Option<V>>, after: Engine<V>)
    requires Valid(e)
    requires NoDup(order) && forall n :: n in order <==> n in e.nameToIndex
    ensures ResolvedArgs(e, args)
    ensures after == e.(suppliers := after.suppliers)
    ensures forall n :: n in after.suppliers <==> n in e.suppliers
    ensures forall n :: n in e.suppliers ==> after.suppliers[n] == Called(e, n)
  {
    args := e.indexed;
    var suppliers := e.suppliers;
    var k := 0;
    assert order[..0] == [];
    while k < |order|
      invariant k <= |order|
      invariant ArgsSoFar(e, order, k, args)
      invariant SuppliersSoFar(e, order, k, suppliers)
    {
      var name := order[k];
      assert name in order;
      var pos := e.nameToIndex[name];
      var arg: Option<V> := None;
      if name in suppliers && suppliers[name].Some? {
        var s := suppliers[name].value;
        arg := s.produce(s.calls);
      }
      FormatStep(e, order, k, args, suppliers, arg);
      suppliers := CallSupplier(suppliers, name);
      args := AddToArgList(args, arg, pos);
      k := k + 1;
    }
    FormatDone(e, order, args, suppliers);
    after := e.(suppliers := suppliers);
  }

  /** After the last round every name is in its slot and every supplier was called once. */
  lemma FormatDone<V>(e: Engine<V>, order: seq<string>, args: seq<Option<V>>, suppliers: map<string, Option<Supplier<V>>>)
    requires forall n :: n in order <==> n in e.nameToIndex
    requires ArgsSoFar(e, order, |order|, args) && SuppliersSoFar(e, order, |order|, suppliers)
    ensures ResolvedArgs(e, args)
    ensures forall n :: n in suppliers <==> n in e.suppliers
    ensures forall n :: n in e.suppliers ==> suppliers[n] == Called(e, n)
  {
    ArgsDone(e, order, args);
    assert order[..|order|] == order;
  }

  // ---------------------------------------------------------------------------------------------
  // Partners of the builders

  /** A value added under a name is what the name resolves to. */
  lemma AddedNameResolves<V>(e: Engine<V>, name: string, value: Option<V>)
    ensures Resolve(AddNamedArgument(e, name, value), name) == value
  {
  }

  /** A name with no supplier puts null in its slot, even over an indexed argument there. */
  lemma UnboundNameWritesNull<V>(e: Engine<V>, args: seq<Option<V>>, name: string)
    requires ResolvedArgs(e, args) && name in e.nameToIndex && name !in e.suppliers
    ensures args[e.nameToIndex[name]] == None
  {
  }

  /** Without names in the pattern, format() passes exactly the indexed arguments. */
  lemma NoNamesPassesIndexed<V>(e: Engine<V>, args: seq<Option<V>>)
    requires ResolvedArgs(e, args) && e.nameToIndex == map[]
    ensures args == e.indexed
  {
  }

  // ---------------------------------------------------------------------------------------------
  // Scanning pieces of a pattern, for the examples

  /** No character of `t` is a brace or a quote. */
  predicate AllOrdinary(t: string) {
    forall c :: c in t ==> IsOrdinary(c)
  }

  /** Every character of `t` is of class `cls`. */
  predicate AllIn(t: string, cls: TokenClass) {
    forall c :: c in t ==> InClass(cls, c)
  }

  /** A run of `cls` characters from `i` to `j` that ends there is what RunEnd finds. */
  lemma {:induction false} RunEndIs(s: string, i: nat, j: nat, cls: TokenClass)
    requires i <= j <= |s| && AllIn(s[i..j], cls)
    requires j == |s| || !InClass(cls, s[j])
    ensures RunEnd(s, i, cls) == j
    decreases j - i
  {
    if i < j {
      assert s[i..j] == [s[i]] + s[i + 1..j];
      RunEndIs(s, i + 1, j, cls);
    }
  }

  /** Ordinary characters seen with the flag down are copied and change no state. */
  lemma {:induction false} MaxPlain(s: string, i: nat, j: nat, st: Scan, result: int)
    requires i <= j <= |s| && !st.checkForArgName
    requires AllOrdinary(s[i..j])
    ensures MaxFrom(s, i, st, result) == MaxFrom(s, j, st, result)
    decreases j - i
  {
    if i < j {
      assert s[i..j] == [s[i]] + s[i + 1..j];
      MaxPlain(s, i + 1, j, st, result);
    }
  }

  /** `{digits...}` at depth 0: the index is read and the rest up to `}` is skipped. */
  lemma MaxIndexPlaceholder(s: string, i: nat, j: nat, k: nat, result: int)
    requires i + 1 < j <= k < |s| && s[i] == '{' && s[k] == '}'
    requires AllIn(s[i + 1..j], Digits) && !IsAsciiNumeric(s[j])
    requires AllOrdinary(s[j..k])
    ensures MaxFrom(s, i, Start, result) == MaxFrom(s, k + 1, Start, Max(result, DigitsValue(s[i + 1..j])))
  {
    RunEndIs(s, i + 1, j, Digits);
    assert s[i + 1] in s[i + 1..j];
    MaxPlain(s, j, k, Scan(1, false, false), Max(result, DigitsValue(s[i + 1..j])));
  }

  /** `{` followed by an ordinary non-digit at depth 0: nothing is read up to `}`. */
  lemma MaxOtherPlaceholder(s: string, i: nat, k: nat, result: int)
    requires i + 1 < k < |s| && s[i] == '{' && s[k] == '}' && !IsAsciiNumeric(s[i + 1])
    requires AllOrdinary(s[i + 1..k])
    ensures MaxFrom(s, i, Start, result) == MaxFrom(s, k + 1, Start, result)
  {
    assert s[i + 1..k] == [s[i + 1]] + s[i + 2..k];
    MaxPlain(s, i + 2, k, Scan(1, false, false), result);
  }

  /** Ordinary characters seen with the flag down are copied and change no state. */
  lemma {:induction false} NamesPlain(s: string, i: nat, j: nat, st: Scan, a: Allocation)
    requires i <= j <= |s| && !st.checkForArgName
    requires AllOrdinary(s[i..j])
    ensures var rest := NamesFrom(s, j, st, a);
            NamesFrom(s, i, st, a) == Rewrite(s[i..j] + rest.text, rest.alloc)
    decreases j - i
  {
    if i < j {
      var i1 := i + 1;
      assert s[i] in s[i..j] && s[i..j] == [s[i]] + s[i1..j];
      NamesPlain(s, i1, j, st, a);
      var rest := NamesFrom(s, j, st, a);
      ConsSlice(s, i, i1, j, rest.text);
      NamesCopyStep(s, i, st, st, a, NamesFrom(s, i1, st, a));
    } else {
      assert s[i..j] == [];
    }
  }


  /** One step of the name pass at a name token: the token becomes its index. */
  lemma NamesTokenStep(s: string, i: nat, j: nat, st: Scan, a: Allocation, name: string, a': Allocation, idx: int,
                        rest: Rewrite)
    requires i < |s| && Offered(st, s[i]) && IsAsciiAlpha(s[i]) && RunEnd(s, i, Letters) == j
    requires name == s[i..j] && ComputeIfAbsent(a, name) == (a', idx)
    requires rest == NamesFrom(s, j, st.(checkForArgName := false), a')
    ensures NamesFrom(s, i, st, a) == Rewrite(IntToString(idx) + rest.text, rest.alloc)
  {
  }

  /** One step of the name pass at a character it copies. */
  lemma NamesCopyStep(s: string, i: nat, st: Scan, st': Scan, a: Allocation, rest: Rewrite)
    requires i < |s| && !(Offered(st, s[i]) && IsAsciiAlpha(s[i]))
    requires st' == if Offered(st, s[i]) then st.(checkForArgName := false) else Advance(st, s[i])
    requires rest == NamesFrom(s, i + 1, st', a)
    ensures NamesFrom(s, i, st, a) == Rewrite([s[i]] + rest.text, rest.alloc)
  {
  }

  /** From the name of `{name...}` on: the name becomes its index and the rest up to `}` is
      copied. */
  lemma NamesInside(s: string, i: nat, j: nat, k: nat, a: Allocation, a': Allocation, idx: int, rest: Rewrite)
    requires i < j <= k < |s| && s[k] == '}' && IsAsciiAlpha(s[i]) && RunEnd(s, i, Letters) == j
    requires AllOrdinary(s[j..k])
    requires ComputeIfAbsent(a, s[i..j]) == (a', idx) && rest == NamesFrom(s, k + 1, Start, a')
    ensures NamesFrom(s, i, Scan(1, false, true), a) == Rewrite(IntToString(idx) + (s[j..k] + ("}" + rest.text)), rest.alloc)
  {
    var inside := Scan(1, false, false);
    NamesCopyStep(s, k, inside, Start, a', rest);
    NamesPlain(s, j, k, inside, a');
    NamesTokenStep(s, i, j, Scan(1, false, true), a, s[i..j], a', idx, NamesFrom(s, j, inside, a'));
  }

  /** `{name...}` at depth 0: the name becomes its index and the rest up to `}` is copied. */
  lemma NamesPlaceholder(s: string, i: nat, j: nat, k: nat, a: Allocation)
    requires i + 1 < j <= k < |s| && s[i] == '{' && s[k] == '}'
    requires AllIn(s[i + 1..j], Letters) && !IsAsciiAlpha(s[j])
    requires AllOrdinary(s[j..k])
    ensures var (a', idx) := ComputeIfAbsent(a, s[i + 1..j]);
            var rest := NamesFrom(s, k + 1, Start, a');
            NamesFrom(s, i, Start, a) == Rewrite("{" + IntToString(idx) + s[j..k] + "}" + rest.text, rest.alloc)
  {
    var i1 := i + 1;
    assert s[i1] in s[i1..j];
    RunEndIs(s, i1, j, Letters);
    var (a', idx) := ComputeIfAbsent(a, s[i1..j]);
    var rest := NamesFrom(s, k + 1, Start, a');
    NamesInside(s, i1, j, k, a, a', idx, rest);
    NamesCopyStep(s, i, Start, Scan(1, false, true), a, NamesFrom(s, i1, Scan(1, false, true), a));
    assert "{" + (IntToString(idx) + (s[j..k] + ("}" + rest.text))) == "{" + IntToString(idx) + s[j..k] + "}" + rest.text;
  }

  /** From the first character of `{x...}` on, x an ordinary non-letter: everything up to `}` is
      copied. */
  lemma NamesOtherInside(s: string, i: nat, k: nat, a: Allocation, rest: Rewrite)
    requires i < k < |s| && s[k] == '}' && !IsAsciiAlpha(s[i]) && IsOrdinary(s[i])
    requires AllOrdinary(s[i + 1..k]) && rest == NamesFrom(s, k + 1, Start, a)
    ensures NamesFrom(s, i, Scan(1, false, true), a) == Rewrite([s[i]] + (s[i + 1..k] + ("}" + rest.text)), rest.alloc)
  {
    var i1, inside := i + 1, Scan(1, false, false);
    NamesCopyStep(s, k, inside, Start, a, rest);
    NamesPlain(s, i1, k, inside, a);
    NamesCopyStep(s, i, Scan(1, false, true), inside, a, NamesFrom(s, i1, inside, a));
  }

  /** `{` followed by an ordinary non-letter at depth 0: everything up to `}` is copied. */
  lemma NamesOtherPlaceholder(s: string, i: nat, k: nat, a: Allocation)
    requires i + 1 < k < |s| && s[i] == '{' && s[k] == '}' && !IsAsciiAlpha(s[i + 1])
    requires AllOrdinary(s[i + 1..k])
    ensures var rest := NamesFrom(s, k + 1, Start, a);
            NamesFrom(s, i, Start, a) == Rewrite(s[i..k + 1] + rest.text, rest.alloc)
  {
    var i1, i2 := i + 1, i + 2;
    assert s[i1] in s[i1..k] && s[i1..k] == [s[i1]] + s[i2..k];
    var rest := NamesFrom(s, k + 1, Start, a);
    Braced(s, i, i1, i2, k, rest.text);
    NamesOtherInside(s, i1, k, a, rest);
    NamesCopyStep(s, i, Start, Scan(1, false, true), a, NamesFrom(s, i1, Scan(1, false, true), a));
  }

  /** `''` at depth 0 outside a literal is copied and leaves the state as it was. */
  lemma MaxQuotes(s: string, i: nat, result: int)
    requires i + 2 <= |s| && s[i..i + 2] == "''"
    ensures MaxFrom(s, i, Start, result) == MaxFrom(s, i + 2, Start, result)
  {
    assert s[i] == s[i..i + 2][0] && s[i + 1] == s[i..i + 2][1];
  }

  /** `''` at depth 0 outside a literal is copied and leaves the state as it was. */
  lemma NamesQuotes(s: string, i: nat, a: Allocation)
    requires i + 2 <= |s| && s[i..i + 2] == "''"
    ensures var rest := NamesFrom(s, i + 2, Start, a);
            NamesFrom(s, i, Start, a) == Rewrite("''" + rest.text, rest.alloc)
  {
    assert s[i] == s[i..i + 2][0] && s[i + 1] == s[i..i + 2][1];
    var rest := NamesFrom(s, i + 2, Start, a);
    assert NamesFrom(s, i + 1, Scan(0, true, false), a) == Rewrite("'" + rest.text, rest.alloc);
  }

  /** A slice opened by its first character. */
  lemma ConsSlice(s: string, i: nat, i1: nat, j: nat, t: string)
    requires i1 == i + 1 && i < j <= |s|
    ensures [s[i]] + (s[i1..j] + t) == s[i..j] + t
  {
    assert s[i..j] == [s[i]] + s[i1..j];
  }

  /** A slice from `{` through `}`, taken apart. */
  lemma Braced(s: string, i: nat, i1: nat, i2: nat, k: nat, t: string)
    requires i1 == i + 1 && i2 == i + 2 && i2 <= k < |s| && s[k] == '}'
    ensures [s[i]] + ([s[i1]] + (s[i2..k] + ("}" + t))) == s[i..k + 1] + t
  {
    assert s[i..k + 1] == [s[i]] + ([s[i1]] + (s[i2..k] + [s[k]]));
  }

  // Moving a scan past a known prefix

  /** What stands in `q` from `i` to `j` stands in `p + q` from |p| + i to |p| + j. */
  lemma ShiftSlice(p: string, q: string, i: nat, j: nat, n: nat, m: nat)
    requires i < j <= |q| && n == |p| + i && m == |p| + j
    ensures m <= |p + q| && (p + q)[n] == q[i] && (p + q)[n..m] == q[i..j]
  {
  }

  /** A run found inside `q` is found at the same place once `p` is put in front. */
  lemma {:induction false} RunEndShift(p: string, q: string, i: nat, cls: TokenClass)
    requires i <= |q|
    ensures RunEnd(p + q, |p| + i, cls) == |p| + RunEnd(q, i, cls)
    decreases |q| - i
  {
    if i < |q| {
      assert (p + q)[|p| + i] == q[i];
      if InClass(cls, q[i]) {
        RunEndShift(p, q, i + 1, cls);
      }
    }
  }

  /** The maximum pass over `q` does not depend on what was scanned before it. */
  lemma {:induction false} MaxFromShift(p: string, q: string, i: nat, st: Scan, result: int)
    requires i <= |q|
    ensures MaxFrom(p + q, |p| + i, st, result) == MaxFrom(q, i, st, result)
    decreases |q| - i
  {
    if i < |q| {
      var c := q[i];
      assert (p + q)[|p| + i] == c;
      if Offered(st, c) {
        if IsAsciiNumeric(c) {
          RunEndShift(p, q, i, Digits);
          var j := RunEnd(q, i, Digits);
          assert (p + q)[|p| + i..|p| + j] == q[i..j];
          MaxFromShift(p, q, j, st.(checkForArgName := false), Max(result, DigitsValue(q[i..j])));
        } else {
          MaxFromShift(p, q, i + 1, st.(checkForArgName := false), result);
        }
      } else {
        MaxFromShift(p, q, i + 1, Advance(st, c), result);
      }
    }
  }

  /** The name pass over `q` does not depend on what was scanned before it. */
  lemma {:induction false} NamesFromShift(p: string, q: string, i: nat, st: Scan, a: Allocation)
    requires i <= |q|
    ensures NamesFrom(p + q, |p| + i, st, a) == NamesFrom(q, i, st, a)
    decreases |q| - i
  {
    if i < |q| {
      var c, n, s := q[i], |p| + i, p + q;
      assert s[n] == c;
      if Offered(st, c) && IsAsciiAlpha(c) {
        NamesFromShiftToken(p, q, i, st, a);
      } else {
        var st' := if Offered(st, c) then st.(checkForArgName := false) else Advance(st, c);
        var rest := NamesFrom(q, i + 1, st', a);
        NamesFromShift(p, q, i + 1, st', a);
        NamesCopyStep(s, n, st, st', a, rest);
        NamesCopyStep(q, i, st, st', a, rest);
      }
    }
  }

  /** The same at a name token. */
  lemma {:induction false} NamesFromShiftToken(p: string, q: string, i: nat, st: Scan, a: Allocation)
    requires i < |q| && Offered(st, q[i]) && IsAsciiAlpha(q[i])
    ensures NamesFrom(p + q, |p| + i, st, a) == NamesFrom(q, i, st, a)
    decreases |q| - i, 0
  {
    var j := RunEnd(q, i, Letters);
    var n, m, name := |p| + i, |p| + j, q[i..j];
    ShiftedToken(p, q, i, j, n, m);
    var (a', idx) := ComputeIfAbsent(a, name);
    var st' := st.(checkForArgName := false);
    var rest := NamesFrom(q, j, st', a');
    var out := Rewrite(IntToString(idx) + rest.text, rest.alloc);
    NamesFromShift(p, q, j, st', a');
    NamesTokenStep(p + q, n, m, st, a, name, a', idx, rest);
    NamesTokenStep(q, i, j, st, a, name, a', idx, rest);
    assert NamesFrom(p + q, n, st, a) == out;
    assert NamesFrom(q, i, st, a) == out;
  }


  /** A name token of `q` stands at the same place, and as long, once `p` is put in front. */
  lemma ShiftedToken(p: string, q: string, i: nat, j: nat, n: nat, m: nat)
    requires i < |q| && IsAsciiAlpha(q[i]) && j == RunEnd(q, i, Letters) && n == |p| + i && m == |p| + j
    ensures n < |p + q| && (p + q)[n] == q[i] && RunEnd(p + q, n, Letters) == m && (p + q)[n..m] == q[i..j]
  {
    RunEndShift(p, q, i, Letters);
    ShiftSlice(p, q, i, j, n, m);
  }

  // The same pieces, at the head of a pattern

  /** Ordinary text at the head is skipped by the maximum pass. */
  lemma MaxPlainHead(t: string, rest: string, st: Scan, result: int)
    requires !st.checkForArgName && AllOrdinary(t)
    ensures MaxFrom(t + rest, 0, st, result) == MaxFrom(rest, 0, st, result)
  {
    assert (t + rest)[0..|t|] == t;
    MaxPlain(t + rest, 0, |t|, st, result);
    MaxFromShift(t, rest, 0, st, result);
  }

  /** A `{digits...}` placeholder at the head contributes its index to the maximum. */
  lemma MaxIndexHead(ph: string, digits: string, tail: string, rest: string, result: int)
    requires ph == "{" + digits + tail + "}" && digits != [] && AllIn(digits, Digits)
    requires AllOrdinary(tail) && (tail == [] || !IsAsciiNumeric(tail[0]))
    ensures MaxFrom(ph + rest, 0, Start, result) == MaxFrom(rest, 0, Start, Max(result, DigitsValue(digits)))
  {
    var s := ph + rest;
    var j := 1 + |digits|;
    var k := |ph| - 1;
    assert s[0] == '{' && s[k] == '}';
    assert s[1..j] == digits && s[j..k] == tail;
    assert s[j] == if tail == [] then '}' else tail[0];
    MaxIndexPlaceholder(s, 0, j, k, result);
    MaxFromShift(ph, rest, 0, Start, Max(result, DigitsValue(digits)));
  }

  /** A placeholder at the head that does not start with a digit contributes nothing. */
  lemma MaxOtherHead(ph: string, inner: string, rest: string, result: int)
    requires ph == "{" + inner + "}" && inner != [] && AllOrdinary(inner) && !IsAsciiNumeric(inner[0])
    ensures MaxFrom(ph + rest, 0, Start, result) == MaxFrom(rest, 0, Start, result)
  {
    var s := ph + rest;
    var k := |ph| - 1;
    assert s[0] == '{' && s[k] == '}' && s[1] == inner[0];
    assert s[1..k] == inner;
    MaxOtherPlaceholder(s, 0, k, result);
    MaxFromShift(ph, rest, 0, Start, result);
  }

  /** A doubled quote at the head contributes nothing. */
  lemma MaxQuotesHead(rest: string, result: int)
    ensures MaxFrom("''" + rest, 0, Start, result) == MaxFrom(rest, 0, Start, result)
  {
    assert ("''" + rest)[0..2] == "''";
    MaxQuotes("''" + rest, 0, result);
    MaxFromShift("''", rest, 0, Start, result);
  }

  /** Ordinary text at the head is copied by the name pass. */
  lemma NamesPlainHead(t: string, rest: string, st: Scan, a: Allocation)
    requires !st.checkForArgName && AllOrdinary(t)
    ensures var r := NamesFrom(rest, 0, st, a);
            NamesFrom(t + rest, 0, st, a) == Rewrite(t + r.text, r.alloc)
  {
    assert (t + rest)[0..|t|] == t;
    NamesPlain(t + rest, 0, |t|, st, a);
    NamesFromShift(t, rest, 0, st, a);
  }

  /** A `{name...}` placeholder at the head has its name replaced by the index allocated to it. */
  lemma NamesIndexHead(ph: string, name: string, tail: string, rest: string, a: Allocation)
    requires ph == "{" + name + tail + "}" && name != [] && AllIn(name, Letters)
    requires AllOrdinary(tail) && (tail == [] || !IsAsciiAlpha(tail[0]))
    ensures var (a', idx) := ComputeIfAbsent(a, name);
            var r := NamesFrom(rest, 0, Start, a');
            NamesFrom(ph + rest, 0, Start, a) == Rewrite("{" + IntToString(idx) + tail + "}" + r.text, r.alloc)
  {
    var s := ph + rest;
    var j := 1 + |name|;
    var k := |ph| - 1;
    assert s[0] == '{' && s[k] == '}';
    assert s[1..j] == name && s[j..k] == tail;
    assert s[j] == if tail == [] then '}' else tail[0];
    NamesPlaceholder(s, 0, j, k, a);
    var (a', idx) := ComputeIfAbsent(a, name);
    NamesFromShift(ph, rest, 0, Start, a');
  }

  /** A placeholder at the head that does not start with a letter is copied. */
  lemma NamesOtherHead(ph: string, inner: string, rest: string, a: Allocation)
    requires ph == "{" + inner + "}" && inner != [] && AllOrdinary(inner) && !IsAsciiAlpha(inner[0])
    ensures var r := NamesFrom(rest, 0, Start, a);
            NamesFrom(ph + rest, 0, Start, a) == Rewrite(ph + r.text, r.alloc)
  {
    var s := ph + rest;
    var k := |ph| - 1;
    assert s[0] == '{' && s[k] == '}' && s[1] == inner[0];
    assert s[1..k] == inner && s[0..k + 1] == ph;
    NamesOtherPlaceholder(s, 0, k, a);
    NamesFromShift(ph, rest, 0, Start, a);
  }

  /** A doubled quote at the head is copied. */
  lemma NamesQuotesHead(rest: string, a: Allocation)
    ensures var r := NamesFrom(rest, 0, Start, a);
            NamesFrom("''" + rest, 0, Start, a) == Rewrite("''" + r.text, r.alloc)
  {
    assert ("''" + rest)[0..2] == "''";
    NamesQuotes("''" + rest, 0, a);
    NamesFromShift("''", rest, 0, Start, a);
  }
}

=== FILE: message_format_na_examples.dfy ===
/** The named-argument formatter on the patterns of its unit tests. Each pattern is written as
    the concatenation of its pieces: ordinary text, placeholders and doubled quotes. */
module MessageFormatNAExamples {
  import opened Wrappers
  import opened MessageFormatNA

  /** The largest index of a pattern with indices 0, 1 and 2 is 2. */
  lemma MaxIndexOfIndexedPattern(s: string)
    requires s == "Hej " + ("{0}" + (", you are " + ("{1}" + (" years and " + ("{2}" + (" month old."))))))
    ensures EvaluateMaxArgIndex(s) == 2
  {
    var r1 := "{0}" + (", you are " + ("{1}" + (" years and " + ("{2}" + (" month old.")))));
    var r0 := "Hej " + r1;
    assert s == r0;
    assert MaxFrom(r0, 0, Start, -1) == MaxFrom(r1, 0, Start, -1) by {
      assert AllOrdinary("Hej ");
      MaxPlainHead("Hej ", r1, Start, -1);
    }
    MaxIndexOfIndexedPatternFrom1(r1);
  }

  /** The part of the maximum pass from piece 1 on. */
  lemma MaxIndexOfIndexedPatternFrom1(r: string)
    requires r == "{0}" + (", you are " + ("{1}" + (" years and " + ("{2}" + (" month old.")))))
    ensures MaxFrom(r, 0, Start, -1) == 2
  {
    var r2 := ", you are " + ("{1}" + (" years and " + ("{2}" + (" month old."))));
    var r1 := "{0}" + r2;
    assert r == r1;
    assert MaxFrom(r1, 0, Start, -1) == MaxFrom(r2, 0, Start, 0) by {
      assert "{0}" == "{" + "0" + "" + "}";
      assert AllIn("0", Digits);
      assert AllOrdinary("");
      assert DigitsValue("0") == 0;
      MaxIndexHead("{0}", "0", "", r2, -1);
    }
    MaxIndexOfIndexedPatternFrom2(r2);
  }

  /** The part of the maximum pass from piece 2 on. */
  lemma MaxIndexOfIndexedPatternFrom2(r: string)
    requires r == ", you are " + ("{1}" + (" years and " + ("{2}" + (" month old."))))
    ensures MaxFrom(r, 0, Start, 0) == 2
  {
    var r3 := "{1}" + (" years and " + ("{2}" + (" month old.")));
    var r2 := ", you are " + r3;
    assert r == r2;
    assert MaxFrom(r2, 0, Start, 0) == MaxFrom(r3, 0, Start, 0) by {
      assert AllOrdinary(", you are ");
      MaxPlainHead(", you are ", r3, Start, 0);
    }
    MaxIndexOfIndexedPatternFrom3(r3);
  }

  /** The part of the maximum pass from piece 3 on. */
  lemma MaxIndexOfIndexedPatternFrom3(r: string)
    requires r == "{1}" + (" years and " + ("{2}" + (" month old.")))
    ensures MaxFrom(r, 0, Start, 0) == 2
  {
    var r4 := " years and " + ("{2}" + (" month old."));
    var r3 := "{1}" + r4;
    assert r == r3;
    assert MaxFrom(r3, 0, Start, 0) == MaxFrom(r4, 0, Start, 1) by {
      assert "{1}" == "{" + "1" + "" + "}";
      assert AllIn("1", Digits);
      assert AllOrdinary("");
      assert DigitsValue("1") == 1;
      MaxIndexHead("{1}", "1", "", r4, 0);
    }
    MaxIndexOfIndexedPatternFrom4(r4);
  }

  /** The part of the maximum pass from piece 4 on. */
  lemma MaxIndexOfIndexedPatternFrom4(r: string)
    requires r == " years and " + ("{2}" + (" month old."))
    ensures MaxFrom(r, 0, Start, 1) == 2
  {
    var r5 := "{2}" + (" month old.");
    var r4 := " years and " + r5;
    assert r == r4;
    assert MaxFrom(r4, 0, Start, 1) == MaxFrom(r5, 0, Start, 1) by {
      assert AllOrdinary(" years and ");
      MaxPlainHead(" years and ", r5, Start, 1);
    }
    MaxIndexOfIndexedPatternFrom5(r5);
  }

  /** The part of the maximum pass from piece 5 on. */
  lemma MaxIndexOfIndexedPatternFrom5(r: string)
    requires r == "{2}" + (" month old.")
    ensures MaxFrom(r, 0, Start, 1) == 2
  {
    var r6 := " month old.";
    var r5 := "{2}" + r6;
    assert r == r5;
    assert MaxFrom(r5, 0, Start, 1) == MaxFrom(r6, 0, Start, 2) by {
      assert "{2}" == "{" + "2" + "" + "}";
      assert AllIn("2", Digits);
      assert AllOrdinary("");
      assert DigitsValue("2") == 2;
      MaxIndexHead("{2}", "2", "", r6, 1);
    }
    MaxIndexOfIndexedPatternFrom6(r6);
  }

  /** The part of the maximum pass from piece 6 on. */
  lemma MaxIndexOfIndexedPatternFrom6(r: string)
    requires r == " month old."
    ensures MaxFrom(r, 0, Start, 2) == 2
  {
    var r7 := "";
    var r6 := " month old." + r7;
    assert r == r6;
    assert MaxFrom(r6, 0, Start, 2) == MaxFrom(r7, 0, Start, 2) by {
      assert AllOrdinary(" month old.");
      MaxPlainHead(" month old.", r7, Start, 2);
    }
    assert MaxFrom(r7, 0, Start, 2) == 2;
  }

  /** The largest index need not come last: 6, 1, 2 give 6. */
  lemma MaxIndexComesFirst(s: string)
    requires s == "Hej " + ("{6}" + (", you are " + ("{1}" + (" years and " + ("{2}" + (" month old."))))))
    ensures EvaluateMaxArgIndex(s) == 6
  {
    var r1 := "{6}" + (", you are " + ("{1}" + (" years and " + ("{2}" + (" month old.")))));
    var r0 := "Hej " + r1;
    assert s == r0;
    assert MaxFrom(r0, 0, Start, -1) == MaxFrom(r1, 0, Start, -1) by {
      assert AllOrdinary("Hej ");
      MaxPlainHead("Hej ", r1, Start, -1);
    }
    MaxIndexComesFirstFrom1(r1);
  }

  /** The part of the maximum pass from piece 1 on. */
  lemma MaxIndexComesFirstFrom1(r: string)
    requires r == "{6}" + (", you are " + ("{1}" + (" years and " + ("{2}" + (" month old.")))))
    ensures MaxFrom(r, 0, Start, -1) == 6
  {
    var r2 := ", you are " + ("{1}" + (" years and " + ("{2}" + (" month old."))));
    var r1 := "{6}" + r2;
    assert r == r1;
    assert MaxFrom(r1, 0, Start, -1) == MaxFrom(r2, 0, Start, 6) by {
      assert "{6}" == "{" + "6" + "" + "}";
      assert AllIn("6", Digits);
      assert AllOrdinary("");
      assert DigitsValue("6") == 6;
      MaxIndexHead("{6}", "6", "", r2, -1);
    }
    MaxIndexComesFirstFrom2(r2);
  }

  /** The part of the maximum pass from piece 2 on. */
  lemma MaxIndexComesFirstFrom2(r: string)
    requires r == ", you are " + ("{1}" + (" years and " + ("{2}" + (" month old."))))
    ensures MaxFrom(r, 0, Start, 6) == 6
  {
    var r3 := "{1}" + (" years and " + ("{2}" + (" month old.")));
    var r2 := ", you are " + r3;
    assert r == r2;
    assert MaxFrom(r2, 0, Start, 6) == MaxFrom(r3, 0, Start, 6) by {
      assert AllOrdinary(", you are ");
      MaxPlainHead(", you are ", r3, Start, 6);
    }
    MaxIndexComesFirstFrom3(r3);
  }

  /** The part of the maximum pass from piece 3 on. */
  lemma MaxIndexComesFirstFrom3(r: string)
    requires r == "{1}" + (" years and " + ("{2}" + (" month old.")))
    ensures MaxFrom(r, 0, Start, 6) == 6
  {
    var r4 := " years and " + ("{2}" + (" month old."));
    var r3 := "{1}" + r4;
    assert r == r3;
    assert MaxFrom(r3, 0, Start, 6) == MaxFrom(r4, 0, Start, 6) by {
      assert "{1}" == "{" + "1" + "" + "}";
      assert AllIn("1", Digits);
      assert AllOrdinary("");
      assert DigitsValue("1") == 1;
      MaxIndexHead("{1}", "1", "", r4, 6);
    }
    MaxIndexComesFirstFrom4(r4);
  }

  /** The part of the maximum pass from piece 4 on. */
  lemma MaxIndexComesFirstFrom4(r: string)
    requires r == " years and " + ("{2}" + (" month old."))
    ensures MaxFrom(r, 0, Start, 6) == 6
  {
    var r5 := "{2}" + (" month old.");
    var r4 := " years and " + r5;
    assert r == r4;
    assert MaxFrom(r4, 0, Start, 6) == MaxFrom(r5, 0, Start, 6) by {
      assert AllOrdinary(" years and ");
      MaxPlainHead(" years and ", r5, Start, 6);
    }
    MaxIndexComesFirstFrom5(r5);
  }

  /** The part of the maximum pass from piece 5 on. */
  lemma MaxIndexComesFirstFrom5(r: string)
    requires r == "{2}" + (" month old.")
    ensures MaxFrom(r, 0, Start, 6) == 6
  {
    var r6 := " month old.";
    var r5 := "{2}" + r6;
    assert r == r5;
    assert MaxFrom(r5, 0, Start, 6) == MaxFrom(r6, 0, Start, 6) by {
      assert "{2}" == "{" + "2" + "" + "}";
      assert AllIn("2", Digits);
      assert AllOrdinary("");
      assert DigitsValue("2") == 2;
      MaxIndexHead("{2}", "2", "", r6, 6);
    }
    MaxIndexComesFirstFrom6(r6);
  }

  /** The part of the maximum pass from piece 6 on. */
  lemma MaxIndexComesFirstFrom6(r: string)
    requires r == " month old."
    ensures MaxFrom(r, 0, Start, 6) == 6
  {
    var r7 := "";
    var r6 := " month old." + r7;
    assert r == r6;
    assert MaxFrom(r6, 0, Start, 6) == MaxFrom(r7, 0, Start, 6) by {
      assert AllOrdinary(" month old.");
      MaxPlainHead(" month old.", r7, Start, 6);
    }
    assert MaxFrom(r7, 0, Start, 6) == 6;
  }

  /** A named placeholder does not count as an index. */
  lemma MaxIndexIgnoresNames(s: string)
    requires s == "Hej " + ("{name}" + (", you are " + ("{0}" + (" years and " + ("{1}" + (" month old."))))))
    ensures EvaluateMaxArgIndex(s) == 1
  {
    var r2 := ", you are " + ("{0}" + (" years and " + ("{1}" + (" month old."))));
    var r1 := "{name}" + r2;
    var r0 := "Hej " + r1;
    assert s == r0;
    assert MaxFrom(r0, 0, Start, -1) == MaxFrom(r1, 0, Start, -1) by {
      assert AllOrdinary("Hej ");
      MaxPlainHead("Hej ", r1, Start, -1);
    }
    assert MaxFrom(r1, 0, Start, -1) == MaxFrom(r2, 0, Start, -1) by {
      assert "{name}" == "{" + "name" + "}";
      assert AllOrdinary("name");
      assert !IsAsciiNumeric('n');
      MaxOtherHead("{name}", "name", r2, -1);
    }
    MaxIndexIgnoresNamesFrom2(r2);
  }

  /** The part of the maximum pass from piece 2 on. */
  lemma MaxIndexIgnoresNamesFrom2(r: string)
    requires r == ", you are " + ("{0}" + (" years and " + ("{1}" + (" month old."))))
    ensures MaxFrom(r, 0, Start, -1) == 1
  {
    var r3 := "{0}" + (" years and " + ("{1}" + (" month old.")));
    var r2 := ", you are " + r3;
    assert r == r2;
    assert MaxFrom(r2, 0, Start, -1) == MaxFrom(r3, 0, Start, -1) by {
      assert AllOrdinary(", you are ");
      MaxPlainHead(", you are ", r3, Start, -1);
    }
    MaxIndexIgnoresNamesFrom3(r3);
  }

  /** The part of the maximum pass from piece 3 on. */
  lemma MaxIndexIgnoresNamesFrom3(r: string)
    requires r == "{0}" + (" years and " + ("{1}" + (" month old.")))
    ensures MaxFrom(r, 0, Start, -1) == 1
  {
    var r4 := " years and " + ("{1}" + (" month old."));
    var r3 := "{0}" + r4;
    assert r == r3;
    assert MaxFrom(r3, 0, Start, -1) == MaxFrom(r4, 0, Start, 0) by {
      assert "{0}" == "{" + "0" + "" + "}";
      assert AllIn("0", Digits);
      assert AllOrdinary("");
      assert DigitsValue("0") == 0;
      MaxIndexHead("{0}", "0", "", r4, -1);
    }
    MaxIndexIgnoresNamesFrom4(r4);
  }

  /** The part of the maximum pass from piece 4 on. */
  lemma MaxIndexIgnoresNamesFrom4(r: string)
    requires r == " years and " + ("{1}" + (" month old."))
    ensures MaxFrom(r, 0, Start, 0) == 1
  {
    var r5 := "{1}" + (" month old.");
    var r4 := " years and " + r5;
    assert r == r4;
    assert MaxFrom(r4, 0, Start, 0) == MaxFrom(r5, 0, Start, 0) by {
      assert AllOrdinary(" years and ");
      MaxPlainHead(" years and ", r5, Start, 0);
    }
    MaxIndexIgnoresNamesFrom5(r5);
  }

  /** The part of the maximum pass from piece 5 on. */
  lemma MaxIndexIgnoresNamesFrom5(r: string)
    requires r == "{1}" + (" month old.")
    ensures MaxFrom(r, 0, Start, 0) == 1
  {
    var r6 := " month old.";
    var r5 := "{1}" + r6;
    assert r == r5;
    assert MaxFrom(r5, 0, Start, 0) == MaxFrom(r6, 0, Start, 1) by {
      assert "{1}" == "{" + "1" + "" + "}";
      assert AllIn("1", Digits);
      assert AllOrdinary("");
      assert DigitsValue("1") == 1;
      MaxIndexHead("{1}", "1", "", r6, 0);
    }
    MaxIndexIgnoresNamesFrom6(r6);
  }

  /** The part of the maximum pass from piece 6 on. */
  lemma MaxIndexIgnoresNamesFrom6(r: string)
    requires r == " month old."
    ensures MaxFrom(r, 0, Start, 1) == 1
  {
    var r7 := "";
    var r6 := " month old." + r7;
    assert r == r6;
    assert MaxFrom(r6, 0, Start, 1) == MaxFrom(r7, 0, Start, 1) by {
      assert AllOrdinary(" month old.");
      MaxPlainHead(" month old.", r7, Start, 1);
    }
    assert MaxFrom(r7, 0, Start, 1) == 1;
  }

  /** The explicit indices of the mixed pattern end at 2. */
  lemma MaxIndexBeforeNames(s: string)
    requires s == "Hej " + ("{name}" + (" " + ("{familyName}" + (", you are " + ("{1}" + (" years and " + ("{2}" + (" month old."))))))))
    ensures EvaluateMaxArgIndex(s) == 2
  {
    var r2 := " " + ("{familyName}" + (", you are " + ("{1}" + (" years and " + ("{2}" + (" month old."))))));
    var r1 := "{name}" + r2;
    var r0 := "Hej " + r1;
    assert s == r0;
    assert MaxFrom(r0, 0, Start, -1) == MaxFrom(r1, 0, Start, -1) by {
      assert AllOrdinary("Hej ");
      MaxPlainHead("Hej ", r1, Start, -1);
    }
    assert MaxFrom(r1, 0, Start, -1) == MaxFrom(r2, 0, Start, -1) by {
      assert "{name}" == "{" + "name" + "}";
      assert AllOrdinary("name");
      assert !IsAsciiNumeric('n');
      MaxOtherHead("{name}", "name", r2, -1);
    }
    MaxIndexBeforeNamesFrom2(r2);
  }

  /** The part of the maximum pass from piece 2 on. */
  lemma MaxIndexBeforeNamesFrom2(r: string)
    requires r == " " + ("{familyName}" + (", you are " + ("{1}" + (" years and " + ("{2}" + (" month old."))))))
    ensures MaxFrom(r, 0, Start, -1) == 2
  {
    var r4 := ", you are " + ("{1}" + (" years and " + ("{2}" + (" month old."))));
    var r3 := "{familyName}" + r4;
    var r2 := " " + r3;
    assert r == r2;
    assert MaxFrom(r2, 0, Start, -1) == MaxFrom(r3, 0, Start, -1) by {
      assert AllOrdinary(" ");
      MaxPlainHead(" ", r3, Start, -1);
    }
    assert MaxFrom(r3, 0, Start, -1) == MaxFrom(r4, 0, Start, -1) by {
      assert "{familyName}" == "{" + "familyName" + "}";
      assert AllOrdinary("familyName");
      assert !IsAsciiNumeric('f');
      MaxOtherHead("{familyName}", "familyName", r4, -1);
    }
    MaxIndexBeforeNamesFrom4(r4);
  }

  /** The part of the maximum pass from piece 4 on. */
  lemma MaxIndexBeforeNamesFrom4(r: string)
    requires r == ", you are " + ("{1}" + (" years and " + ("{2}" + (" month old."))))
    ensures MaxFrom(r, 0, Start, -1) == 2
  {
    var r5 := "{1}" + (" years and " + ("{2}" + (" month old.")));
    var r4 := ", you are " + r5;
    assert r == r4;
    assert MaxFrom(r4, 0, Start, -1) == MaxFrom(r5, 0, Start, -1) by {
      assert AllOrdinary(", you are ");
      MaxPlainHead(", you are ", r5, Start, -1);
    }
    MaxIndexBeforeNamesFrom5(r5);
  }

  /** The part of the maximum pass from piece 5 on. */
  lemma MaxIndexBeforeNamesFrom5(r: string)
    requires r == "{1}" + (" years and " + ("{2}" + (" month old.")))
    ensures MaxFrom(r, 0, Start, -1) == 2
  {
    var r6 := " years and " + ("{2}" + (" month old."));
    var r5 := "{1}" + r6;
    assert r == r5;
    assert MaxFrom(r5, 0, Start, -1) == MaxFrom(r6, 0, Start, 1) by {
      assert "{1}" == "{" + "1" + "" + "}";
      assert AllIn("1", Digits);
      assert AllOrdinary("");
      assert DigitsValue("1") == 1;
      MaxIndexHead("{1}", "1", "", r6, -1);
    }
    MaxIndexBeforeNamesFrom6(r6);
  }

  /** The part of the maximum pass from piece 6 on. */
  lemma MaxIndexBeforeNamesFrom6(r: string)
    requires r == " years and " + ("{2}" + (" month old."))
    ensures MaxFrom(r, 0, Start, 1) == 2
  {
    var r7 := "{2}" + (" month old.");
    var r6 := " years and " + r7;
    assert r == r6;
    assert MaxFrom(r6, 0, Start, 1) == MaxFrom(r7, 0, Start, 1) by {
      assert AllOrdinary(" years and ");
      MaxPlainHead(" years and ", r7, Start, 1);
    }
    MaxIndexBeforeNamesFrom7(r7);
  }

  /** The part of the maximum pass from piece 7 on. */
  lemma MaxIndexBeforeNamesFrom7(r: string)
    requires r == "{2}" + (" month old.")
    ensures MaxFrom(r, 0, Start, 1) == 2
  {
    var r8 := " month old.";
    var r7 := "{2}" + r8;
    assert r == r7;
    assert MaxFrom(r7, 0, Start, 1) == MaxFrom(r8, 0, Start, 2) by {
      assert "{2}" == "{" + "2" + "" + "}";
      assert AllIn("2", Digits);
      assert AllOrdinary("");
      assert DigitsValue("2") == 2;
      MaxIndexHead("{2}", "2", "", r8, 1);
    }
    MaxIndexBeforeNamesFrom8(r8);
  }

  /** The part of the maximum pass from piece 8 on. */
  lemma MaxIndexBeforeNamesFrom8(r: string)
    requires r == " month old."
    ensures MaxFrom(r, 0, Start, 2) == 2
  {
    var r9 := "";
    var r8 := " month old." + r9;
    assert r == r8;
    assert MaxFrom(r8, 0, Start, 2) == MaxFrom(r9, 0, Start, 2) by {
      assert AllOrdinary(" month old.");
      MaxPlainHead(" month old.", r9, Start, 2);
    }
    assert MaxFrom(r9, 0, Start, 2) == 2;
  }

  /** Names are numbered after the largest explicit index, in order of first occurrence. */
  lemma NamesAfterMaxIndex(s: string)
    requires s == "Hej " + ("{name}" + (" " + ("{familyName}" + (", you are " + ("{1}" + (" years and " + ("{2}" + (" month old."))))))))
    ensures NamesToIndex(s).text == "Hej " + ("{3}" + (" " + ("{4}" + (", you are " + ("{1}" + (" years and " + ("{2}" + (" month old."))))))))
    ensures NamesToIndex(s).alloc.nameToIndex == map["name" := 3, "familyName" := 4]
  {
    MaxIndexBeforeNames(s);
    var r1 := "{name}" + (" " + ("{familyName}" + (", you are " + ("{1}" + (" years and " + ("{2}" + (" month old.")))))));
    var r0 := "Hej " + r1;
    assert s == r0;
    assert NamesFrom(r0, 0, Start, Allocation(map[], 2)) == Rewrite("Hej " + NamesFrom(r1, 0, Start, Allocation(map[], 2)).text, NamesFrom(r1, 0, Start, Allocation(map[], 2)).alloc) by {
      assert AllOrdinary("Hej ");
      NamesPlainHead("Hej ", r1, Start, Allocation(map[], 2));
    }
    NamesAfterMaxIndexFrom1(r1);
  }

  /** The part of the rewrite from piece 1 on. */
  lemma NamesAfterMaxIndexFrom1(r: string)
    requires r == "{name}" + (" " + ("{familyName}" + (", you are " + ("{1}" + (" years and " + ("{2}" + (" month old.")))))))
    ensures NamesFrom(r, 0, Start, Allocation(map[], 2)) == Rewrite("{3}" + (" " + ("{4}" + (", you are " + ("{1}" + (" years and " + ("{2}" + (" month old."))))))), Allocation(map["name" := 3, "familyName" := 4], 4))
  {
    var r2 := " " + ("{familyName}" + (", you are " + ("{1}" + (" years and " + ("{2}" + (" month old."))))));
    var r1 := "{name}" + r2;
    assert r == r1;
    assert NamesFrom(r1, 0, Start, Allocation(map[], 2)) == Rewrite("{3}" + NamesFrom(r2, 0, Start, Allocation(map["name" := 3], 3)).text, NamesFrom(r2, 0, Start, Allocation(map["name" := 3], 3)).alloc) by {
      assert "{name}" == "{" + "name" + "" + "}";
      assert AllIn("name", Letters);
      assert AllOrdinary("");
      assert ComputeIfAbsent(Allocation(map[], 2), "name") == (Allocation(map["name" := 3], 3), 3);
      assert IntToString(3) == "3";
      assert "{3}" == "{" + "3" + "" + "}";
      NamesIndexHead("{name}", "name", "", r2, Allocation(map[], 2));
    }
    NamesAfterMaxIndexFrom2(r2);
  }

  /** The part of the rewrite from piece 2 on. */
  lemma NamesAfterMaxIndexFrom2(r: string)
    requires r == " " + ("{familyName}" + (", you are " + ("{1}" + (" years and " + ("{2}" + (" month old."))))))
    ensures NamesFrom(r, 0, Start, Allocation(map["name" := 3], 3)) == Rewrite(" " + ("{4}" + (", you are " + ("{1}" + (" years and " + ("{2}" + (" month old.")))))), Allocation(map["name" := 3, "familyName" := 4], 4))
  {
    var r3 := "{familyName}" + (", you are " + ("{1}" + (" years and " + ("{2}" + (" month old.")))));
    var r2 := " " + r3;
    assert r == r2;
    assert NamesFrom(r2, 0, Start, Allocation(map["name" := 3], 3)) == Rewrite(" " + NamesFrom(r3, 0, Start, Allocation(map["name" := 3], 3)).text, NamesFrom(r3, 0, Start, Allocation(map["name" := 3], 3)).alloc) by {
      assert AllOrdinary(" ");
      NamesPlainHead(" ", r3, Start, Allocation(map["name" := 3], 3));
    }
    NamesAfterMaxIndexFrom3(r3);
  }

  /** The part of the rewrite from piece 3 on. */
  lemma NamesAfterMaxIndexFrom3(r: string)
    requires r == "{familyName}" + (", you are " + ("{1}" + (" years and " + ("{2}" + (" month old.")))))
    ensures NamesFrom(r, 0, Start, Allocation(map["name" := 3], 3)) == Rewrite("{4}" + (", you are " + ("{1}" + (" years and " + ("{2}" + (" month old."))))), Allocation(map["name" := 3, "familyName" := 4], 4))
  {
    var r4 := ", you are " + ("{1}" + (" years and " + ("{2}" + (" month old."))));
    var r3 := "{familyName}" + r4;
    assert r == r3;
    assert NamesFrom(r3, 0, Start, Allocation(map["name" := 3], 3)) == Rewrite("{4}" + NamesFrom(r4, 0, Start, Allocation(map["name" := 3, "familyName" := 4], 4)).text, NamesFrom(r4, 0, Start, Allocation(map["name" := 3, "familyName" := 4], 4)).alloc) by {
      assert "{familyName}" == "{" + "familyName" + "" + "}";
      assert AllIn("familyName", Letters);
      assert AllOrdinary("");
      assert ComputeIfAbsent(Allocation(map["name" := 3], 3), "familyName") == (Allocation(map["name" := 3, "familyName" := 4], 4), 4);
      assert IntToString(4) == "4";
      assert "{4}" == "{" + "4" + "" + "}";
      NamesIndexHead("{familyName}", "familyName", "", r4, Allocation(map["name" := 3], 3));
    }
    NamesAfterMaxIndexFrom4(r4);
  }

  /** The part of the rewrite from piece 4 on. */
  lemma NamesAfterMaxIndexFrom4(r: string)
    requires r == ", you are " + ("{1}" + (" years and " + ("{2}" + (" month old."))))
    ensures NamesFrom(r, 0, Start, Allocation(map["name" := 3, "familyName" := 4], 4)) == Rewrite(", you are " + ("{1}" + (" years and " + ("{2}" + (" month old.")))), Allocation(map["name" := 3, "familyName" := 4], 4))
  {
    var r6 := " years and " + ("{2}" + (" month old."));
    var r5 := "{1}" + r6;
    var r4 := ", you are " + r5;
    assert r == r4;
    assert NamesFrom(r4, 0, Start, Allocation(map["name" := 3, "familyName" := 4], 4)) == Rewrite(", you are " + NamesFrom(r5, 0, Start, Allocation(map["name" := 3, "familyName" := 4], 4)).text, NamesFrom(r5, 0, Start, Allocation(map["name" := 3, "familyName" := 4], 4)).alloc) by {
      assert AllOrdinary(", you are ");
      NamesPlainHead(", you are ", r5, Start, Allocation(map["name" := 3, "familyName" := 4], 4));
    }
    assert NamesFrom(r5, 0, Start, Allocation(map["name" := 3, "familyName" := 4], 4)) == Rewrite("{1}" + NamesFrom(r6, 0, Start, Allocation(map["name" := 3, "familyName" := 4], 4)).text, NamesFrom(r6, 0, Start, Allocation(map["name" := 3, "familyName" := 4], 4)).alloc) by {
      assert "{1}" == "{" + "1" + "}";
      assert AllOrdinary("1");
      assert !IsAsciiAlpha('1');
      NamesOtherHead("{1}", "1", r6, Allocation(map["name" := 3, "familyName" := 4], 4));
    }
    NamesAfterMaxIndexFrom6(r6);
  }

  /** The part of the rewrite from piece 6 on. */
  lemma NamesAfterMaxIndexFrom6(r: string)
    requires r == " years and " + ("{2}" + (" month old."))
    ensures NamesFrom(r, 0, Start, Allocation(map["name" := 3, "familyName" := 4], 4)) == Rewrite(" years and " + ("{2}" + (" month old.")), Allocation(map["name" := 3, "familyName" := 4], 4))
  {
    var r8 := " month old.";
    var r7 := "{2}" + r8;
    var r6 := " years and " + r7;
    assert r == r6;
    assert NamesFrom(r6, 0, Start, Allocation(map["name" := 3, "familyName" := 4], 4)) == Rewrite(" years and " + NamesFrom(r7, 0, Start, Allocation(map["name" := 3, "familyName" := 4], 4)).text, NamesFrom(r7, 0, Start, Allocation(map["name" := 3, "familyName" := 4], 4)).alloc) by {
      assert AllOrdinary(" years and ");
      NamesPlainHead(" years and ", r7, Start, Allocation(map["name" := 3, "familyName" := 4], 4));
    }
    assert NamesFrom(r7, 0, Start, Allocation(map["name" := 3, "familyName" := 4], 4)) == Rewrite("{2}" + NamesFrom(r8, 0, Start, Allocation(map["name" := 3, "familyName" := 4], 4)).text, NamesFrom(r8, 0, Start, Allocation(map["name" := 3, "familyName" := 4], 4)).alloc) by {
      assert "{2}" == "{" + "2" + "}";
      assert AllOrdinary("2");
      assert !IsAsciiAlpha('2');
      NamesOtherHead("{2}", "2", r8, Allocation(map["name" := 3, "familyName" := 4], 4));
    }
    NamesAfterMaxIndexFrom8(r8);
  }

  /** The part of the rewrite from piece 8 on. */
  lemma NamesAfterMaxIndexFrom8(r: string)
    requires r == " month old."
    ensures NamesFrom(r, 0, Start, Allocation(map["name" := 3, "familyName" := 4], 4)) == Rewrite(" month old.", Allocation(map["name" := 3, "familyName" := 4], 4))
  {
    var r9 := "";
    var r8 := " month old." + r9;
    assert r == r8;
    assert NamesFrom(r8, 0, Start, Allocation(map["name" := 3, "familyName" := 4], 4)) == Rewrite(" month old." + NamesFrom(r9, 0, Start, Allocation(map["name" := 3, "familyName" := 4], 4)).text, NamesFrom(r9, 0, Start, Allocation(map["name" := 3, "familyName" := 4], 4)).alloc) by {
      assert AllOrdinary(" month old.");
      NamesPlainHead(" month old.", r9, Start, Allocation(map["name" := 3, "familyName" := 4], 4));
    }
    assert NamesFrom(r9, 0, Start, Allocation(map["name" := 3, "familyName" := 4], 4)) == Rewrite("", Allocation(map["name" := 3, "familyName" := 4], 4));
  }

  /** A pattern with only names has no explicit index. */
  lemma MaxIndexOfRepeatedName(s: string)
    requires s == "{v}" + ("=" + ("{v}"))
    ensures EvaluateMaxArgIndex(s) == -1
  {
    var r2 := "{v}";
    var r1 := "=" + r2;
    var r0 := "{v}" + r1;
    assert s == r0;
    assert MaxFrom(r0, 0, Start, -1) == MaxFrom(r1, 0, Start, -1) by {
      assert "{v}" == "{" + "v" + "}";
      assert AllOrdinary("v");
      assert !IsAsciiNumeric('v');
      MaxOtherHead("{v}", "v", r1, -1);
    }
    assert MaxFrom(r1, 0, Start, -1) == MaxFrom(r2, 0, Start, -1) by {
      assert AllOrdinary("=");
      MaxPlainHead("=", r2, Start, -1);
    }
    MaxIndexOfRepeatedNameFrom2(r2);
  }

  /** The part of the maximum pass from piece 2 on. */
  lemma MaxIndexOfRepeatedNameFrom2(r: string)
    requires r == "{v}"
    ensures MaxFrom(r, 0, Start, -1) == -1
  {
    var r3 := "";
    var r2 := "{v}" + r3;
    assert r == r2;
    assert MaxFrom(r2, 0, Start, -1) == MaxFrom(r3, 0, Start, -1) by {
      assert "{v}" == "{" + "v" + "}";
      assert AllOrdinary("v");
      assert !IsAsciiNumeric('v');
      MaxOtherHead("{v}", "v", r3, -1);
    }
    assert MaxFrom(r3, 0, Start, -1) == -1;
  }

  /** A name used twice gets one index, used at both places. */
  lemma RepeatedNameSharesIndex(s: string)
    requires s == "{v}" + ("=" + ("{v}"))
    ensures NamesToIndex(s).text == "{0}" + ("=" + ("{0}"))
    ensures NamesToIndex(s).alloc.nameToIndex == map["v" := 0]
  {
    MaxIndexOfRepeatedName(s);
    var r1 := "=" + ("{v}");
    var r0 := "{v}" + r1;
    assert s == r0;
    assert NamesFrom(r0, 0, Start, Allocation(map[], -1)) == Rewrite("{0}" + NamesFrom(r1, 0, Start, Allocation(map["v" := 0], 0)).text, NamesFrom(r1, 0, Start, Allocation(map["v" := 0], 0)).alloc) by {
      assert "{v}" == "{" + "v" + "" + "}";
      assert AllIn("v", Letters);
      assert AllOrdinary("");
      assert ComputeIfAbsent(Allocation(map[], -1), "v") == (Allocation(map["v" := 0], 0), 0);
      assert IntToString(0) == "0";
      assert "{0}" == "{" + "0" + "" + "}";
      NamesIndexHead("{v}", "v", "", r1, Allocation(map[], -1));
    }
    RepeatedNameSharesIndexFrom1(r1);
  }

  /** The supplier of the unit tests that counts up from its start value: its k-th result is
      start + k + 1. */
  function CountingSupplier(start: int): (s: Supplier<int>)
    ensures s.calls == 0 && s.produce(0) == Some(start + 1) && s.produce(1) == Some(start + 2)
  {
    Supplier(k => Some(start + k + 1), 0)
  }

  /** "{v}={v}" with a counting supplier from 2: one format() asks the supplier once and puts its
      answer 3 in the one slot both placeholders share; the next format() would see 4. */
  method SameArgMultipleTimes(s: string, defaultZone: string) returns (args: seq<Option<int>>, after: Engine<int>)
    requires s == "{v}" + ("=" + ("{v}"))
    ensures args == [Some(3)]
    ensures "v" in after.suppliers && after.suppliers["v"].Some?
    ensures after.suppliers["v"].value.calls == 1 && after.suppliers["v"].value.produce(1) == Some(4)
  {
    RepeatedNameSharesIndex(s);
    var e := AddNamedArgumentSupplier(New<int>(s, [], defaultZone), "v", Some(CountingSupplier(2)));
    assert e.nameToIndex == map["v" := 0] && e.indexed == [];
    assert forall n :: n in ["v"] <==> n in e.nameToIndex;
    args, after := Format(e, ["v"]);
    assert Resolve(e, "v") == Some(3);
    assert |args| == 1;
  }

  /** The part of the rewrite from piece 1 on. */
  lemma RepeatedNameSharesIndexFrom1(r: string)
    requires r == "=" + ("{v}")
    ensures NamesFrom(r, 0, Start, Allocation(map["v" := 0], 0)) == Rewrite("=" + ("{0}"), Allocation(map["v" := 0], 0))
  {
    var r2 := "{v}";
    var r1 := "=" + r2;
    assert r == r1;
    assert NamesFrom(r1, 0, Start, Allocation(map["v" := 0], 0)) == Rewrite("=" + NamesFrom(r2, 0, Start, Allocation(map["v" := 0], 0)).text, NamesFrom(r2, 0, Start, Allocation(map["v" := 0], 0)).alloc) by {
      assert AllOrdinary("=");
      NamesPlainHead("=", r2, Start, Allocation(map["v" := 0], 0));
    }
    RepeatedNameSharesIndexFrom2(r2);
  }

  /** The part of the rewrite from piece 2 on. */
  lemma RepeatedNameSharesIndexFrom2(r: string)
    requires r == "{v}"
    ensures NamesFrom(r, 0, Start, Allocation(map["v" := 0], 0)) == Rewrite("{0}", Allocation(map["v" := 0], 0))
  {
    var r3 := "";
    var r2 := "{v}" + r3;
    assert r == r2;
    assert NamesFrom(r2, 0, Start, Allocation(map["v" := 0], 0)) == Rewrite("{0}" + NamesFrom(r3, 0, Start, Allocation(map["v" := 0], 0)).text, NamesFrom(r3, 0, Start, Allocation(map["v" := 0], 0)).alloc) by {
      assert "{v}" == "{" + "v" + "" + "}";
      assert AllIn("v", Letters);
      assert AllOrdinary("");
      assert ComputeIfAbsent(Allocation(map["v" := 0], 0), "v") == (Allocation(map["v" := 0], 0), 0);
      assert IntToString(0) == "0";
      assert "{0}" == "{" + "0" + "" + "}";
      NamesIndexHead("{v}", "v", "", r3, Allocation(map["v" := 0], 0));
    }
    assert NamesFrom(r3, 0, Start, Allocation(map["v" := 0], 0)) == Rewrite("", Allocation(map["v" := 0], 0));
  }

  /** Doubled quotes and a sub-format after a name add no explicit index. */
  lemma MaxIndexOfQuotedNames(s: string)
    requires s == "Hej " + ("\'\'" + ("{name}" + ("\'\'" + (" " + ("\'\'" + ("{familyName}" + ("\'\'" + (", you" + ("\'\'" + ("r id is " + ("{id,number,0000}" + ("."))))))))))))
    ensures EvaluateMaxArgIndex(s) == -1
  {
    var r2 := "{name}" + ("\'\'" + (" " + ("\'\'" + ("{familyName}" + ("\'\'" + (", you" + ("\'\'" + ("r id is " + ("{id,number,0000}" + ("."))))))))));
    var r1 := "\'\'" + r2;
    var r0 := "Hej " + r1;
    assert s == r0;
    assert MaxFrom(r0, 0, Start, -1) == MaxFrom(r1, 0, Start, -1) by {
      assert AllOrdinary("Hej ");
      MaxPlainHead("Hej ", r1, Start, -1);
    }
    assert MaxFrom(r1, 0, Start, -1) == MaxFrom(r2, 0, Start, -1) by {
      MaxQuotesHead(r2, -1);
    }
    MaxIndexOfQuotedNamesFrom2(r2);
  }

  /** The part of the maximum pass from piece 2 on. */
  lemma MaxIndexOfQuotedNamesFrom2(r: string)
    requires r == "{name}" + ("\'\'" + (" " + ("\'\'" + ("{familyName}" + ("\'\'" + (", you" + ("\'\'" + ("r id is " + ("{id,number,0000}" + ("."))))))))))
    ensures MaxFrom(r, 0, Start, -1) == -1
  {
    var r4 := " " + ("\'\'" + ("{familyName}" + ("\'\'" + (", you" + ("\'\'" + ("r id is " + ("{id,number,0000}" + ("."))))))));
    var r3 := "\'\'" + r4;
    var r2 := "{name}" + r3;
    assert r == r2;
    assert MaxFrom(r2, 0, Start, -1) == MaxFrom(r3, 0, Start, -1) by {
      assert "{name}" == "{" + "name" + "}";
      assert AllOrdinary("name");
      assert !IsAsciiNumeric('n');
      MaxOtherHead("{name}", "name", r3, -1);
    }
    assert MaxFrom(r3, 0, Start, -1) == MaxFrom(r4, 0, Start, -1) by {
      MaxQuotesHead(r4, -1);
    }
    MaxIndexOfQuotedNamesFrom4(r4);
  }

  /** The part of the maximum pass from piece 4 on. */
  lemma MaxIndexOfQuotedNamesFrom4(r: string)
    requires r == " " + ("\'\'" + ("{familyName}" + ("\'\'" + (", you" + ("\'\'" + ("r id is " + ("{id,number,0000}" + ("."))))))))
    ensures MaxFrom(r, 0, Start, -1) == -1
  {
    var r6 := "{familyName}" + ("\'\'" + (", you" + ("\'\'" + ("r id is " + ("{id,number,0000}" + ("."))))));
    var r5 := "\'\'" + r6;
    var r4 := " " + r5;
    assert r == r4;
    assert MaxFrom(r4, 0, Start, -1) == MaxFrom(r5, 0, Start, -1) by {
      assert AllOrdinary(" ");
      MaxPlainHead(" ", r5, Start, -1);
    }
    assert MaxFrom(r5, 0, Start, -1) == MaxFrom(r6, 0, Start, -1) by {
      MaxQuotesHead(r6, -1);
    }
    MaxIndexOfQuotedNamesFrom6(r6);
  }

  /** The part of the maximum pass from piece 6 on. */
  lemma MaxIndexOfQuotedNamesFrom6(r: string)
    requires r == "{familyName}" + ("\'\'" + (", you" + ("\'\'" + ("r id is " + ("{id,number,0000}" + ("."))))))
    ensures MaxFrom(r, 0, Start, -1) == -1
  {
    var r8 := ", you" + ("\'\'" + ("r id is " + ("{id,number,0000}" + ("."))));
    var r7 := "\'\'" + r8;
    var r6 := "{familyName}" + r7;
    assert r == r6;
    assert MaxFrom(r6, 0, Start, -1) == MaxFrom(r7, 0, Start, -1) by {
      assert "{familyName}" == "{" + "familyName" + "}";
      assert AllOrdinary("familyName");
      assert !IsAsciiNumeric('f');
      MaxOtherHead("{familyName}", "familyName", r7, -1);
    }
    assert MaxFrom(r7, 0, Start, -1) == MaxFrom(r8, 0, Start, -1) by {
      MaxQuotesHead(r8, -1);
    }
    MaxIndexOfQuotedNamesFrom8(r8);
  }

  /** The part of the maximum pass from piece 8 on. */
  lemma MaxIndexOfQuotedNamesFrom8(r: string)
    requires r == ", you" + ("\'\'" + ("r id is " + ("{id,number,0000}" + ("."))))
    ensures MaxFrom(r, 0, Start, -1) == -1
  {
    var r11 := "{id,number,0000}" + (".");
    var r10 := "r id is " + r11;
    var r9 := "\'\'" + r10;
    var r8 := ", you" + r9;
    assert r == r8;
    assert MaxFrom(r8, 0, Start, -1) == MaxFrom(r9, 0, Start, -1) by {
      assert AllOrdinary(", you");
      MaxPlainHead(", you", r9, Start, -1);
    }
    assert MaxFrom(r9, 0, Start, -1) == MaxFrom(r10, 0, Start, -1) by {
      MaxQuotesHead(r10, -1);
    }
    assert MaxFrom(r10, 0, Start, -1) == MaxFrom(r11, 0, Start, -1) by {
      assert AllOrdinary("r id is ");
      MaxPlainHead("r id is ", r11, Start, -1);
    }
    MaxIndexOfQuotedNamesFrom11(r11);
  }

  /** The part of the maximum pass from piece 11 on. */
  lemma MaxIndexOfQuotedNamesFrom11(r: string)
    requires r == "{id,number,0000}" + (".")
    ensures MaxFrom(r, 0, Start, -1) == -1
  {
    var r13 := "";
    var r12 := "." + r13;
    var r11 := "{id,number,0000}" + r12;
    assert r == r11;
    assert MaxFrom(r11, 0, Start, -1) == MaxFrom(r12, 0, Start, -1) by {
      assert "{id,number,0000}" == "{" + "id,number,0000" + "}";
      assert AllOrdinary("id,number,0000");
      assert !IsAsciiNumeric('i');
      MaxOtherHead("{id,number,0000}", "id,number,0000", r12, -1);
    }
    assert MaxFrom(r12, 0, Start, -1) == MaxFrom(r13, 0, Start, -1) by {
      assert AllOrdinary(".");
      MaxPlainHead(".", r13, Start, -1);
    }
    assert MaxFrom(r13, 0, Start, -1) == -1;
  }

  /** Names between doubled quotes are still replaced, and a sub-format after a name is kept. */
  lemma QuotedNamesAreRewritten(s: string)
    requires s == "Hej " + ("\'\'" + ("{name}" + ("\'\'" + (" " + ("\'\'" + ("{familyName}" + ("\'\'" + (", you" + ("\'\'" + ("r id is " + ("{id,number,0000}" + ("."))))))))))))
    ensures NamesToIndex(s).text == "Hej " + ("\'\'" + ("{0}" + ("\'\'" + (" " + ("\'\'" + ("{1}" + ("\'\'" + (", you" + ("\'\'" + ("r id is " + ("{2,number,0000}" + ("."))))))))))))
    ensures NamesToIndex(s).alloc.nameToIndex == map["name" := 0, "familyName" := 1, "id" := 2]
  {
    MaxIndexOfQuotedNames(s);
    var r2 := "{name}" + ("\'\'" + (" " + ("\'\'" + ("{familyName}" + ("\'\'" + (", you" + ("\'\'" + ("r id is " + ("{id,number,0000}" + ("."))))))))));
    var r1 := "\'\'" + r2;
    var r0 := "Hej " + r1;
    assert s == r0;
    assert NamesFrom(r0, 0, Start, Allocation(map[], -1)) == Rewrite("Hej " + NamesFrom(r1, 0, Start, Allocation(map[], -1)).text, NamesFrom(r1, 0, Start, Allocation(map[], -1)).alloc) by {
      assert AllOrdinary("Hej ");
      NamesPlainHead("Hej ", r1, Start, Allocation(map[], -1));
    }
    assert NamesFrom(r1, 0, Start, Allocation(map[], -1)) == Rewrite("\'\'" + NamesFrom(r2, 0, Start, Allocation(map[], -1)).text, NamesFrom(r2, 0, Start, Allocation(map[], -1)).alloc) by {
      NamesQuotesHead(r2, Allocation(map[], -1));
    }
    QuotedNamesAreRewrittenFrom2(r2);
  }

  /** The part of the rewrite from piece 2 on. */
  lemma QuotedNamesAreRewrittenFrom2(r: string)
    requires r == "{name}" + ("\'\'" + (" " + ("\'\'" + ("{familyName}" + ("\'\'" + (", you" + ("\'\'" + ("r id is " + ("{id,number,0000}" + ("."))))))))))
    ensures NamesFrom(r, 0, Start, Allocation(map[], -1)) == Rewrite("{0}" + ("\'\'" + (" " + ("\'\'" + ("{1}" + ("\'\'" + (", you" + ("\'\'" + ("r id is " + ("{2,number,0000}" + (".")))))))))), Allocation(map["name" := 0, "familyName" := 1, "id" := 2], 2))
  {
    var r3 := "\'\'" + (" " + ("\'\'" + ("{familyName}" + ("\'\'" + (", you" + ("\'\'" + ("r id is " + ("{id,number,0000}" + (".")))))))));
    var r2 := "{name}" + r3;
    assert r == r2;
    assert NamesFrom(r2, 0, Start, Allocation(map[], -1)) == Rewrite("{0}" + NamesFrom(r3, 0, Start, Allocation(map["name" := 0], 0)).text, NamesFrom(r3, 0, Start, Allocation(map["name" := 0], 0)).alloc) by {
      assert "{name}" == "{" + "name" + "" + "}";
      assert AllIn("name", Letters);
      assert AllOrdinary("");
      assert ComputeIfAbsent(Allocation(map[], -1), "name") == (Allocation(map["name" := 0], 0), 0);
      assert IntToString(0) == "0";
      assert "{0}" == "{" + "0" + "" + "}";
      NamesIndexHead("{name}", "name", "", r3, Allocation(map[], -1));
    }
    QuotedNamesAreRewrittenFrom3(r3);
  }

  /** The part of the rewrite from piece 3 on. */
  lemma QuotedNamesAreRewrittenFrom3(r: string)
    requires r == "\'\'" + (" " + ("\'\'" + ("{familyName}" + ("\'\'" + (", you" + ("\'\'" + ("r id is " + ("{id,number,0000}" + (".")))))))))
    ensures NamesFrom(r, 0, Start, Allocation(map["name" := 0], 0)) == Rewrite("\'\'" + (" " + ("\'\'" + ("{1}" + ("\'\'" + (", you" + ("\'\'" + ("r id is " + ("{2,number,0000}" + ("."))))))))), Allocation(map["name" := 0, "familyName" := 1, "id" := 2], 2))
  {
    var r6 := "{familyName}" + ("\'\'" + (", you" + ("\'\'" + ("r id is " + ("{id,number,0000}" + ("."))))));
    var r5 := "\'\'" + r6;
    var r4 := " " + r5;
    var r3 := "\'\'" + r4;
    assert r == r3;
    assert NamesFrom(r3, 0, Start, Allocation(map["name" := 0], 0)) == Rewrite("\'\'" + NamesFrom(r4, 0, Start, Allocation(map["name" := 0], 0)).text, NamesFrom(r4, 0, Start, Allocation(map["name" := 0], 0)).alloc) by {
      NamesQuotesHead(r4, Allocation(map["name" := 0], 0));
    }
    assert NamesFrom(r4, 0, Start, Allocation(map["name" := 0], 0)) == Rewrite(" " + NamesFrom(r5, 0, Start, Allocation(map["name" := 0], 0)).text, NamesFrom(r5, 0, Start, Allocation(map["name" := 0], 0)).alloc) by {
      assert AllOrdinary(" ");
      NamesPlainHead(" ", r5, Start, Allocation(map["name" := 0], 0));
    }
    assert NamesFrom(r5, 0, Start, Allocation(map["name" := 0], 0)) == Rewrite("\'\'" + NamesFrom(r6, 0, Start, Allocation(map["name" := 0], 0)).text, NamesFrom(r6, 0, Start, Allocation(map["name" := 0], 0)).alloc) by {
      NamesQuotesHead(r6, Allocation(map["name" := 0], 0));
    }
    QuotedNamesAreRewrittenFrom6(r6);
  }

  /** The part of the rewrite from piece 6 on. */
  lemma QuotedNamesAreRewrittenFrom6(r: string)
    requires r == "{familyName}" + ("\'\'" + (", you" + ("\'\'" + ("r id is " + ("{id,number,0000}" + ("."))))))
    ensures NamesFrom(r, 0, Start, Allocation(map["name" := 0], 0)) == Rewrite("{1}" + ("\'\'" + (", you" + ("\'\'" + ("r id is " + ("{2,number,0000}" + (".")))))), Allocation(map["name" := 0, "familyName" := 1, "id" := 2], 2))
  {
    var r7 := "\'\'" + (", you" + ("\'\'" + ("r id is " + ("{id,number,0000}" + (".")))));
    var r6 := "{familyName}" + r7;
    assert r == r6;
    assert NamesFrom(r6, 0, Start, Allocation(map["name" := 0], 0)) == Rewrite("{1}" + NamesFrom(r7, 0, Start, Allocation(map["name" := 0, "familyName" := 1], 1)).text, NamesFrom(r7, 0, Start, Allocation(map["name" := 0, "familyName" := 1], 1)).alloc) by {
      assert "{familyName}" == "{" + "familyName" + "" + "}";
      assert AllIn("familyName", Letters);
      assert AllOrdinary("");
      assert ComputeIfAbsent(Allocation(map["name" := 0], 0), "familyName") == (Allocation(map["name" := 0, "familyName" := 1], 1), 1);
      assert IntToString(1) == "1";
      assert "{1}" == "{" + "1" + "" + "}";
      NamesIndexHead("{familyName}", "familyName", "", r7, Allocation(map["name" := 0], 0));
    }
    QuotedNamesAreRewrittenFrom7(r7);
  }

  /** The part of the rewrite from piece 7 on. */
  lemma QuotedNamesAreRewrittenFrom7(r: string)
    requires r == "\'\'" + (", you" + ("\'\'" + ("r id is " + ("{id,number,0000}" + (".")))))
    ensures NamesFrom(r, 0, Start, Allocation(map["name" := 0, "familyName" := 1], 1)) == Rewrite("\'\'" + (", you" + ("\'\'" + ("r id is " + ("{2,number,0000}" + ("."))))), Allocation(map["name" := 0, "familyName" := 1, "id" := 2], 2))
  {
    var r10 := "r id is " + ("{id,number,0000}" + ("."));
    var r9 := "\'\'" + r10;
    var r8 := ", you" + r9;
    var r7 := "\'\'" + r8;
    assert r == r7;
    assert NamesFrom(r7, 0, Start, Allocation(map["name" := 0, "familyName" := 1], 1)) == Rewrite("\'\'" + NamesFrom(r8, 0, Start, Allocation(map["name" := 0, "familyName" := 1], 1)).text, NamesFrom(r8, 0, Start, Allocation(map["name" := 0, "familyName" := 1], 1)).alloc) by {
      NamesQuotesHead(r8, Allocation(map["name" := 0, "familyName" := 1], 1));
    }
    assert NamesFrom(r8, 0, Start, Allocation(map["name" := 0, "familyName" := 1], 1)) == Rewrite(", you" + NamesFrom(r9, 0, Start, Allocation(map["name" := 0, "familyName" := 1], 1)).text, NamesFrom(r9, 0, Start, Allocation(map["name" := 0, "familyName" := 1], 1)).alloc) by {
      assert AllOrdinary(", you");
      NamesPlainHead(", you", r9, Start, Allocation(map["name" := 0, "familyName" := 1], 1));
    }
    assert NamesFrom(r9, 0, Start, Allocation(map["name" := 0, "familyName" := 1], 1)) == Rewrite("\'\'" + NamesFrom(r10, 0, Start, Allocation(map["name" := 0, "familyName" := 1], 1)).text, NamesFrom(r10, 0, Start, Allocation(map["name" := 0, "familyName" := 1], 1)).alloc) by {
      NamesQuotesHead(r10, Allocation(map["name" := 0, "familyName" := 1], 1));
    }
    QuotedNamesAreRewrittenFrom10(r10);
  }

  /** The part of the rewrite from piece 10 on. */
  lemma QuotedNamesAreRewrittenFrom10(r: string)
    requires r == "r id is " + ("{id,number,0000}" + ("."))
    ensures NamesFrom(r, 0, Start, Allocation(map["name" := 0, "familyName" := 1], 1)) == Rewrite("r id is " + ("{2,number,0000}" + (".")), Allocation(map["name" := 0, "familyName" := 1, "id" := 2], 2))
  {
    var r11 := "{id,number,0000}" + (".");
    var r10 := "r id is " + r11;
    assert r == r10;
    assert NamesFrom(r10, 0, Start, Allocation(map["name" := 0, "familyName" := 1], 1)) == Rewrite("r id is " + NamesFrom(r11, 0, Start, Allocation(map["name" := 0, "familyName" := 1], 1)).text, NamesFrom(r11, 0, Start, Allocation(map["name" := 0, "familyName" := 1], 1)).alloc) by {
      assert AllOrdinary("r id is ");
      NamesPlainHead("r id is ", r11, Start, Allocation(map["name" := 0, "familyName" := 1], 1));
    }
    QuotedNamesAreRewrittenFrom11(r11);
  }

  /** The part of the rewrite from piece 11 on. */
  lemma QuotedNamesAreRewrittenFrom11(r: string)
    requires r == "{id,number,0000}" + (".")
    ensures NamesFrom(r, 0, Start, Allocation(map["name" := 0, "familyName" := 1], 1)) == Rewrite("{2,number,0000}" + ("."), Allocation(map["name" := 0, "familyName" := 1, "id" := 2], 2))
  {
    var r12 := ".";
    var r11 := "{id,number,0000}" + r12;
    assert r == r11;
    assert NamesFrom(r11, 0, Start, Allocation(map["name" := 0, "familyName" := 1], 1)) == Rewrite("{2,number,0000}" + NamesFrom(r12, 0, Start, Allocation(map["name" := 0, "familyName" := 1, "id" := 2], 2)).text, NamesFrom(r12, 0, Start, Allocation(map["name" := 0, "familyName" := 1, "id" := 2], 2)).alloc) by {
      assert "{id,number,0000}" == "{" + "id" + ",number,0000" + "}";
      assert AllIn("id", Letters);
      assert AllOrdinary(",number,0000");
      assert ComputeIfAbsent(Allocation(map["name" := 0, "familyName" := 1], 1), "id") == (Allocation(map["name" := 0, "familyName" := 1, "id" := 2], 2), 2);
      assert IntToString(2) == "2";
      assert "{2,number,0000}" == "{" + "2" + ",number,0000" + "}";
      NamesIndexHead("{id,number,0000}", "id", ",number,0000", r12, Allocation(map["name" := 0, "familyName" := 1], 1));
    }
    QuotedNamesAreRewrittenFrom12(r12);
  }

  /** The part of the rewrite from piece 12 on. */
  lemma QuotedNamesAreRewrittenFrom12(r: string)
    requires r == "."
    ensures NamesFrom(r, 0, Start, Allocation(map["name" := 0, "familyName" := 1, "id" := 2], 2)) == Rewrite(".", Allocation(map["name" := 0, "familyName" := 1, "id" := 2], 2))
  {
    var r13 := "";
    var r12 := "." + r13;
    assert r == r12;
    assert NamesFrom(r12, 0, Start, Allocation(map["name" := 0, "familyName" := 1, "id" := 2], 2)) == Rewrite("." + NamesFrom(r13, 0, Start, Allocation(map["name" := 0, "familyName" := 1, "id" := 2], 2)).text, NamesFrom(r13, 0, Start, Allocation(map["name" := 0, "familyName" := 1, "id" := 2], 2)).alloc) by {
      assert AllOrdinary(".");
      NamesPlainHead(".", r13, Start, Allocation(map["name" := 0, "familyName" := 1, "id" := 2], 2));
    }
    assert NamesFrom(r13, 0, Start, Allocation(map["name" := 0, "familyName" := 1, "id" := 2], 2)) == Rewrite("", Allocation(map["name" := 0, "familyName" := 1, "id" := 2], 2));
  }

  /** Three names and no index. */
  lemma MaxIndexOfNamesOnly(s: string)
    requires s == "{first}" + (" " + ("{second}" + (" " + ("{third}"))))
    ensures EvaluateMaxArgIndex(s) == -1
  {
    var r2 := "{second}" + (" " + ("{third}"));
    var r1 := " " + r2;
    var r0 := "{first}" + r1;
    assert s == r0;
    assert MaxFrom(r0, 0, Start, -1) == MaxFrom(r1, 0, Start, -1) by {
      assert "{first}" == "{" + "first" + "}";
      assert AllOrdinary("first");
      assert !IsAsciiNumeric('f');
      MaxOtherHead("{first}", "first", r1, -1);
    }
    assert MaxFrom(r1, 0, Start, -1) == MaxFrom(r2, 0, Start, -1) by {
      assert AllOrdinary(" ");
      MaxPlainHead(" ", r2, Start, -1);
    }
    MaxIndexOfNamesOnlyFrom2(r2);
  }

  /** The part of the maximum pass from piece 2 on. */
  lemma MaxIndexOfNamesOnlyFrom2(r: string)
    requires r == "{second}" + (" " + ("{third}"))
    ensures MaxFrom(r, 0, Start, -1) == -1
  {
    var r4 := "{third}";
    var r3 := " " + r4;
    var r2 := "{second}" + r3;
    assert r == r2;
    assert MaxFrom(r2, 0, Start, -1) == MaxFrom(r3, 0, Start, -1) by {
      assert "{second}" == "{" + "second" + "}";
      assert AllOrdinary("second");
      assert !IsAsciiNumeric('s');
      MaxOtherHead("{second}", "second", r3, -1);
    }
    assert MaxFrom(r3, 0, Start, -1) == MaxFrom(r4, 0, Start, -1) by {
      assert AllOrdinary(" ");
      MaxPlainHead(" ", r4, Start, -1);
    }
    MaxIndexOfNamesOnlyFrom4(r4);
  }

  /** The part of the maximum pass from piece 4 on. */
  lemma MaxIndexOfNamesOnlyFrom4(r: string)
    requires r == "{third}"
    ensures MaxFrom(r, 0, Start, -1) == -1
  {
    var r5 := "";
    var r4 := "{third}" + r5;
    assert r == r4;
    assert MaxFrom(r4, 0, Start, -1) == MaxFrom(r5, 0, Start, -1) by {
      assert "{third}" == "{" + "third" + "}";
      assert AllOrdinary("third");
      assert !IsAsciiNumeric('t');
      MaxOtherHead("{third}", "third", r5, -1);
    }
    assert MaxFrom(r5, 0, Start, -1) == -1;
  }

  /** Without explicit indices the names are numbered from 0. */
  lemma NamesNumberedFromZero(s: string)
    requires s == "{first}" + (" " + ("{second}" + (" " + ("{third}"))))
    ensures NamesToIndex(s).text == "{0}" + (" " + ("{1}" + (" " + ("{2}"))))
    ensures NamesToIndex(s).alloc.nameToIndex == map["first" := 0, "second" := 1, "third" := 2]
  {
    MaxIndexOfNamesOnly(s);
    var r1 := " " + ("{second}" + (" " + ("{third}")));
    var r0 := "{first}" + r1;
    assert s == r0;
    assert NamesFrom(r0, 0, Start, Allocation(map[], -1)) == Rewrite("{0}" + NamesFrom(r1, 0, Start, Allocation(map["first" := 0], 0)).text, NamesFrom(r1, 0, Start, Allocation(map["first" := 0], 0)).alloc) by {
      assert "{first}" == "{" + "first" + "" + "}";
      assert AllIn("first", Letters);
      assert AllOrdinary("");
      assert ComputeIfAbsent(Allocation(map[], -1), "first") == (Allocation(map["first" := 0], 0), 0);
      assert IntToString(0) == "0";
      assert "{0}" == "{" + "0" + "" + "}";
      NamesIndexHead("{first}", "first", "", r1, Allocation(map[], -1));
    }
    NamesNumberedFromZeroFrom1(r1);
  }

  /** The part of the rewrite from piece 1 on. */
  lemma NamesNumberedFromZeroFrom1(r: string)
    requires r == " " + ("{second}" + (" " + ("{third}")))
    ensures NamesFrom(r, 0, Start, Allocation(map["first" := 0], 0)) == Rewrite(" " + ("{1}" + (" " + ("{2}"))), Allocation(map["first" := 0, "second" := 1, "third" := 2], 2))
  {
    var r2 := "{second}" + (" " + ("{third}"));
    var r1 := " " + r2;
    assert r == r1;
    assert NamesFrom(r1, 0, Start, Allocation(map["first" := 0], 0)) == Rewrite(" " + NamesFrom(r2, 0, Start, Allocation(map["first" := 0], 0)).text, NamesFrom(r2, 0, Start, Allocation(map["first" := 0], 0)).alloc) by {
      assert AllOrdinary(" ");
      NamesPlainHead(" ", r2, Start, Allocation(map["first" := 0], 0));
    }
    NamesNumberedFromZeroFrom2(r2);
  }

  /** The part of the rewrite from piece 2 on. */
  lemma NamesNumberedFromZeroFrom2(r: string)
    requires r == "{second}" + (" " + ("{third}"))
    ensures NamesFrom(r, 0, Start, Allocation(map["first" := 0], 0)) == Rewrite("{1}" + (" " + ("{2}")), Allocation(map["first" := 0, "second" := 1, "third" := 2], 2))
  {
    var r3 := " " + ("{third}");
    var r2 := "{second}" + r3;
    assert r == r2;
    assert NamesFrom(r2, 0, Start, Allocation(map["first" := 0], 0)) == Rewrite("{1}" + NamesFrom(r3, 0, Start, Allocation(map["first" := 0, "second" := 1], 1)).text, NamesFrom(r3, 0, Start, Allocation(map["first" := 0, "second" := 1], 1)).alloc) by {
      assert "{second}" == "{" + "second" + "" + "}";
      assert AllIn("second", Letters);
      assert AllOrdinary("");
      assert ComputeIfAbsent(Allocation(map["first" := 0], 0), "second") == (Allocation(map["first" := 0, "second" := 1], 1), 1);
      assert IntToString(1) == "1";
      assert "{1}" == "{" + "1" + "" + "}";
      NamesIndexHead("{second}", "second", "", r3, Allocation(map["first" := 0], 0));
    }
    NamesNumberedFromZeroFrom3(r3);
  }

  /** The part of the rewrite from piece 3 on. */
  lemma NamesNumberedFromZeroFrom3(r: string)
    requires r == " " + ("{third}")
    ensures NamesFrom(r, 0, Start, Allocation(map["first" := 0, "second" := 1], 1)) == Rewrite(" " + ("{2}"), Allocation(map["first" := 0, "second" := 1, "third" := 2], 2))
  {
    var r4 := "{third}";
    var r3 := " " + r4;
    assert r == r3;
    assert NamesFrom(r3, 0, Start, Allocation(map["first" := 0, "second" := 1], 1)) == Rewrite(" " + NamesFrom(r4, 0, Start, Allocation(map["first" := 0, "second" := 1], 1)).text, NamesFrom(r4, 0, Start, Allocation(map["first" := 0, "second" := 1], 1)).alloc) by {
      assert AllOrdinary(" ");
      NamesPlainHead(" ", r4, Start, Allocation(map["first" := 0, "second" := 1], 1));
    }
    NamesNumberedFromZeroFrom4(r4);
  }

  /** The part of the rewrite from piece 4 on. */
  lemma NamesNumberedFromZeroFrom4(r: string)
    requires r == "{third}"
    ensures NamesFrom(r, 0, Start, Allocation(map["first" := 0, "second" := 1], 1)) == Rewrite("{2}", Allocation(map["first" := 0, "second" := 1, "third" := 2], 2))
  {
    var r5 := "";
    var r4 := "{third}" + r5;
    assert r == r4;
    assert NamesFrom(r4, 0, Start, Allocation(map["first" := 0, "second" := 1], 1)) == Rewrite("{2}" + NamesFrom(r5, 0, Start, Allocation(map["first" := 0, "second" := 1, "third" := 2], 2)).text, NamesFrom(r5, 0, Start, Allocation(map["first" := 0, "second" := 1, "third" := 2], 2)).alloc) by {
      assert "{third}" == "{" + "third" + "" + "}";
      assert AllIn("third", Letters);
      assert AllOrdinary("");
      assert ComputeIfAbsent(Allocation(map["first" := 0, "second" := 1], 1), "third") == (Allocation(map["first" := 0, "second" := 1, "third" := 2], 2), 2);
      assert IntToString(2) == "2";
      assert "{2}" == "{" + "2" + "" + "}";
      NamesIndexHead("{third}", "third", "", r5, Allocation(map["first" := 0, "second" := 1], 1));
    }
    assert NamesFrom(r5, 0, Start, Allocation(map["first" := 0, "second" := 1, "third" := 2], 2)) == Rewrite("", Allocation(map["first" := 0, "second" := 1, "third" := 2], 2));
  }
}

=== FILE: properties_format.dfy ===
/** AbstractPropertiesFormat with its two strategies: a property set written as
    key1=value1;key2=value2; where the special characters '=' and ';' inside keys and values are
    written twice (char insertion). PropertiesFormat exports the entries sorted by key,
    LinkedPropertiesFormat in insertion order. */
module PropertiesFormat {
  import opened Wrappers

  const KeyValueSeparator: char := '='
  const PropertySeparator: char := ';'

  /** One property; a null value is None. */
  datatype Entry = Entry(key: string, value: Option<string>)

  /** A property set in insertion order, with put replacing the value of an existing key in place
      (a LinkedHashMap; for the hash-table Properties the order carries no meaning). */
  type PropertySet = seq<Entry>

  /** The two concrete formats. */
  datatype Kind = Sorted | Linked

  predicate DistinctKeys(ps: PropertySet) {
    forall i, j :: 0 <= i < j < |ps| ==> ps[i].key != ps[j].key
  }

  predicate HasKey(ps: PropertySet, key: string) {
    exists i :: 0 <= i < |ps| && ps[i].key == key
  }

  /** createNewPropertySet: both formats start from an empty set. */
  function CreateNewPropertySet(kind: Kind): (r: PropertySet)
    ensures |r| == 0
  {
    []
  }

  /** The position of key in the set, or -1. */
  function IndexOfKey(ps: PropertySet, key: string): (r: int)
    ensures -1 <= r < |ps|
    ensures r >= 0 ==> ps[r].key == key
    ensures r < 0 <==> !HasKey(ps, key)
    ensures DistinctKeys(ps) && r >= 0 ==> forall i :: 0 <= i < |ps| && i != r ==> ps[i].key != key
    decreases |ps|
  {
    if ps == [] then -1
    else if ps[|ps| - 1].key == key then |ps| - 1
    else
      var r := IndexOfKey(ps[..|ps| - 1], key);
      assert HasKey(ps, key) ==> HasKey(ps[..|ps| - 1], key) by {
        if HasKey(ps, key) {
          var i :| 0 <= i < |ps| && ps[i].key == key;
          assert ps[..|ps| - 1][i].key == key;
        }
      }
      r
  }

  /** Map.put: replaces the value of an existing key where it stands, or appends a new entry. */
  function Put(ps: PropertySet, key: string, value: Option<string>): (r: PropertySet)
    ensures Entry(key, value) in r
    ensures HasKey(ps, key) ==> |r| == |ps|
    ensures !HasKey(ps, key) ==> r == ps + [Entry(key, value)]
    ensures forall i :: 0 <= i < |ps| && ps[i].key != key ==> r[i] == ps[i]
    ensures DistinctKeys(ps) ==> DistinctKeys(r)
  {
    var i := IndexOfKey(ps, key);
    if i < 0 then ps + [Entry(key, value)]
    else
      var r := ps[i := Entry(key, value)];
      assert r[i] == Entry(key, value);
      r
  }

  predicate IsSpecial(c: char) {
    c == KeyValueSeparator || c == PropertySeparator
  }

  /** encode: every character copied, each special character twice. */
  function Encode(v: string): (r: string)
    ensures |r| >= |v|
    ensures v != [] ==> r != [] && r[0] == v[0]
    ensures v != [] && IsSpecial(v[0]) ==> |r| >= 2 && r[1] == v[0]
  {
    if v == [] then ""
    else (if IsSpecial(v[0]) then [v[0], v[0]] else [v[0]]) + Encode(v[1..])
  }

  /** Text without special characters is written as it is. */
  lemma {:induction false} EncodePlain(v: string)
    requires forall i :: 0 <= i < |v| ==> !IsSpecial(v[i])
    ensures Encode(v) == v
    decreases |v|
  {
    if v != [] {
      EncodePlain(v[1..]);
      assert v == [v[0]] + v[1..];
    }
  }

  /** The text decode produced and the index after the separator (or at the end of the source). */
  datatype Decoded = Decoded(text: string, next: nat)

  /** isDoubleChar: the character at i is repeated at i + 1. */
  predicate IsDoubleChar(src: string, i: nat)
    requires i < |src|
  {
    i + 1 < |src| && src[i] == src[i + 1]
  }

  /** decode(source, pos, separator) from index i: ordinary characters are copied, a doubled
      special character is copied once, the separator ends the value; any other special character
      fails with its index as error index (the parse index is then restored). Running into the end
      of the source ends the value without error. */
  function Decode(src: string, i: nat, sep: char): (r: Result<Decoded, nat>)
    requires i <= |src|
    ensures r.Ok? ==> i <= r.value.next <= |src| && (i < |src| ==> i < r.value.next)
    ensures r.Ok? && r.value.next < |src| ==> 0 < r.value.next && src[r.value.next - 1] == sep
    ensures r.Err? ==> (i <= r.error < |src| && IsSpecial(src[r.error]) && src[r.error] != sep
                        && !IsDoubleChar(src, r.error))
    decreases |src| - i
  {
    if i == |src| then Ok(Decoded("", i))
    else
      var c := src[i];
      if !IsSpecial(c) then
        match Decode(src, i + 1, sep)
        case Ok(d) => Ok(Decoded([c] + d.text, d.next))
        case Err(e) => Err(e)
      else if IsDoubleChar(src, i) then
        match Decode(src, i + 2, sep)
        case Ok(d) => Ok(Decoded([c] + d.text, d.next))
        case Err(e) => Err(e)
      else if c == sep then Ok(Decoded("", i + 1))
      else Err(i)
  }

  /** What encode writes for one character: the character, twice if it is special. */
  function EncodeChar(c: char): (r: string)
    ensures |r| == (if IsSpecial(c) then 2 else 1) && r[0] == c && r[|r| - 1] == c
  {
    if IsSpecial(c) then [c, c] else [c]
  }

  /** encode of a non-empty text: its first character encoded, then the rest. */
  lemma EncodeCons(s: string)
    requires s != []
    ensures Encode(s) == EncodeChar(s[0]) + Encode(s[1..])
  {
  }

  /** encode of c followed by t: c encoded, then encode(t). */
  lemma EncodeOf(s: string, c: char, t: string, et: string)
    requires s == [c] + t && Encode(t) == et
    ensures Encode(s) == EncodeChar(c) + et
  {
    EncodeCons(s);
    assert s[0] == c && s[1..] == t;
  }

  /** decode copies the character at i, read from w source characters (an ordinary one, or a
      doubled special one), in front of whatever the rest decodes to. */
  lemma DecodeCopies(src: string, i: nat, sep: char, w: nat)
    requires i + w <= |src|
    requires (w == 1 && !IsSpecial(src[i])) || (w == 2 && IsSpecial(src[i]) && src[i + 1] == src[i])
    ensures Decode(src, i, sep) == match Decode(src, i + w, sep)
                                   case Ok(d) => Ok(Decoded([src[i]] + d.text, d.next))
                                   case Err(e) => Err(e)
  {
  }

  /** A slice holding a head of one or two characters and then t: where those stand. */
  lemma HeadOf(src: string, i: nat, j: nat, h: string, t: string)
    requires i <= j <= |src| && src[i..j] == h + t && 1 <= |h| <= 2
    ensures i + |h| <= j && src[i] == h[0] && (|h| == 2 ==> src[i + 1] == h[1])
    ensures src[i + |h|..j] == t
  {
    assert src[i] == src[i..j][0];
    if |h| == 2 {
      assert src[i + 1] == src[i..j][1];
    }
    assert src[i + |h|..j] == src[i..j][|h|..];
  }

  /** The first encoded character of a slice stands at its head. */
  lemma EncodedHead(src: string, i: nat, j: nat, s: string)
    requires s != [] && i <= j <= |src| && src[i..j] == Encode(s)
    ensures var w := |EncodeChar(s[0])|;
            && |Encode(s)| == w + |Encode(s[1..])|
            && i + w <= j && src[i] == s[0] && (w == 2 ==> src[i + 1] == s[0])
            && src[i + w..j] == Encode(s[1..])
  {
    EncodeCons(s);
    HeadOf(src, i, j, EncodeChar(s[0]), Encode(s[1..]));
  }

  /** decode reads the first character of s from w source characters at i, and then the rest
      of s up to next. */
  lemma DecodeStep(src: string, i: nat, sep: char, w: nat, s: string, next: nat)
    requires s != [] && i + w <= |src|
    requires (w == 1 && !IsSpecial(s[0])) || (w == 2 && IsSpecial(s[0]) && src[i + 1] == s[0])
    requires src[i] == s[0]
    requires Decode(src, i + w, sep) == Ok(Decoded(s[1..], next))
    ensures Decode(src, i, sep) == Ok(Decoded(s, next))
  {
    DecodeCopies(src, i, sep, w);
    assert [s[0]] + s[1..] == s;
  }

  /** Decoding encode(s), which ends at j, followed by the separator returns s and consumes
      exactly that text, as long as the separator is not followed by a second copy of itself. */
  lemma {:induction false} DecodeEncodeAt(src: string, i: nat, j: nat, s: string, sep: char)
    requires IsSpecial(sep) && j == i + |Encode(s)| && j < |src| && src[i..j] == Encode(s)
    requires src[j] == sep && !IsDoubleChar(src, j)
    ensures Decode(src, i, sep) == Ok(Decoded(s, j + 1))
    decreases |s|
  {
    if s != [] {
      var w := |EncodeChar(s[0])|;
      EncodedHead(src, i, j, s);
      DecodeEncodeAt(src, i + w, j, s[1..], sep);
      DecodeStep(src, i, sep, w, s, j + 1);
    }
  }

  /** Decoding encode(s) followed by the separator returns s and consumes exactly that text, as
      long as the separator is not followed by a second copy of itself. */
  lemma DecodeEncode(src: string, i: nat, s: string, sep: char)
    requires IsSpecial(sep)
    requires i + |Encode(s)| < |src| && src[i..i + |Encode(s)|] == Encode(s)
    requires src[i + |Encode(s)|] == sep && !IsDoubleChar(src, i + |Encode(s)|)
    ensures Decode(src, i, sep) == Ok(Decoded(s, i + |Encode(s)| + 1))
  {
    DecodeEncodeAt(src, i, i + |Encode(s)|, s, sep);
  }

  /** An empty slice at the end of the source decodes to the empty text. */
  lemma DecodeEmptyTail(src: string, i: nat, j: nat, sep: char)
    requires j == |src| && i <= j && src[i..j] == []
    ensures Decode(src, i, sep) == Ok(Decoded([], j))
  {
    assert |src[i..j]| == 0;
  }

  /** Decoding encode(s) that runs up to the end j of the source returns s without a separator. */
  lemma {:induction false} DecodeEncodeUpTo(src: string, i: nat, j: nat, s: string, sep: char)
    requires j == |src| && i <= j && src[i..j] == Encode(s)
    ensures Decode(src, i, sep) == Ok(Decoded(s, j))
    decreases |s|
  {
    if s != [] {
      var w := |EncodeChar(s[0])|;
      var i' := i + w;
      EncodedHead(src, i, j, s);
      DecodeEncodeUpTo(src, i', j, s[1..], sep);
      DecodeStep(src, i, sep, w, s, j);
    } else {
      DecodeEmptyTail(src, i, j, sep);
    }
  }

  /** Decoding encode(s) that runs to the end of the source returns s without a separator. */
  lemma DecodeEncodeToEnd(src: string, i: nat, s: string, sep: char)
    requires i <= |src| && src[i..] == Encode(s)
    ensures Decode(src, i, sep) == Ok(Decoded(s, |src|))
  {
    assert src[i..|src|] == src[i..];
    DecodeEncodeUpTo(src, i, |src|, s, sep);
  }

  /** Text without special characters is copied up to the separator, or up to the end. */
  lemma {:induction false} DecodePlain(src: string, i: nat, j: nat, sep: char)
    requires IsSpecial(sep) && i <= j <= |src|
    requires forall k :: i <= k < j ==> !IsSpecial(src[k])
    requires j < |src| ==> src[j] == sep && !IsDoubleChar(src, j)
    ensures Decode(src, i, sep) == Ok(Decoded(src[i..j], if j < |src| then j + 1 else j))
    decreases j - i
  {
    if i < j {
      DecodePlain(src, i + 1, j, sep);
      assert src[i..j] == [src[i]] + src[i + 1..j];
    }
  }

  /** Encoding distributes over concatenation. */
  lemma {:induction false} EncodeAppend(a: string, b: string)
    ensures Encode(a + b) == Encode(a) + Encode(b)
    decreases |a|
  {
    if a != [] {
      var h, t := EncodeChar(a[0]), a[1..];
      EncodeCons(a + b);
      EncodeCons(a);
      assert (a + b)[0] == a[0] && (a + b)[1..] == t + b;
      EncodeAppend(t, b);
      assert h + (Encode(t) + Encode(b)) == (h + Encode(t)) + Encode(b);
    } else {
      assert a + b == b;
    }
  }

  /** Character.isWhitespace, restricted to ASCII. */
  predicate IsWhitespace(c: char) {
    c == ' ' || c == '\t' || c == '\n' || c == '\U{000B}' || c == '\U{000C}' || c == '\r'
    || c == '\U{001C}' || c == '\U{001D}' || c == '\U{001E}' || c == '\U{001F}'
  }

  /** StringUtils.isBlank for a non-null string: empty or only whitespace. */
  predicate IsBlank(s: string) {
    forall i :: 0 <= i < |s| ==> IsWhitespace(s[i])
  }

  /** String.trim removes leading characters up to ' '. */
  function TrimStart(s: string): (r: string)
    ensures |r| <= |s| && r == s[|s| - |r|..]
    ensures r == [] || r[0] > ' '
    ensures forall i :: 0 <= i < |s| - |r| ==> s[i] <= ' '
  {
    if s == [] || s[0] > ' ' then s else TrimStart(s[1..])
  }

  /** ... and trailing ones. */
  function TrimEnd(s: string): (r: string)
    ensures |r| <= |s| && r == s[..|r|]
    ensures r == [] || r[|r| - 1] > ' '
    ensures forall i :: |r| <= i < |s| ==> s[i] <= ' '
  {
    if s == [] || s[|s| - 1] > ' ' then s else TrimEnd(s[..|s| - 1])
  }

  /** A string trim leaves as it is. */
  predicate IsTrimmed(s: string) {
    s == [] || (s[0] > ' ' && s[|s| - 1] > ' ')
  }

  /** String.trim: s without the characters up to ' ' at either end. */
  function Trim(s: string): (r: string)
    ensures IsTrimmed(r) && |r| <= |s|
    ensures IsTrimmed(s) ==> r == s
  {
    TrimEnd(TrimStart(s))
  }

  /** trim drops leading characters up to ' ' and keeps the rest. */
  lemma {:induction false} TrimStartSkips(pre: string, x: string)
    requires forall i :: 0 <= i < |pre| ==> pre[i] <= ' '
    requires x == [] || x[0] > ' '
    ensures TrimStart(pre + x) == x
    decreases |pre|
  {
    if pre == [] {
      assert pre + x == x;
    } else {
      assert (pre + x)[1..] == pre[1..] + x;
      TrimStartSkips(pre[1..], x);
    }
  }

  /** ... and trailing ones. */
  lemma {:induction false} TrimEndSkips(x: string, post: string)
    requires forall i :: 0 <= i < |post| ==> post[i] <= ' '
    requires x == [] || x[|x| - 1] > ' '
    ensures TrimEnd(x + post) == x
    decreases |post|
  {
    if post == [] {
      assert x + post == x;
    } else {
      var p := post[..|post| - 1];
      assert (x + post)[..|x + post| - 1] == x + p;
      TrimEndSkips(x, p);
    }
  }

  /** trim of a trimmed text padded with characters up to ' ' is that text. */
  lemma TrimPadded(pre: string, core: string, post: string)
    requires forall i :: 0 <= i < |pre| ==> pre[i] <= ' '
    requires forall i :: 0 <= i < |post| ==> post[i] <= ' '
    requires core != [] && IsTrimmed(core)
    ensures Trim(pre + core + post) == core
  {
    assert pre + core + post == pre + (core + post);
    TrimStartSkips(pre, core + post);
    TrimEndSkips(core, post);
  }

  /** What one round of the parse loop read: the end of the data, or one property and the
      parse index after it. */
  datatype Step = Done | Property(key: string, value: string, next: nat)

  /** One round of the loop of parseObject(source, pos) from parse index i < |src|: a blank key at
      the end of the source ends parsing, a blank key elsewhere is an error at the index after it;
      a key at the end of the source gets the value "". Keys and values are trimmed. The error is
      the error index. */
  function ParseEntry(src: string, i: nat): (r: Result<Step, nat>)
    requires i < |src|
    ensures r.Err? ==> i <= r.error <= |src|
    ensures r.Ok? && r.value.Property? ==> i < r.value.next <= |src|
    ensures r.Ok? && r.value.Property? ==> IsTrimmed(r.value.key) && IsTrimmed(r.value.value)
  {
    match Decode(src, i, KeyValueSeparator)
    case Err(e) => Err(e)
    case Ok(k) =>
      if IsBlank(k.text) then
        if k.next == |src| then Ok(Done) else Err(k.next)
      else if k.next < |src| then
        match Decode(src, k.next, PropertySeparator)
        case Err(e) => Err(e)
        case Ok(v) => Ok(Property(Trim(k.text), Trim(v.text), v.next))
      else Ok(Property(Trim(k.text), "", |src|))
  }

  /** The loop of parseObject(source, pos) from parse index i, with the entries read so far; each
      property is put into the set, so a repeated key keeps its first place and its last value. */
  function ParseLoop(src: string, i: nat, acc: PropertySet): (r: Result<PropertySet, nat>)
    requires i <= |src|
    ensures r.Err? ==> i <= r.error <= |src|
    ensures r.Ok? ==> |r.value| >= |acc|
    ensures r.Ok? && DistinctKeys(acc) ==> DistinctKeys(r.value)
    decreases |src| - i
  {
    if i == |src| then Ok(acc)
    else
      match ParseEntry(src, i)
      case Err(e) => Err(e)
      case Ok(Done) => Ok(acc)
      case Ok(Property(k, v, next)) => ParseLoop(src, next, Put(acc, k, Some(v)))
  }

  /** parseObject(source, pos) from index start: the property set, or the error index, in which
      case the parse index is restored to start and no set is returned. */
  function ParseObject(kind: Kind, src: string, start: nat): (r: Result<PropertySet, nat>)
    requires start <= |src|
    ensures r.Err? ==> start <= r.error <= |src|
    ensures r.Ok? ==> DistinctKeys(r.value)
  {
    ParseLoop(src, start, CreateNewPropertySet(kind))
  }

  /** The ParseException of Format.parseObject(String), with the error offset. */
  datatype ParseError = ParseException(errorOffset: nat)

  /** parseProperties: null or blank text gives an empty set; otherwise the text must parse from
      index 0, or Format.parseObject throws, since on every error the index is reset to 0. */
  function ParseProperties(kind: Kind, source: Option<string>): (r: Result<PropertySet, ParseError>)
    ensures source.None? || IsBlank(source.value) ==> r == Ok([])
    ensures r.Ok? ==> DistinctKeys(r.value)
    ensures source.Some? && !IsBlank(source.value) ==>
              (r.Err? <==> ParseObject(kind, source.value, 0).Err?)
  {
    if source.None? || IsBlank(source.value) then Ok(CreateNewPropertySet(kind))
    else
      match ParseObject(kind, source.value, 0)
      case Err(e) => Err(ParseException(e))
      case Ok(ps) => Ok(ps)
  }

  /** One entry as format writes it: encode(key) '=' [encode(value)] ';'. */
  function FormatEntry(e: Entry): (r: string)
    ensures |r| >= |Encode(e.key)| + 2 && r[|r| - 1] == PropertySeparator
    ensures r[..|Encode(e.key)|] == Encode(e.key) && r[|Encode(e.key)|] == KeyValueSeparator
    ensures e.value.None? ==> r == Encode(e.key) + "=;"
  {
    Encode(e.key) + [KeyValueSeparator] + (if e.value.Some? then Encode(e.value.value) else "")
    + [PropertySeparator]
  }

  /** The entries in order, each written by FormatEntry. */
  function FormatEntries(es: seq<Entry>): (r: string)
    ensures es == [] <==> r == []
    ensures es != [] && es[0].key != [] ==> r[0] == es[0].key[0]
  {
    if es == [] then "" else FormatEntry(es[0]) + FormatEntries(es[1..])
  }

  /** String.compareTo(a, b) < 0: lexicographic order of the characters, a proper prefix first. */
  predicate KeyLess(a: string, b: string)
    decreases |a|
  {
    if a == [] then b != []
    else if b == [] then false
    else if a[0] != b[0] then a[0] < b[0]
    else KeyLess(a[1..], b[1..])
  }

  /** KeyLess is a strict total order. */
  lemma {:induction false} KeyLessStrictTotal(a: string, b: string)
    ensures !(KeyLess(a, b) && KeyLess(b, a))
    ensures a != b ==> KeyLess(a, b) || KeyLess(b, a)
    ensures !KeyLess(a, a)
    decreases |a|
  {
    if a != [] && b != [] && a[0] == b[0] {
      KeyLessStrictTotal(a[1..], b[1..]);
      if a != b {
        assert a == [a[0]] + a[1..] && b == [b[0]] + b[1..];
      }
    }
    if a != [] {
      KeyLessStrictTotal(a[1..], a[1..]);
    }
  }

  lemma {:induction false} KeyLessTransitive(a: string, b: string, c: string)
    requires KeyLess(a, b) && KeyLess(b, c)
    ensures KeyLess(a, c)
    decreases |a|
  {
    if a != [] && a[0] == b[0] && b[0] == c[0] {
      KeyLessTransitive(a[1..], b[1..], c[1..]);
    }
  }

  predicate SortedByKey(es: seq<Entry>) {
    forall i, j :: 0 <= i < j < |es| ==> KeyLess(es[i].key, es[j].key)
  }

  /** A key below the first of sorted entries is below all of them. */
  lemma BelowAll(k: string, es: seq<Entry>)
    requires SortedByKey(es) && es != [] && KeyLess(k, es[0].key)
    ensures forall j :: 0 <= j < |es| ==> KeyLess(k, es[j].key)
  {
    forall j | 0 < j < |es|
      ensures KeyLess(k, es[j].key)
    {
      KeyLessTransitive(k, es[0].key, es[j].key);
    }
  }

  /** A key below every key of es and below the key of e is below every key of a sequence
      holding the entries of es and e. */
  lemma BelowAllOf(k: string, es: seq<Entry>, e: Entry, r: seq<Entry>)
    requires KeyLess(k, e.key) && forall j :: 0 <= j < |es| ==> KeyLess(k, es[j].key)
    requires multiset(r) == multiset(es) + multiset{e}
    ensures forall j :: 0 <= j < |r| ==> KeyLess(k, r[j].key)
  {
    forall j | 0 <= j < |r|
      ensures KeyLess(k, r[j].key)
    {
      assert r[j] in multiset(r);
      if r[j] != e {
        assert r[j] in multiset(es);
        var m :| 0 <= m < |es| && es[m] == r[j];
      }
    }
  }

  /** An entry whose key is below every key of sorted entries can go in front of them. */
  lemma SortedCons(x: Entry, xs: seq<Entry>)
    requires SortedByKey(xs) && forall j :: 0 <= j < |xs| ==> KeyLess(x.key, xs[j].key)
    ensures SortedByKey([x] + xs)
  {
    var r := [x] + xs;
    forall i, j | 0 <= i < j < |r|
      ensures KeyLess(r[i].key, r[j].key)
    {
      assert r[j] == xs[j - 1];
      if i > 0 {
        assert r[i] == xs[i - 1];
      }
    }
  }

  /** TreeMap.put of a new key into entries sorted by key. */
  function Insert(e: Entry, es: seq<Entry>): (r: seq<Entry>)
    requires SortedByKey(es) && !HasKey(es, e.key)
    ensures SortedByKey(r)
    ensures multiset(r) == multiset(es) + multiset{e}
    decreases |es|
  {
    if es == [] then [e]
    else if KeyLess(e.key, es[0].key) then
      BelowAll(e.key, es);
      SortedCons(e, es);
      [e] + es
    else
      assert es == [es[0]] + es[1..];
      assert !HasKey(es[1..], e.key);
      var rest := Insert(e, es[1..]);
      KeyLessStrictTotal(e.key, es[0].key);
      BelowAllOf(es[0].key, es[1..], e, rest);
      SortedCons(es[0], rest);
      [es[0]] + rest
  }

  /** Sequences with the same entries have the same keys. */
  lemma SameEntriesSameKeys(x: seq<Entry>, y: seq<Entry>, key: string)
    requires multiset(x) == multiset(y)
    ensures HasKey(x, key) <==> HasKey(y, key)
  {
    if HasKey(x, key) {
      var i :| 0 <= i < |x| && x[i].key == key;
      assert x[i] in multiset(y);
      var j :| 0 <= j < |y| && y[j] == x[i];
    }
    if HasKey(y, key) {
      var i :| 0 <= i < |y| && y[i].key == key;
      assert y[i] in multiset(x);
      var j :| 0 <= j < |x| && x[j] == y[i];
    }
  }

  /** The last entry of a set with distinct keys has a key the entries before it lack. */
  lemma LastKeyNew(ps: PropertySet, init: PropertySet, last: Entry)
    requires DistinctKeys(ps) && ps != [] && init == ps[..|ps| - 1] && last == ps[|ps| - 1]
    ensures DistinctKeys(init) && !HasKey(init, last.key) && ps == init + [last]
  {
    forall i | 0 <= i < |init|
      ensures init[i].key != last.key
    {
      assert ps[i] == init[i];
    }
  }

  /** The TreeMap copy of a property set: its entries sorted by key. */
  function SortByKey(ps: PropertySet): (r: seq<Entry>)
    requires DistinctKeys(ps)
    ensures SortedByKey(r) && multiset(r) == multiset(ps)
    decreases |ps|
  {
    if ps == [] then []
    else
      var init := ps[..|ps| - 1];
      var last := ps[|ps| - 1];
      LastKeyNew(ps, init, last);
      var sorted := SortByKey(init);
      SameEntriesSameKeys(sorted, init, last.key);
      Insert(last, sorted)
  }

  /** Two key-sorted sequences with the same entries open with the same entry. */
  lemma SortedSameHead(a: seq<Entry>, b: seq<Entry>)
    requires SortedByKey(a) && SortedByKey(b) && multiset(a) == multiset(b) && a != []
    ensures b != [] && a[0] == b[0]
  {
    assert a[0] in multiset(b);
    var k :| 0 <= k < |b| && b[k] == a[0];
    assert b[0] in multiset(a);
    var m :| 0 <= m < |a| && a[m] == b[0];
    KeyLessStrictTotal(a[0].key, b[0].key);
    assert k == 0;
  }

  /** Dropping the same first entry from two sequences with the same entries leaves the same
      entries. */
  lemma SameTailEntries(a: seq<Entry>, b: seq<Entry>)
    requires a != [] && b != [] && a[0] == b[0] && multiset(a) == multiset(b)
    ensures multiset(a[1..]) == multiset(b[1..])
  {
    assert a == [a[0]] + a[1..];
    assert b == [b[0]] + b[1..];
    assert multiset(a) == multiset([a[0]]) + multiset(a[1..]);
    assert multiset(b) == multiset([a[0]]) + multiset(b[1..]);
    assert multiset(a[1..]) == multiset(a) - multiset([a[0]]);
  }

  /** Two key-sorted sequences with the same entries are equal. */
  lemma {:induction false} SortedUnique(a: seq<Entry>, b: seq<Entry>)
    requires SortedByKey(a) && SortedByKey(b) && multiset(a) == multiset(b)
    ensures a == b
    decreases |a|
  {
    if a == [] {
      assert |multiset(b)| == 0;
    } else {
      SortedSameHead(a, b);
      SameTailEntries(a, b);
      SortedUnique(a[1..], b[1..]);
      assert a == [a[0]] + a[1..];
      assert b == [b[0]] + b[1..];
    }
  }

  /** convertToExportPropertySet: PropertiesFormat copies into a TreeMap, ordered by key;
      LinkedPropertiesFormat exports the set itself, in insertion order. */
  function Export(kind: Kind, ps: PropertySet): (r: seq<Entry>)
    requires DistinctKeys(ps)
    ensures multiset(r) == multiset(ps)
    ensures kind == Sorted ==> SortedByKey(r)
    ensures kind == Linked ==> r == ps
  {
    match kind
    case Sorted => SortByKey(ps)
    case Linked => ps
  }

  /** format: the exported entries, each as encode(key) '=' [encode(value)] ';'. */
  function Format(kind: Kind, ps: PropertySet): (r: string)
    requires DistinctKeys(ps)
    ensures ps == [] <==> r == []
  {
    FormatEntries(Export(kind, ps))
  }

  /** Both formats write a single entry as that entry. */
  lemma FormatOne(kind: Kind, e: Entry)
    ensures Format(kind, [e]) == FormatEntry(e)
  {
    assert SortByKey([e]) == Insert(e, []) == [e];
    assert FormatEntries([e]) == FormatEntry(e) + FormatEntries([]);
  }

  /** PropertiesFormat writes the same text for two property sets with the same entries, whatever
      the order they were put in. */
  lemma SortedFormatIgnoresInsertionOrder(p: PropertySet, q: PropertySet)
    requires DistinctKeys(p) && DistinctKeys(q) && multiset(p) == multiset(q)
    ensures Format(Sorted, p) == Format(Sorted, q)
  {
    SortedUnique(SortByKey(p), SortByKey(q));
  }

  /** An entry that format writes and parse reads back unchanged: parse trims keys and values,
      rejects a blank key, reads a null value as "", takes a '=' that opens a value as a doubled
      '=' of the key, and a ';' that opens the next key as a doubled ';' of the value. */
  predicate FormatsBack(e: Entry) {
    && e.key != [] && IsTrimmed(e.key) && e.key[0] != PropertySeparator
    && e.value.Some? && IsTrimmed(e.value.value)
    && (e.value.value == [] || e.value.value[0] != KeyValueSeparator)
  }

  /** A trimmed key that is not empty is not blank. */
  lemma TrimmedKeyNotBlank(k: string)
    requires k != [] && IsTrimmed(k)
    ensures !IsBlank(k) && Trim(k) == k
  {
    assert !IsWhitespace(k[0]);
  }

  /** A slice holding x + y holds x up to m and then y. */
  lemma SplitSlice(src: string, i: nat, m: nat, j: nat, x: string, y: string)
    requires i <= j <= |src| && m == i + |x| && src[i..j] == x + y
    ensures m <= j && src[i..m] == x && src[m..j] == y
  {
    assert src[i..m] == src[i..j][..|x|];
    assert src[m..j] == src[i..j][|x|..];
  }

  /** A rest of the source holding x + y holds x up to m and then y. */
  lemma SplitTail(src: string, i: nat, m: nat, x: string, y: string)
    requires i <= |src| && m == i + |x| && src[i..] == x + y
    ensures m <= |src| && src[i..m] == x && src[m..] == y
  {
    assert src[i..m] == src[i..][..|x|];
    assert src[m..] == src[i..][|x|..];
  }

  /** Where the parts of ek '=' ev ';' stand in the source: ek up to p, the '=' at p, ev from j
      up to m, the ';' at m. */
  lemma EntryLayout(src: string, i: nat, ek: string, ev: string, p: nat, j: nat, m: nat, n: nat)
    requires p == i + |ek| && j == p + 1 && m == j + |ev| && n == m + 1 && n <= |src|
    requires src[i..n] == ek + [KeyValueSeparator] + ev + [PropertySeparator]
    ensures src[i..p] == ek && src[p] == KeyValueSeparator
    ensures src[j..m] == ev && src[m] == PropertySeparator
    ensures ev != [] ==> src[j] == ev[0]
  {
    SplitSlice(src, i, m, n, ek + [KeyValueSeparator] + ev, [PropertySeparator]);
    SplitSlice(src, i, j, m, ek + [KeyValueSeparator], ev);
    SplitSlice(src, i, p, j, ek, [KeyValueSeparator]);
    assert src[p] == src[p..j][0];
    assert src[m] == src[m..n][0];
    if ev != [] {
      assert src[j] == src[j..m][0];
    }
  }

  /** encode keeps the first character in front. */
  lemma EncodeOpensAlike(v: string)
    requires v == [] || v[0] != KeyValueSeparator
    ensures Encode(v) == [] || Encode(v)[0] != KeyValueSeparator
  {
  }

  /** The '=' at p is single when the text after it opens with something else. */
  lemma SingleSeparator(src: string, p: nat, ev: string)
    requires p + 1 < |src| && src[p] == KeyValueSeparator
    requires ev == [] || ev[0] != KeyValueSeparator
    requires ev != [] ==> src[p + 1] == ev[0]
    requires ev == [] ==> src[p + 1 + |ev|] == PropertySeparator
    ensures !IsDoubleChar(src, p)
  {
  }

  /** The key of encode(k) '=' encode(v) ';' decodes to k, unless v opens with '='. */
  lemma KeyDecodes(src: string, i: nat, k: string, v: string, j: nat, n: nat)
    requires v == [] || v[0] != KeyValueSeparator
    requires j == i + |Encode(k)| + 1 && n == j + |Encode(v)| + 1 <= |src|
    requires src[i..n] == Encode(k) + [KeyValueSeparator] + Encode(v) + [PropertySeparator]
    ensures Decode(src, i, KeyValueSeparator) == Ok(Decoded(k, j))
  {
    var ek, ev := Encode(k), Encode(v);
    var p, m := j - 1, n - 1;
    EntryLayout(src, i, ek, ev, p, j, m, n);
    EncodeOpensAlike(v);
    SingleSeparator(src, p, ev);
    DecodeEncodeAt(src, i, p, k, KeyValueSeparator);
  }

  /** ... and its value decodes to v, unless the next text opens with ';'. */
  lemma ValueDecodes(src: string, i: nat, k: string, v: string, j: nat, n: nat)
    requires j == i + |Encode(k)| + 1 && n == j + |Encode(v)| + 1 <= |src|
    requires src[i..n] == Encode(k) + [KeyValueSeparator] + Encode(v) + [PropertySeparator]
    requires n < |src| ==> src[n] != PropertySeparator
    ensures Decode(src, j, PropertySeparator) == Ok(Decoded(v, n))
  {
    var ek, ev := Encode(k), Encode(v);
    var p, m := j - 1, n - 1;
    EntryLayout(src, i, ek, ev, p, j, m, n);
    DecodeEncodeAt(src, j, m, v, PropertySeparator);
  }

  /** A round of the parse loop reads a key that is not blank, its '=' and its value. */
  lemma ParseEntryOf(src: string, i: nat, k: string, j: nat, v: string, n: nat)
    requires i < j < |src| && !IsBlank(k)
    requires Decode(src, i, KeyValueSeparator) == Ok(Decoded(k, j))
    requires Decode(src, j, PropertySeparator) == Ok(Decoded(v, n))
    ensures ParseEntry(src, i) == Ok(Property(Trim(k), Trim(v), n))
  {
  }

  /** Text without '=' and ';'. */
  predicate IsPlain(t: string) {
    forall k :: 0 <= k < |t| ==> !IsSpecial(t[k])
  }

  /** Where the parts of key '=' value ';' rest stand in the source: key up to p, the '=' at p,
      value from j up to m, the ';' at m, rest from n on. */
  lemma PlainLayout(src: string, i: nat, key: string, value: string, rest: string,
                    p: nat, j: nat, m: nat, n: nat)
    requires p == i + |key| && j == p + 1 && m == j + |value| && n == m + 1 && i <= |src|
    requires src[i..] == key + ([KeyValueSeparator] + (value + ([PropertySeparator] + rest)))
    ensures n <= |src| && src[i..p] == key && src[p] == KeyValueSeparator
    ensures src[j..m] == value && src[m] == PropertySeparator && src[n..] == rest
  {
    SplitTail(src, i, p, key, [KeyValueSeparator] + (value + ([PropertySeparator] + rest)));
    SplitTail(src, p, j, [KeyValueSeparator], value + ([PropertySeparator] + rest));
    SplitTail(src, j, m, value, [PropertySeparator] + rest);
    SplitTail(src, m, n, [PropertySeparator], rest);
    assert src[p] == src[p..][0];
    assert src[m] == src[m..][0];
  }

  /** A plain slice holds no special character. */
  lemma PlainSlice(src: string, i: nat, j: nat, t: string)
    requires i <= j <= |src| && src[i..j] == t && IsPlain(t)
    ensures forall k :: i <= k < j ==> !IsSpecial(src[k])
    ensures i < j ==> src[i] == t[0]
  {
    forall k | i <= k < j
      ensures !IsSpecial(src[k])
    {
      assert src[k] == t[k - i];
    }
  }

  /** The plain key of key '=' value ';' decodes to key. */
  lemma PlainKeyDecodes(src: string, i: nat, key: string, value: string, p: nat, j: nat, m: nat)
    requires i <= p && j == p + 1 && j <= m < |src| && IsPlain(key) && IsPlain(value)
    requires src[i..p] == key && src[p] == KeyValueSeparator
    requires src[j..m] == value && src[m] == PropertySeparator
    ensures Decode(src, i, KeyValueSeparator) == Ok(Decoded(key, j))
  {
    PlainSlice(src, i, p, key);
    PlainSlice(src, j, m, value);
    DecodePlain(src, i, p, KeyValueSeparator);
  }

  /** The plain value of key '=' value ';' rest decodes to value, unless rest opens with ';'. */
  lemma PlainValueDecodes(src: string, j: nat, value: string, rest: string, m: nat, n: nat)
    requires j <= m && n == m + 1 && n <= |src| && IsPlain(value)
    requires src[j..m] == value && src[m] == PropertySeparator && src[n..] == rest
    requires rest == [] || rest[0] != PropertySeparator
    ensures Decode(src, j, PropertySeparator) == Ok(Decoded(value, n))
  {
    PlainSlice(src, j, m, value);
    if n < |src| {
      assert src[n] == src[n..][0];
    }
    DecodePlain(src, j, m, PropertySeparator);
  }

  /** A round of the parse loop over a plain key that is not blank, '=', a plain value and ';',
      followed by text that does not open with ';', reads their trimmed texts. */
  lemma PlainEntryAt(src: string, i: nat, key: string, value: string, rest: string, j: nat, n: nat)
    requires IsPlain(key) && IsPlain(value) && !IsBlank(key) && (rest == [] || rest[0] != PropertySeparator)
    requires j == i + |key| + 1 && n == j + |value| + 1 && i <= |src|
    requires src[i..] == key + ([KeyValueSeparator] + (value + ([PropertySeparator] + rest)))
    ensures i < n <= |src| && ParseEntry(src, i) == Ok(Property(Trim(key), Trim(value), n))
    ensures src[n..] == rest
  {
    var p, m := j - 1, n - 1;
    PlainLayout(src, i, key, value, rest, p, j, m, n);
    PlainKeyDecodes(src, i, key, value, p, j, m);
    PlainValueDecodes(src, j, value, rest, m, n);
    ParseEntryOf(src, i, key, j, value, n);
  }

  /** A round of the parse loop over encode(k) '=' encode(v) ';' reads the property k = v. */
  lemma EntryParses(src: string, i: nat, k: string, v: string, n: nat)
    requires k != [] && IsTrimmed(k) && IsTrimmed(v) && (v == [] || v[0] != KeyValueSeparator)
    requires n == i + |Encode(k)| + |Encode(v)| + 2 <= |src|
    requires src[i..n] == Encode(k) + [KeyValueSeparator] + Encode(v) + [PropertySeparator]
    requires n < |src| ==> src[n] != PropertySeparator
    ensures i < |src| && ParseEntry(src, i) == Ok(Property(k, v, n))
  {
    var j := i + |Encode(k)| + 1;
    KeyDecodes(src, i, k, v, j, n);
    ValueDecodes(src, i, k, v, j, n);
    TrimmedKeyNotBlank(k);
    ParseEntryOf(src, i, k, j, v, n);
    assert Trim(v) == v;
  }

  /** A round of the parse loop whose key decodes up to j and whose value, if there is text
      after the '=', runs to the end of the source. */
  lemma ParseEntryToEnd(src: string, i: nat, k: string, j: nat, v: string)
    requires i < j <= |src| && !IsBlank(k)
    requires Decode(src, i, KeyValueSeparator) == Ok(Decoded(k, j))
    requires j < |src| ==> Decode(src, j, PropertySeparator) == Ok(Decoded(v, |src|))
    requires j == |src| ==> v == []
    ensures ParseEntry(src, i) == Ok(Property(Trim(k), Trim(v), |src|))
  {
  }

  /** Where the parts of ek '=' ev stand in the source when they run to its end: ek up to p,
      the '=' at p, ev from j on. */
  lemma UnterminatedLayout(src: string, i: nat, ek: string, ev: string, p: nat, j: nat)
    requires i <= |src| && p == i + |ek| && j == p + 1
    requires src[i..] == ek + [KeyValueSeparator] + ev
    ensures j <= |src| && src[i..p] == ek && src[p] == KeyValueSeparator && src[j..] == ev
  {
    SplitTail(src, i, j, ek + [KeyValueSeparator], ev);
    SplitSlice(src, i, p, j, ek, [KeyValueSeparator]);
    assert src[p] == src[p..j][0];
  }

  /** The '=' at p is single when the rest of the source after it opens with something else. */
  lemma SingleBeforeTail(src: string, p: nat, j: nat, ev: string)
    requires j == p + 1 && j <= |src| && src[p] == KeyValueSeparator && src[j..] == ev
    requires ev == [] || ev[0] != KeyValueSeparator
    ensures !IsDoubleChar(src, p)
  {
    if j < |src| {
      assert src[j] == src[j..][0];
    }
  }

  /** The key of encode(k) '=' encode(v), running to the end of the source, decodes to k. */
  lemma UnterminatedKeyDecodes(src: string, i: nat, k: string, v: string, j: nat)
    requires v == [] || v[0] != KeyValueSeparator
    requires i <= |src| && src[i..] == Encode(k) + [KeyValueSeparator] + Encode(v)
    requires j == i + |Encode(k)| + 1
    ensures j <= |src| && Decode(src, i, KeyValueSeparator) == Ok(Decoded(k, j))
  {
    var ek, ev := Encode(k), Encode(v);
    var p := j - 1;
    UnterminatedLayout(src, i, ek, ev, p, j);
    EncodeOpensAlike(v);
    SingleBeforeTail(src, p, j, ev);
    DecodeEncodeAt(src, i, p, k, KeyValueSeparator);
  }

  /** ... and its value, if there is text after the '=', decodes to v. */
  lemma UnterminatedValueDecodes(src: string, i: nat, k: string, v: string, j: nat)
    requires i <= |src| && src[i..] == Encode(k) + [KeyValueSeparator] + Encode(v)
    requires j == i + |Encode(k)| + 1
    ensures j < |src| ==> Decode(src, j, PropertySeparator) == Ok(Decoded(v, |src|))
    ensures j == |src| ==> v == []
  {
    var ek, ev := Encode(k), Encode(v);
    UnterminatedLayout(src, i, ek, ev, j - 1, j);
    if j < |src| {
      DecodeEncodeToEnd(src, j, v, PropertySeparator);
    } else {
      assert |ev| == 0;
    }
  }

  /** A round of the parse loop over encode(k) '=' encode(v) running to the end of the source
      (the final ';' left out) reads the property k = v. */
  lemma UnterminatedEntryParses(src: string, i: nat, k: string, v: string)
    requires k != [] && IsTrimmed(k) && IsTrimmed(v) && (v == [] || v[0] != KeyValueSeparator)
    requires i <= |src| && src[i..] == Encode(k) + [KeyValueSeparator] + Encode(v)
    ensures i < |src| && ParseEntry(src, i) == Ok(Property(k, v, |src|))
  {
    var j := i + |Encode(k)| + 1;
    UnterminatedKeyDecodes(src, i, k, v, j);
    UnterminatedValueDecodes(src, i, k, v, j);
    TrimmedKeyNotBlank(k);
    ParseEntryToEnd(src, i, k, j, v);
    assert Trim(v) == v;
  }

  /** A key at the end of the source, without '=', gets the value "". */
  lemma TrailingKeyParses(src: string, i: nat, k: string)
    requires k != [] && IsTrimmed(k)
    requires i <= |src| && src[i..] == Encode(k)
    ensures i < |src| && ParseEntry(src, i) == Ok(Property(k, "", |src|))
  {
    DecodeEncodeToEnd(src, i, k, KeyValueSeparator);
    TrimmedKeyNotBlank(k);
  }

  /** Blank text holds no special character. */
  lemma BlankIsPlain(src: string, i: nat)
    requires i <= |src| && IsBlank(src[i..])
    ensures forall k :: i <= k < |src| ==> !IsSpecial(src[k])
  {
    forall k | i <= k < |src|
      ensures !IsSpecial(src[k])
    {
      assert src[k] == src[i..][k - i];
    }
  }

  /** A round of the parse loop whose key is blank and runs to the end of the source. */
  lemma ParseEntryDone(src: string, i: nat, t: string)
    requires i < |src| && IsBlank(t)
    requires Decode(src, i, KeyValueSeparator) == Ok(Decoded(t, |src|))
    ensures ParseEntry(src, i) == Ok(Done)
  {
  }

  /** A blank rest of the source ends parsing. */
  lemma BlankTailParses(src: string, i: nat)
    requires i < |src| && IsBlank(src[i..])
    ensures ParseEntry(src, i) == Ok(Done)
  {
    BlankIsPlain(src, i);
    DecodePlain(src, i, |src|, KeyValueSeparator);
    assert src[i..|src|] == src[i..];
    ParseEntryDone(src, i, src[i..]);
  }

  /** Put of a key the set does not have appends the entry. */
  lemma PutNew(acc: PropertySet, e: Entry)
    requires !HasKey(acc, e.key) && e.value.Some?
    ensures Put(acc, e.key, e.value) == acc + [e]
  {
  }

  /** The parse loop reads one formatted entry, followed by the end of the source or by text
      that does not open with ';', into the set. */
  lemma ParseOneEntry(src: string, i: nat, e: Entry, acc: PropertySet, n: nat)
    requires FormatsBack(e) && !HasKey(acc, e.key)
    requires n == i + |FormatEntry(e)| <= |src| && src[i..n] == FormatEntry(e)
    requires n < |src| ==> src[n] != PropertySeparator
    ensures ParseLoop(src, i, acc) == ParseLoop(src, n, acc + [e])
  {
    assert FormatEntry(e)
        == Encode(e.key) + [KeyValueSeparator] + Encode(e.value.value) + [PropertySeparator];
    EntryParses(src, i, e.key, e.value.value, n);
    PutNew(acc, e);
  }

  /** The parse loop reads a formatted entry followed by text that does not open with ';'. */
  lemma ParseOneEntryAt(src: string, i: nat, e: Entry, acc: PropertySet, rest: string, n: nat)
    requires FormatsBack(e) && !HasKey(acc, e.key) && (rest == [] || rest[0] != PropertySeparator)
    requires i <= |src| && src[i..] == FormatEntry(e) + rest && n == i + |FormatEntry(e)|
    ensures n <= |src| && ParseLoop(src, i, acc) == ParseLoop(src, n, acc + [e])
  {
    SplitTail(src, i, n, FormatEntry(e), rest);
    if n < |src| {
      assert src[n] == src[n..][0];
    }
    ParseOneEntry(src, i, e, acc, n);
  }

  /** A round of the parse loop that reads a property with a new key puts it at the end. */
  lemma ParsePropertyStep(src: string, i: nat, acc: PropertySet, k: string, v: string, n: nat)
    requires i < |src| && ParseEntry(src, i) == Ok(Property(k, v, n)) && !HasKey(acc, k)
    ensures n <= |src| && ParseLoop(src, i, acc) == ParseLoop(src, n, acc + [Entry(k, Some(v))])
  {
  }

  /** A round of the parse loop that finds the end of the data ends parsing with the set so far. */
  lemma ParseDoneStep(src: string, i: nat, acc: PropertySet)
    requires i < |src| && ParseEntry(src, i) == Ok(Done)
    ensures ParseLoop(src, i, acc) == Ok(acc)
  {
  }

  /** Formatted entries open with the first key, so not with ';'. */
  lemma FormattedTextOpensWithKey(es: seq<Entry>)
    requires forall e :: e in es ==> FormatsBack(e)
    ensures FormatEntries(es) == [] || FormatEntries(es)[0] != PropertySeparator
  {
    if es != [] {
      assert es[0] in es;
    }
  }

  /** Keys distinct across acc and es stay distinct when the first of es moves to acc. */
  lemma MoveFirstKey(acc: PropertySet, es: seq<Entry>)
    requires es != [] && DistinctKeys(acc + es)
    ensures !HasKey(acc, es[0].key)
    ensures (acc + [es[0]]) + es[1..] == acc + es
  {
    forall m | 0 <= m < |acc|
      ensures acc[m].key != es[0].key
    {
      assert (acc + es)[m] == acc[m] && (acc + es)[|acc|] == es[0];
    }
    assert (acc + [es[0]]) + es[1..] == acc + es;
  }

  /** Where the first of formatted entries ends, at n, and what follows it. */
  lemma FormattedFirst(src: string, i: nat, n: nat, es: seq<Entry>)
    requires es != [] && i <= |src| && src[i..] == FormatEntries(es)
    requires forall e :: e in es ==> FormatsBack(e)
    requires n == i + |FormatEntry(es[0])|
    ensures n <= |src| && src[i..n] == FormatEntry(es[0]) && src[n..] == FormatEntries(es[1..])
    ensures n < |src| ==> src[n] != PropertySeparator
  {
    SplitTail(src, i, n, FormatEntry(es[0]), FormatEntries(es[1..]));
    FormattedTextOpensWithKey(es[1..]);
    if n < |src| {
      assert src[n] == src[n..][0];
    }
  }

  /** The parse loop reads formatted entries back, in their order. */
  lemma {:induction false} ParseFormattedEntries(src: string, i: nat, acc: PropertySet, es: seq<Entry>)
    requires i <= |src| && src[i..] == FormatEntries(es)
    requires forall e :: e in es ==> FormatsBack(e)
    requires DistinctKeys(acc + es)
    ensures ParseLoop(src, i, acc) == Ok(acc + es)
    decreases |es|
  {
    if es == [] {
      assert |src[i..]| == 0;
      assert acc + es == acc;
    } else {
      var n := i + |FormatEntry(es[0])|;
      assert es[0] in es;
      FormattedFirst(src, i, n, es);
      MoveFirstKey(acc, es);
      ParseOneEntry(src, i, es[0], acc, n);
      ParseFormattedEntries(src, n, acc + [es[0]], es[1..]);
    }
  }

  /** An entry that runs to the end of the source without its final ';' is read into the set. */
  lemma ParseLastEntry(src: string, i: nat, e: Entry, acc: PropertySet)
    requires FormatsBack(e) && !HasKey(acc, e.key)
    requires i <= |src| && src[i..] == Encode(e.key) + [KeyValueSeparator] + Encode(e.value.value)
    ensures ParseLoop(src, i, acc) == Ok(acc + [e])
  {
    UnterminatedEntryParses(src, i, e.key, e.value.value);
    PutNew(acc, e);
  }

  /** Text written from entries that format back opens with the first key, so it is not blank. */
  lemma FormattedNotBlank(es: seq<Entry>)
    requires es != [] && forall e :: e in es ==> FormatsBack(e)
    ensures !IsBlank(FormatEntries(es))
  {
    assert es[0] in es;
    assert !IsWhitespace(es[0].key[0]);
  }

  /** parseProperties of text that is not blank is the parse loop from index 0 on an empty set. */
  lemma ParsePropertiesLoop(kind: Kind, src: string, ps: PropertySet)
    requires !IsBlank(src) && ParseLoop(src, 0, []) == Ok(ps)
    ensures ParseProperties(kind, Some(src)) == Ok(ps)
  {
  }

  /** Text written from entries that format back is parsed to those entries, in order. */
  lemma ParseFormatted(kind: Kind, es: seq<Entry>)
    requires DistinctKeys(es) && forall e :: e in es ==> FormatsBack(e)
    ensures ParseProperties(kind, Some(FormatEntries(es))) == Ok(es)
  {
    var src := FormatEntries(es);
    if es != [] {
      FormattedNotBlank(es);
      assert src[0..] == src;
      assert [] + es == es;
      ParseFormattedEntries(src, 0, [], es);
      ParsePropertiesLoop(kind, src, es);
    }
  }

  /** LinkedPropertiesFormat: parse(format(ps)) == ps, in insertion order. */
  lemma LinkedRoundTrip(ps: PropertySet)
    requires DistinctKeys(ps) && forall e :: e in ps ==> FormatsBack(e)
    ensures ParseProperties(Linked, Some(Format(Linked, ps))) == Ok(ps)
  {
    ParseFormatted(Linked, ps);
  }

  /** PropertiesFormat: parse(format(ps)) gives the entries of ps sorted by key, and formatting
      that again gives the same text. */
  lemma SortedRoundTrip(ps: PropertySet)
    requires DistinctKeys(ps) && forall e :: e in ps ==> FormatsBack(e)
    ensures ParseProperties(Sorted, Some(Format(Sorted, ps))) == Ok(SortByKey(ps))
    ensures Format(Sorted, SortByKey(ps)) == Format(Sorted, ps)
  {
    var s := SortByKey(ps);
    forall e | e in s
      ensures FormatsBack(e)
    {
      assert e in multiset(ps);
    }
    forall i, j | 0 <= i < j < |s|
      ensures s[i].key != s[j].key
    {
      KeyLessStrictTotal(s[i].key, s[j].key);
    }
    ParseFormatted(Sorted, s);
    SortedUnique(SortByKey(s), s);
  }

  /** format is not injective: a value opening with '=' writes the same text as a key closing
      with '='. */
  lemma FormatCollision(k: string, v: string)
    ensures FormatEntry(Entry(k, Some([KeyValueSeparator] + v)))
         == FormatEntry(Entry(k + [KeyValueSeparator], Some(v)))
  {
    EncodeAppend([KeyValueSeparator], v);
    EncodeAppend(k, [KeyValueSeparator]);
    assert Encode([KeyValueSeparator]) == [KeyValueSeparator, KeyValueSeparator];
  }

  /** ... and parse reads that text as the second entry. */
  lemma CollisionParsesAsKey(k: string, v: string)
    requires FormatsBack(Entry(k, Some(v)))
    ensures ParseProperties(Linked, Some(Format(Linked, [Entry(k, Some([KeyValueSeparator] + v))])))
         == Ok([Entry(k + [KeyValueSeparator], Some(v))])
  {
    FormatCollision(k, v);
    var e := Entry(k + [KeyValueSeparator], Some(v));
    assert FormatEntries([e]) == FormatEntry(e) + FormatEntries([]);
    assert FormatEntries([Entry(k, Some([KeyValueSeparator] + v))])
        == FormatEntry(Entry(k, Some([KeyValueSeparator] + v))) + FormatEntries([]);
    ParseFormatted(Linked, [e]);
  }
}

=== FILE: properties_format_examples.dfy ===
/** The examples of the format's documentation and tests. The texts are passed in as parameters
    equal to literals, and each step of a longer text gets a lemma of its own. */
module PropertiesFormatExamples {
  import opened Wrappers
  import opened PropertiesFormat

  /** parseProperties of null and of "" gives an empty set. */
  lemma ParseEmptyExamples()
    ensures ParseProperties(Sorted, None) == Ok([])
    ensures ParseProperties(Linked, Some("")) == Ok([])
  {
  }

  /** parseProperties of blanks gives an empty set. */
  lemma ParseBlanksExample(blanks: string)
    requires blanks == "       "
    ensures ParseProperties(Linked, Some(blanks)) == Ok([])
  {
    assert IsBlank(blanks);
  }

  /** One entry key '=' value ';' whose key and value hold no special character, followed by
      rest, as a round of the parse loop reads it into the set: as k = v, the trimmed texts. */
  lemma EntryStep(src: string, i: nat, acc: PropertySet, key: string, value: string, k: string, v: string,
                  rest: string, n: nat)
    requires IsPlain(key) && IsPlain(value) && !IsBlank(key) && Trim(key) == k && Trim(value) == v
    requires !HasKey(acc, k) && (rest == [] || rest[0] != PropertySeparator)
    requires i <= |src| && src[i..] == key + ([KeyValueSeparator] + (value + ([PropertySeparator] + rest)))
    requires n == i + |key| + |value| + 2
    ensures n <= |src| && src[n..] == rest
    ensures ParseLoop(src, i, acc) == ParseLoop(src, n, acc + [Entry(k, Some(v))])
  {
    var j := i + |key| + 1;
    PlainEntryAt(src, i, key, value, rest, j, n);
    ParsePropertyStep(src, i, acc, k, v, n);
  }

  /** The same for a key and a value without blanks around them: they are read as they stand. */
  lemma PlainStep(src: string, i: nat, acc: PropertySet, key: string, value: string, rest: string, n: nat)
    requires IsPlain(key) && IsPlain(value) && key != [] && value != [] && IsTrimmed(key) && IsTrimmed(value)
    requires !HasKey(acc, key) && (rest == [] || rest[0] != PropertySeparator)
    requires i <= |src| && src[i..] == key + ([KeyValueSeparator] + (value + ([PropertySeparator] + rest)))
    requires n == i + |key| + |value| + 2
    ensures n <= |src| && src[n..] == rest
    ensures ParseLoop(src, i, acc) == ParseLoop(src, n, acc + [Entry(key, Some(value))])
  {
    TrimmedKeyNotBlank(key);
    TrimmedKeyNotBlank(value);
    EntryStep(src, i, acc, key, value, key, value, rest, n);
  }

  /** The first entry of "a=3;b=56;". */
  lemma PlainFirst(src: string, a: string, v: string, rest: string)
    requires a == "a" && v == "3" && rest != [] && rest[0] == 'b'
    requires src == a + ([KeyValueSeparator] + (v + ([PropertySeparator] + rest)))
    ensures ParseLoop(src, 0, []) == ParseLoop(src, 4, [Entry(a, Some(v))]) && src[4..] == rest
  {
    assert src[0..] == src;
    PlainStep(src, 0, [], a, v, rest, 4);
    assert [] + [Entry(a, Some(v))] == [Entry(a, Some(v))];
  }

  /** The second and last entry of "a=3;b=56;". */
  lemma PlainSecond(src: string, ea: Entry, b: string, w: string)
    requires b == "b" && w == "56" && ea.key == "a"
    requires 4 <= |src| && src[4..] == b + ([KeyValueSeparator] + (w + ([PropertySeparator] + [])))
    ensures ParseLoop(src, 4, [ea]) == Ok([ea, Entry(b, Some(w))])
  {
    PlainStep(src, 4, [ea], b, w, [], 9);
    assert [ea] + [Entry(b, Some(w))] == [ea, Entry(b, Some(w))];
  }

  /** "a=3;b=56;": a = "3" and b = "56". */
  lemma ParsePlainExample(src: string)
    requires src == "a=3;b=56;"
    ensures ParseProperties(Linked, Some(src)) == Ok([Entry("a", Some("3")), Entry("b", Some("56"))])
  {
    var rest := "b" + ([KeyValueSeparator] + ("56" + ([PropertySeparator] + [])));
    var ea, eb := Entry("a", Some("3")), Entry("b", Some("56"));
    assert !IsBlank(src) by { assert !IsWhitespace(src[0]); }
    assert src == "a" + ([KeyValueSeparator] + ("3" + ([PropertySeparator] + rest)));
    PlainFirst(src, "a", "3", rest);
    PlainSecond(src, ea, "b", "56");
    ParsePropertiesLoop(Linked, src, [ea, eb]);
  }

  /** encode("2+2=4") doubles its '='. */
  lemma EncodeSumExample()
    ensures Encode("2+2=4") == "2+2==4"
  {
  }

  /** encode("56;") doubles its ';'. */
  lemma EncodeSemicolonExample()
    ensures Encode("56;") == "56;;"
  {
  }

  /** encode of a single ordinary character is that character. */
  lemma EncodeOneExample(s: string, c: char)
    requires !IsSpecial(c) && s == [c]
    ensures Encode(s) == s
  {
    EncodeOf(s, c, "", "");
  }

  /** The text of one entry with encoded key ek and encoded value ev. */
  lemma FormatEntryOf(e: Entry, ek: string, ev: string)
    requires e.value.Some? && Encode(e.key) == ek && Encode(e.value.value) == ev
    ensures FormatEntry(e) == ek + [KeyValueSeparator] + ev + [PropertySeparator]
  {
  }

  /** The first entry of "a=2+2==4;b=56;;;c=9". */
  lemma ExampleFirstEntry(src: string, e: Entry, rest: string)
    requires e == Entry("a", Some("2+2=4")) && src == "a=2+2==4;" + rest
    requires rest == [] || rest[0] != PropertySeparator
    ensures ParseLoop(src, 0, []) == ParseLoop(src, 9, [e])
  {
    EncodeOneExample(e.key, 'a');
    EncodeSumExample();
    assert src[0..] == FormatEntry(e) + rest;
    ParseOneEntryAt(src, 0, e, [], rest, 9);
    assert [] + [e] == [e];
  }

  /** The entry b = "56;" is written "b=56;;;" and reads back. */
  lemma SecondEntryText(e: Entry)
    requires e == Entry("b", Some("56;"))
    ensures FormatsBack(e) && FormatEntry(e) == "b=56;;;"
  {
    EncodeOneExample(e.key, 'b');
    EncodeSemicolonExample();
  }

  /** The second entry of "a=2+2==4;b=56;;;c=9": a value ending with a doubled ';'. */
  lemma ExampleSecondEntry(src: string, ea: Entry, e: Entry, rest: string)
    requires e == Entry("b", Some("56;")) && ea.key == "a"
    requires 9 <= |src| && src[9..] == "b=56;;;" + rest && (rest == [] || rest[0] != PropertySeparator)
    ensures ParseLoop(src, 9, [ea]) == ParseLoop(src, 16, [ea, e])
  {
    SecondEntryText(e);
    ParseOneEntryAt(src, 9, e, [ea], rest, 16);
    assert [ea] + [e] == [ea, e];
  }

  /** The last entry of "a=2+2==4;b=56;;;c=9", without ';'. */
  lemma ExampleLastEntry(src: string, ea: Entry, eb: Entry, e: Entry)
    requires e == Entry("c", Some("9")) && ea.key == "a" && eb.key == "b"
    requires 16 <= |src| && src[16..] == "c=9"
    ensures ParseLoop(src, 16, [ea, eb]) == Ok([ea, eb, e])
  {
    EncodeOneExample(e.key, 'c');
    EncodeOneExample(e.value.value, '9');
    ParseLastEntry(src, 16, e, [ea, eb]);
    assert [ea, eb] + [e] == [ea, eb, e];
  }

  /** The parse loop over "a=2+2==4;b=56;;;c=9", from its parts. */
  lemma ExampleLoop(src: string, ea: Entry, eb: Entry, ec: Entry)
    requires ea == Entry("a", Some("2+2=4")) && eb == Entry("b", Some("56;")) && ec == Entry("c", Some("9"))
    requires src == "a=2+2==4;" + ("b=56;;;" + "c=9")
    ensures ParseLoop(src, 0, []) == Ok([ea, eb, ec])
  {
    assert src[9..] == "b=56;;;" + "c=9" && src[16..] == "c=9";
    ExampleFirstEntry(src, ea, "b=56;;;" + "c=9");
    ExampleSecondEntry(src, ea, eb, "c=9");
    ExampleLastEntry(src, ea, eb, ec);
  }

  /** "a=2+2==4;b=56;;;c=9" holds a = "2+2=4", b = "56;" and c = "9", the last without ';'. */
  lemma ParseExample(src: string)
    requires src == "a=2+2==4;b=56;;;c=9"
    ensures ParseProperties(Linked, Some(src))
         == Ok([Entry("a", Some("2+2=4")), Entry("b", Some("56;")), Entry("c", Some("9"))])
  {
    var ea, eb, ec := Entry("a", Some("2+2=4")), Entry("b", Some("56;")), Entry("c", Some("9"));
    assert !IsBlank(src) by { assert !IsWhitespace(src[0]); }
    assert src == "a=2+2==4;" + ("b=56;;;" + "c=9");
    ExampleLoop(src, ea, eb, ec);
    ParsePropertiesLoop(Linked, src, [ea, eb, ec]);
  }

  /** " 1  " and "   b" and " 2 " hold no special character and trim to "1", "b" and "2". */
  lemma PaddedFirstFacts(value: string, one: string)
    requires one == "1" && value == " " + one + "  "
    ensures IsPlain(value) && Trim(value) == one
  {
    assert IsPlain(value);
    TrimPadded(" ", one, "  ");
  }

  lemma PaddedKeyFacts(key: string, b: string)
    requires b == "b" && key == "   " + b
    ensures IsPlain(key) && !IsBlank(key) && Trim(key) == b
  {
    assert IsPlain(key) && !IsWhitespace(key[3]);
    assert key + "" == key;
    TrimPadded("   ", b, "");
  }

  lemma PaddedValueFacts(value: string, two: string)
    requires two == "2" && value == " " + two + " "
    ensures IsPlain(value) && Trim(value) == two
  {
    assert IsPlain(value);
    TrimPadded(" ", two, " ");
  }

  /** The first entry of "a= 1  ;   b= 2 ;  ": the blanks around the value are dropped. */
  lemma TrailingFirst(src: string, a: string, value: string, one: string, rest: string)
    requires a == "a" && one == "1" && value == " " + one + "  " && rest != [] && rest[0] == ' '
    requires src == a + ([KeyValueSeparator] + (value + ([PropertySeparator] + rest)))
    ensures ParseLoop(src, 0, []) == ParseLoop(src, 7, [Entry(a, Some(one))]) && src[7..] == rest
  {
    assert src[0..] == src && |value| == 4 && IsPlain(a) && rest[0] != PropertySeparator;
    assert [] + [Entry(a, Some(one))] == [Entry(a, Some(one))];
    PaddedFirstFacts(value, one);
    TrimmedKeyNotBlank(a);
    EntryStep(src, 0, [], a, value, a, one, rest, 7);
  }

  /** The second entry of "a= 1  ;   b= 2 ;  ": the blanks around the key and the value are
      dropped. */
  lemma TrailingSecond(src: string, ea: Entry, key: string, b: string, value: string, two: string, rest: string)
    requires b == "b" && two == "2" && ea.key == "a" && key == "   " + b && value == " " + two + " "
    requires rest == "  " && 7 <= |src|
    requires src[7..] == key + ([KeyValueSeparator] + (value + ([PropertySeparator] + rest)))
    ensures ParseLoop(src, 7, [ea]) == ParseLoop(src, 16, [ea, Entry(b, Some(two))]) && src[16..] == rest
  {
    assert |key| == 4 && |value| == 3 && rest[0] != PropertySeparator && !HasKey([ea], b);
    assert [ea] + [Entry(b, Some(two))] == [ea, Entry(b, Some(two))];
    PaddedKeyFacts(key, b);
    PaddedValueFacts(value, two);
    EntryStep(src, 7, [ea], key, value, b, two, rest, 16);
  }

  /** A blank tail ends parsing with the set so far. */
  lemma BlankTailStep(src: string, i: nat, acc: PropertySet)
    requires i < |src| && IsBlank(src[i..])
    ensures ParseLoop(src, i, acc) == Ok(acc)
  {
    BlankTailParses(src, i);
    ParseDoneStep(src, i, acc);
  }

  /** The parse loop over "a= 1  ;   b= 2 ;  ", from its parts. */
  lemma TrailingBlanksLoop(src: string, rest: string, tail: string)
    requires tail == "  " && rest == "   b" + ([KeyValueSeparator] + (" 2 " + ([PropertySeparator] + tail)))
    requires src == "a" + ([KeyValueSeparator] + (" 1  " + ([PropertySeparator] + rest)))
    ensures ParseLoop(src, 0, []) == Ok([Entry("a", Some("1")), Entry("b", Some("2"))])
  {
    assert IsBlank(tail) && 16 < |src|;
    TrailingFirst(src, "a", " 1  ", "1", rest);
    TrailingSecond(src, Entry("a", Some("1")), "   b", "b", " 2 ", "2", tail);
    BlankTailStep(src, 16, [Entry("a", Some("1")), Entry("b", Some("2"))]);
  }

  /** "a= 1  ;   b= 2 ;  ": a = "1" and b = "2". */
  lemma ParseTrailingBlanksExample(src: string)
    requires src == "a= 1  ;   b= 2 ;  "
    ensures ParseProperties(Linked, Some(src)) == Ok([Entry("a", Some("1")), Entry("b", Some("2"))])
  {
    var rest := "   b" + ([KeyValueSeparator] + (" 2 " + ([PropertySeparator] + "  ")));
    assert !IsBlank(src) by { assert !IsWhitespace(src[0]); }
    assert src == "a" + ([KeyValueSeparator] + (" 1  " + ([PropertySeparator] + rest)));
    TrailingBlanksLoop(src, rest, "  ");
    ParsePropertiesLoop(Linked, src, [Entry("a", Some("1")), Entry("b", Some("2"))]);
  }

  /** "= ; a = 1;     " opens with a blank key that is not at the end: error index 1. */
  lemma ParseErrorExample(src: string)
    requires src == "= ; a = 1;     "
    ensures ParseProperties(Sorted, Some(src)) == Err(ParseException(1))
  {
    assert !IsWhitespace(src[0]);
    assert src[0] == KeyValueSeparator && src[1] == ' ';
    assert Decode(src, 0, KeyValueSeparator) == Ok(Decoded("", 1));
    assert IsBlank("");
  }

  /** {a: "4"} is written "a=4;". */
  lemma FormatExample(k: string, v: string)
    requires k == "a" && v == "4"
    ensures Format(Sorted, [Entry(k, Some(v))]) == "a=4;"
  {
    var e := Entry(k, Some(v));
    FormatOne(Sorted, e);
    EncodeOneExample(k, 'a');
    EncodeOneExample(v, '4');
    FormatEntryOf(e, k, v);
  }

  /** encode("1+2=3;") doubles its '=' and its ';'. */
  lemma EncodeSpecialExample(s0: string, s1: string, s2: string, s3: string, s4: string, s5: string)
    requires s0 == "1+2=3;" && s1 == "+2=3;" && s2 == "2=3;" && s3 == "=3;" && s4 == "3;" && s5 == ";"
    ensures Encode(s0) == "1+2==3;;"
  {
    EncodeOf(s5, ';', "", "");
    EncodeOf(s4, '3', s5, ";;");
    EncodeOf(s3, '=', s4, "3;;");
    EncodeOf(s2, '2', s3, "==3;;");
    EncodeOf(s1, '+', s2, "2==3;;");
    EncodeOf(s0, '1', s1, "+2==3;;");
  }

  /** The entry a = "1+2=3;" is written "a=1+2==3;;;". */
  lemma FormatSpecialEntry(e: Entry)
    requires e == Entry("a", Some("1+2=3;"))
    ensures FormatEntry(e) == "a=1+2==3;;;"
  {
    EncodeOneExample(e.key, 'a');
    EncodeSpecialExample(e.value.value, "+2=3;", "2=3;", "=3;", "3;", ";");
  }

  /** A value with special characters is written with them doubled: {a: "1+2=3;"} is written
      "a=1+2==3;;;". */
  lemma FormatSpecialExample(e: Entry)
    requires e == Entry("a", Some("1+2=3;"))
    ensures Format(Linked, [e]) == "a=1+2==3;;;"
  {
    FormatOne(Linked, e);
    FormatSpecialEntry(e);
  }

  /** PropertiesFormat sorts b put before a: a first. */
  lemma SortTwoExample(ea: Entry, eb: Entry)
    requires ea.key == "a" && eb.key == "b"
    ensures SortByKey([eb, ea]) == [ea, eb]
  {
    assert KeyLess(ea.key, eb.key);
    assert [eb, ea][..1] == [eb];
    assert SortByKey([eb]) == [eb];
    assert Insert(ea, [eb]) == [ea, eb];
  }

  /** PropertiesFormat writes b put before a as "a=1;b=2;". */
  lemma SortedOrderExample(a: string, b: string, one: string, two: string)
    requires a == "a" && b == "b" && one == "1" && two == "2"
    ensures Format(Sorted, [Entry(b, Some(two)), Entry(a, Some(one))]) == "a=1;b=2;"
  {
    var ea, eb := Entry(a, Some(one)), Entry(b, Some(two));
    SortTwoExample(ea, eb);
    EncodeOneExample(a, 'a');
    EncodeOneExample(b, 'b');
    EncodeOneExample(one, '1');
    EncodeOneExample(two, '2');
    FormatEntryOf(ea, a, one);
    FormatEntryOf(eb, b, two);
    assert FormatEntries([eb]) == FormatEntry(eb) + FormatEntries([]);
    assert FormatEntries([ea, eb]) == FormatEntry(ea) + FormatEntries([eb]);
  }
}

=== FILE: severity.dfy ===
/** Severity: five levels whose declaration order is their order of seriousness. */
module Severity {

  datatype Severity = TRACE | INFO | WARN | ERROR | FATAL

  /** Enum.values(): the constants in declaration order. */
  const Values: seq<Severity> := [TRACE, INFO, WARN, ERROR, FATAL]

  /** Enum.ordinal(): the position of the constant in its declaration. */
  function Ordinal(s: Severity): (r: nat)
    ensures r < |Values| && Values[r] == s
  {
    match s
    case TRACE => 0
    case INFO => 1
    case WARN => 2
    case ERROR => 3
    case FATAL => 4
  }

  /** worseThan: declared later than `other`. */
  predicate WorseThan(s: Severity, other: Severity) {
    Ordinal(s) > Ordinal(other)
  }

  /** The order is TRACE < INFO < WARN < ERROR < FATAL: a level is worse than another exactly when
      it comes later in Values. */
  lemma WorseThanIsDeclarationOrder(i: nat, j: nat)
    requires i < |Values| && j < |Values|
    ensures WorseThan(Values[i], Values[j]) <==> i > j
  {
  }

  /** worseThan is a strict total order: irreflexive, asymmetric, transitive, and any two different
      levels are comparable. */
  lemma WorseThanIsStrictTotalOrder(a: Severity, b: Severity, c: Severity)
    ensures !WorseThan(a, a)
    ensures WorseThan(a, b) ==> !WorseThan(b, a)
    ensures WorseThan(a, b) && WorseThan(b, c) ==> WorseThan(a, c)
    ensures a != b ==> WorseThan(a, b) || WorseThan(b, a)
  {
  }

  /** worstOf(first, second): the worse of the two, `first` on a tie. */
  function WorstOf(first: Severity, second: Severity): (r: Severity)
    ensures r == first || r == second
    ensures !WorseThan(first, r) && !WorseThan(second, r)
    ensures r == second ==> first == second || WorseThan(second, first)
  {
    if WorseThan(second, first) then second else first
  }

  /** The worst of the varargs worstOf(first, second, others...): one of the arguments, none of them
      worse, and no earlier argument equally bad. */
  method WorstOfAll(first: Severity, second: Severity, others: seq<Severity>) returns (r: Severity)
    ensures var all := [first, second] + others;
            exists k :: 0 <= k < |all| && all[k] == r
                        && (forall i :: 0 <= i < |all| ==> !WorseThan(all[i], r))
                        && (forall i :: 0 <= i < k ==> WorseThan(r, all[i]))
  {
    ghost var all := [first, second] + others;
    ghost var k := if WorseThan(second, first) then 1 else 0;
    r := WorstOf(first, second);
    var n := 0;
    while n < |others|
      invariant 0 <= n <= |others|
      invariant 0 <= k < 2 + n && all[k] == r
      invariant forall i :: 0 <= i < 2 + n ==> !WorseThan(all[i], r)
      invariant forall i :: 0 <= i < k ==> WorseThan(r, all[i])
    {
      var s := others[n];
      if WorseThan(s, r) {
        r := s;
        k := 2 + n;
      }
      n := n + 1;
    }
  }

  /** SeverityTest: WARN and ERROR are worse than INFO, ERROR worse than WARN, and the two-argument
      worstOf picks WARN over INFO in either order. */
  lemma WorseThanExamples()
    ensures WorseThan(WARN, INFO) && WorseThan(ERROR, INFO) && WorseThan(ERROR, WARN)
    ensures WorstOf(INFO, WARN) == WARN && WorstOf(WARN, INFO) == WARN
  {
  }

  /** SeverityTest: the worst of INFO, WARN, INFO, INFO is WARN; of INFO, WARN, ERROR, WARN is
      ERROR; of FATAL, WARN, ERROR, WARN is FATAL. */
  method WorstOfAllExamples() returns (a: Severity, b: Severity, c: Severity)
    ensures a == WARN && b == ERROR && c == FATAL
  {
    a := WorstOfAll(INFO, WARN, [INFO, INFO]);
    assert !WorseThan(([INFO, WARN] + [INFO, INFO])[1], a);
    b := WorstOfAll(INFO, WARN, [ERROR, WARN]);
    assert !WorseThan(([INFO, WARN] + [ERROR, WARN])[2], b);
    c := WorstOfAll(FATAL, WARN, [ERROR, WARN]);
    assert !WorseThan(([FATAL, WARN] + [ERROR, WARN])[0], c);
  }
}

=== FILE: time_range.dfy ===
/** TimeRange: a time span [minTime, maxTime) in epoch milliseconds. Its tests delegate to a
    commons-lang closed range of longs built as Range.between(minTime, maxTime - 1); that closed
    range is modelled here by its documented semantics, including the swap of reversed bounds. */
module TimeRange {
  import opened Wrappers

  /** A time range: begin (inclusive) and end (exclusive), as epoch milliseconds. */
  datatype TimeRange = TimeRange(minTime: int, maxTime: int)

  /** A closed range [minimum, maximum] of longs, minimum <= maximum. */
  datatype LongRange = LongRange(minimum: int, maximum: int)

  /** The exception intersect throws for disjoint ranges. */
  datatype Error = IllegalArgument

  /** Range.between: the closed range spanned by two bounds given in either order. */
  function Between(a: int, b: int): (r: LongRange)
    ensures r.minimum <= r.maximum
    ensures (r.minimum == a && r.maximum == b) || (r.minimum == b && r.maximum == a)
  {
    if b < a then LongRange(b, a) else LongRange(a, b)
  }

  predicate Contains(r: LongRange, x: int) {
    r.minimum <= x <= r.maximum
  }

  predicate RangeContainsRange(r: LongRange, o: LongRange) {
    Contains(r, o.minimum) && Contains(r, o.maximum)
  }

  predicate RangeIsOverlappedBy(r: LongRange, o: LongRange) {
    Contains(o, r.minimum) || Contains(o, r.maximum) || Contains(r, o.minimum)
  }

  /** Range.intersectionWith: the common part of two overlapping ranges; rejected otherwise. */
  function IntersectionWith(r: LongRange, o: LongRange): (res: Result<LongRange, Error>)
    requires r.minimum <= r.maximum && o.minimum <= o.maximum
    ensures res.Err? <==> !RangeIsOverlappedBy(r, o)
    ensures res.Ok? ==> forall x :: Contains(res.value, x) <==> Contains(r, x) && Contains(o, x)
  {
    if !RangeIsOverlappedBy(r, o) then Err(IllegalArgument)
    else if r == o then Ok(r)
    else
      var lo := if r.minimum < o.minimum then o.minimum else r.minimum;
      var hi := if r.maximum < o.maximum then r.maximum else o.maximum;
      Ok(Between(lo, hi))
  }

  /** getLongRange: Range.between(minTime, maxTime - 1). */
  function GetLongRange(tr: TimeRange): (r: LongRange)
    ensures r.minimum <= r.maximum
    ensures tr.minTime < tr.maxTime ==> r == LongRange(tr.minTime, tr.maxTime - 1)
  {
    Between(tr.minTime, tr.maxTime - 1)
  }

  /** A range holds at least one millisecond. */
  predicate NonEmpty(tr: TimeRange) {
    tr.minTime < tr.maxTime
  }

  /** containsTime: the time lies in the closed long range. */
  predicate ContainsTime(tr: TimeRange, time: int) {
    Contains(GetLongRange(tr), time)
  }

  /** For a non-empty range, containsTime is the half-open test minTime <= time < maxTime. */
  lemma ContainsTimeIsHalfOpen(tr: TimeRange, time: int)
    requires NonEmpty(tr)
    ensures ContainsTime(tr, time) <==> tr.minTime <= time < tr.maxTime
  {
  }

  /** An empty range [t, t) becomes the closed range [t - 1, t] once Range.between swaps its
      bounds, so it contains exactly two milliseconds. */
  lemma EmptyRangeContainsTwoMillis(t: int)
    ensures ContainsTime(TimeRange(t, t), t - 1) && ContainsTime(TimeRange(t, t), t)
    ensures forall x :: ContainsTime(TimeRange(t, t), x) <==> x == t - 1 || x == t
  {
  }

  /** TimeRangeTest: [100, 200) contains 100 and 199 but not 50, 200 or 300. */
  lemma ContainsTimeExamples()
    ensures ContainsTime(TimeRange(100, 200), 100) && ContainsTime(TimeRange(100, 200), 199)
    ensures !ContainsTime(TimeRange(100, 200), 50) && !ContainsTime(TimeRange(100, 200), 200)
    ensures !ContainsTime(TimeRange(100, 200), 300)
  {
  }

  /** containsRange: both bounds of the other closed range lie in this one. */
  predicate ContainsRange(tr: TimeRange, other: TimeRange) {
    RangeContainsRange(GetLongRange(tr), GetLongRange(other))
  }

  /** For non-empty ranges, containsRange is inclusion of the half-open spans, that is, every time
      of the other range is a time of this one. */
  lemma ContainsRangeIsInclusion(tr: TimeRange, other: TimeRange)
    requires NonEmpty(tr) && NonEmpty(other)
    ensures ContainsRange(tr, other) <==> tr.minTime <= other.minTime && other.maxTime <= tr.maxTime
    ensures ContainsRange(tr, other) <==> forall t :: ContainsTime(other, t) ==> ContainsTime(tr, t)
  {
    if !ContainsRange(tr, other) {
      if !ContainsTime(tr, other.minTime) {
        assert ContainsTime(other, other.minTime);
      } else {
        assert ContainsTime(other, other.maxTime - 1);
      }
    }
  }

  /** TimeRangeTest: [100, 200) contains [100, 110) and [100, 199) but not [80, 110), [30, 201) or
      [30, 400). */
  lemma ContainsRangeExamples()
    ensures ContainsRange(TimeRange(100, 200), TimeRange(100, 110))
    ensures ContainsRange(TimeRange(100, 200), TimeRange(100, 199))
    ensures !ContainsRange(TimeRange(100, 200), TimeRange(80, 110))
    ensures !ContainsRange(TimeRange(100, 200), TimeRange(30, 201))
    ensures !ContainsRange(TimeRange(100, 200), TimeRange(30, 400))
  {
  }

  /** isOverlappedBy: the closed ranges overlap. The source answers true at once when both
      operands are the same object; every range overlaps itself anyway (OverlapReflexive). */
  predicate IsOverlappedBy(tr: TimeRange, other: TimeRange) {
    RangeIsOverlappedBy(GetLongRange(tr), GetLongRange(other))
  }

  /** Two ranges overlap iff they share a millisecond; for non-empty ranges that is
      max(minTimes) < min(maxTimes). */
  lemma OverlapMeansCommonTime(tr: TimeRange, other: TimeRange)
    ensures IsOverlappedBy(tr, other) <==> exists t :: ContainsTime(tr, t) && ContainsTime(other, t)
    ensures NonEmpty(tr) && NonEmpty(other) ==>
              (IsOverlappedBy(tr, other) <==>
                 (if tr.minTime < other.minTime then other.minTime else tr.minTime)
                 < (if tr.maxTime < other.maxTime then tr.maxTime else other.maxTime))
  {
    var a := GetLongRange(tr);
    var b := GetLongRange(other);
    if IsOverlappedBy(tr, other) {
      if Contains(b, a.minimum) {
        assert ContainsTime(tr, a.minimum) && ContainsTime(other, a.minimum);
      } else if Contains(b, a.maximum) {
        assert ContainsTime(tr, a.maximum) && ContainsTime(other, a.maximum);
      } else {
        assert ContainsTime(tr, b.minimum) && ContainsTime(other, b.minimum);
      }
    }
  }

  /** isOverlappedBy is reflexive and symmetric, and adjacent ranges [a, b) and [b, c) do not
      overlap. */
  lemma OverlapReflexiveSymmetric(tr: TimeRange, other: TimeRange)
    ensures IsOverlappedBy(tr, tr)
    ensures IsOverlappedBy(tr, other) <==> IsOverlappedBy(other, tr)
  {
    OverlapMeansCommonTime(tr, other);
    OverlapMeansCommonTime(other, tr);
  }

  lemma AdjacentRangesDoNotOverlap(a: int, b: int, c: int)
    requires a < b < c
    ensures !IsOverlappedBy(TimeRange(a, b), TimeRange(b, c))
  {
  }

  /** intersect: the common part as a time range, IllegalArgument when the ranges do not overlap.
      For non-empty overlapping ranges that is [max(minTimes), min(maxTimes)). */
  function Intersect(tr: TimeRange, other: TimeRange): (r: Result<TimeRange, Error>)
    ensures r.Err? <==> !IsOverlappedBy(tr, other)
    ensures r.Ok? ==> forall t :: ContainsTime(r.value, t) <==> ContainsTime(tr, t) && ContainsTime(other, t)
    ensures r.Ok? && NonEmpty(tr) && NonEmpty(other) ==>
              r.value == TimeRange(if tr.minTime < other.minTime then other.minTime else tr.minTime,
                                   if tr.maxTime < other.maxTime then tr.maxTime else other.maxTime)
  {
    match IntersectionWith(GetLongRange(tr), GetLongRange(other))
    case Err(e) => Err(e)
    case Ok(i) => Ok(TimeRange(i.minimum, i.maximum + 1))
  }

  /** A non-empty range intersected with itself is itself, as the source's identity shortcut
      returns it. */
  lemma IntersectSelf(tr: TimeRange)
    requires NonEmpty(tr)
    ensures Intersect(tr, tr) == Ok(tr)
  {
  }

  /** intersect(other, defaultValue): the intersection, or the default when intersect throws. */
  function IntersectOr(tr: TimeRange, other: TimeRange, defaultValue: TimeRange): (r: TimeRange)
    ensures !IsOverlappedBy(tr, other) ==> r == defaultValue
    ensures IsOverlappedBy(tr, other) ==> forall t :: ContainsTime(r, t) <==> ContainsTime(tr, t) && ContainsTime(other, t)
  {
    match Intersect(tr, other)
    case Err(_) => defaultValue
    case Ok(i) => i
  }

  /** millis: the number of milliseconds the range spans. */
  function Millis(tr: TimeRange): (r: int)
    ensures NonEmpty(tr) <==> r > 0
    ensures tr.minTime + r == tr.maxTime
  {
    tr.maxTime - tr.minTime
  }

  /** The intersection of two non-empty ranges is no longer than either. */
  lemma IntersectionIsShorter(tr: TimeRange, other: TimeRange)
    requires NonEmpty(tr) && NonEmpty(other) && IsOverlappedBy(tr, other)
    ensures 0 < Millis(Intersect(tr, other).value) <= Millis(tr)
    ensures Millis(Intersect(tr, other).value) <= Millis(other)
  {
    OverlapMeansCommonTime(tr, other);
  }

  /** equals: same minTime and same maxTime. */
  predicate Equals(tr: TimeRange, other: TimeRange) {
    tr.minTime == other.minTime && tr.maxTime == other.maxTime
  }

  /** The 32-bit hash HashCodeBuilder.append(long) adds, (int) (v ^ (v >> 32)), as an unsigned
      value: the xor of the low and the high word of the long's two's complement bits. */
  function LongHash(v: int): (r: int)
    ensures 0 <= r < 0x1_0000_0000
  {
    var bits := v % 0x1_0000_0000_0000_0000;
    var low := (bits % 0x1_0000_0000) as bv32;
    var high := (bits / 0x1_0000_0000) as bv32;
    (low ^ high) as int
  }

  /** hashCode: new HashCodeBuilder(1, 25).append(minTime).append(maxTime), with Java int
      wrap-around, read back as a signed int. */
  function HashCode(tr: TimeRange): (r: int)
    ensures -0x8000_0000 <= r < 0x8000_0000
  {
    var h := ((1 * 25 + LongHash(tr.minTime)) * 25 + LongHash(tr.maxTime)) % 0x1_0000_0000;
    if h < 0x8000_0000 then h else h - 0x1_0000_0000
  }

  /** equals is an equivalence, holds exactly for equal values, and equal ranges hash alike. */
  lemma EqualsAndHashCode(a: TimeRange, b: TimeRange, c: TimeRange)
    ensures Equals(a, b) <==> a == b
    ensures Equals(a, a) && (Equals(a, b) ==> Equals(b, a))
    ensures Equals(a, b) && Equals(b, c) ==> Equals(a, c)
    ensures Equals(a, b) ==> HashCode(a) == HashCode(b)
  {
  }

  /** One hour in milliseconds. */
  const Hour := 3_600_000

  /** TimeRangeTest.testIsOverlapping, with the day [d, d + 24h) as the base range: it overlaps
      itself, a range inside it and ranges reaching into its first or last hour, but not the day
      before or the day after. */
  lemma OverlapExamples(d: int)
    ensures IsOverlappedBy(TimeRange(d, d + 24 * Hour), TimeRange(d, d + 24 * Hour))
    ensures !IsOverlappedBy(TimeRange(d, d + 24 * Hour), TimeRange(d - 24 * Hour, d))
    ensures !IsOverlappedBy(TimeRange(d, d + 24 * Hour), TimeRange(d + 24 * Hour, d + 48 * Hour))
    ensures IsOverlappedBy(TimeRange(d, d + 24 * Hour), TimeRange(d + 2 * Hour, d + 4 * Hour))
    ensures IsOverlappedBy(TimeRange(d, d + 24 * Hour), TimeRange(d - 23 * Hour, d + Hour))
    ensures IsOverlappedBy(TimeRange(d, d + 24 * Hour), TimeRange(d + 23 * Hour, d + 47 * Hour))
  {
  }

  /** TimeRangeTest.testIntersection and testNoIntersection, with the day [d, d + 24h) as the
      base range. */
  lemma IntersectExamples(d: int)
    ensures Intersect(TimeRange(d, d + 24 * Hour), TimeRange(d, d + 24 * Hour)) == Ok(TimeRange(d, d + 24 * Hour))
    ensures Intersect(TimeRange(d, d + 24 * Hour), TimeRange(d + 6 * Hour, d + 16 * Hour))
            == Ok(TimeRange(d + 6 * Hour, d + 16 * Hour))
    ensures Intersect(TimeRange(d, d + 24 * Hour), TimeRange(d - 22 * Hour, d + 2 * Hour))
            == Ok(TimeRange(d, d + 2 * Hour))
    ensures Intersect(TimeRange(d, d + 24 * Hour), TimeRange(d + 20 * Hour, d + 44 * Hour))
            == Ok(TimeRange(d + 20 * Hour, d + 24 * Hour))
    ensures Intersect(TimeRange(d, d + 24 * Hour), TimeRange(d + 24 * Hour, d + 48 * Hour)).Err?
  {
  }

  /** TimeRangeTest.testMillis: 13:00 to 13:01 spans 60000 milliseconds. */
  lemma MillisExample(t: int)
    ensures Millis(TimeRange(t, t + 60 * 1000)) == 60_000
  {
  }
}

=== FILE: wildcard_search.dfy ===
/** WildcardSearch: matching a text against a pattern with a multi-char wildcard (default '*',
    zero or more characters), a single-char wildcard (default '_'), a backslash escape and
    optional case-insensitive comparison. */
module WildcardSearch {
  import opened Wrappers

  const DefaultSingleCharWildcard: char := '_'
  const DefaultMultiCharWildcard: char := '*'
  const DefaultCaseSensitive: bool := false
  const EscapeChar: char := '\\'

  /** A configured matcher. */
  datatype WildcardSearch = WildcardSearch(multiCharWildcard: char, singleCharWildcard: char, caseSensitive: bool)

  /** getInstance(multi, single, caseSensitive). */
  function GetInstance(multiCharWildcard: char, singleCharWildcard: char, caseSensitive: bool): (r: WildcardSearch)
    ensures r.multiCharWildcard == multiCharWildcard && r.singleCharWildcard == singleCharWildcard
    ensures r.caseSensitive == caseSensitive
  {
    WildcardSearch(multiCharWildcard, singleCharWildcard, caseSensitive)
  }

  /** getInstance(caseSensitive): the default wildcards. */
  function GetInstanceWithCase(caseSensitive: bool): (r: WildcardSearch)
    ensures r.multiCharWildcard == '*' && r.singleCharWildcard == '_' && r.caseSensitive == caseSensitive
  {
    GetInstance(DefaultMultiCharWildcard, DefaultSingleCharWildcard, caseSensitive)
  }

  /** getInstance(): the default wildcards, case-insensitive. */
  function GetDefaultInstance(): (r: WildcardSearch)
    ensures r.multiCharWildcard == '*' && r.singleCharWildcard == '_' && !r.caseSensitive
  {
    GetInstance(DefaultMultiCharWildcard, DefaultSingleCharWildcard, DefaultCaseSensitive)
  }

  /** Character.toLowerCase, restricted to ASCII letters. */
  function ToLower(c: char): char {
    if 'A' <= c <= 'Z' then (c as int + 32) as char else c
  }

  /** Two characters compare equal: identical, or, when case-insensitive, equal after lower-casing. */
  predicate SameChar(ws: WildcardSearch, patternChar: char, textChar: char) {
    if ws.caseSensitive then patternChar == textChar else ToLower(patternChar) == ToLower(textChar)
  }

  /** A case-insensitive matcher treats an upper-case and a lower-case letter alike. */
  lemma CaseInsensitiveIgnoresCase(ws: WildcardSearch, c: char)
    requires !ws.caseSensitive && 'a' <= c <= 'z'
    ensures SameChar(ws, c, (c as int - 32) as char) && SameChar(ws, (c as int - 32) as char, c)
  {
  }

  /** Where the comparison of an ordinary pattern character reads from: after an escape the next
      character, except that a trailing escape is compared as itself. */
  function LiteralPos(p: string, pp: nat): (q: nat)
    requires pp < |p|
    ensures q < |p| && (q == pp || q == pp + 1)
    ensures q == pp + 1 <==> p[pp] == EscapeChar && pp + 1 < |p|
  {
    if p[pp] == EscapeChar && pp + 1 < |p| then pp + 1 else pp
  }

  /** The private recursive matches(text, pattern, textPos, patternPos), as written: the
      single-char wildcard advances textPos even when the text is exhausted. */
  function Match(ws: WildcardSearch, t: string, p: string, tp: nat, pp: nat): (r: bool)
    requires pp <= |p|
    ensures pp == |p| ==> (r <==> tp >= |t|)
    ensures pp < |p| && p[pp] != ws.multiCharWildcard && p[pp] != ws.singleCharWildcard && tp >= |t| ==> !r
    ensures pp < |p| && p[pp] == ws.singleCharWildcard && p[pp] != ws.multiCharWildcard ==>
              r == Match(ws, t, p, tp + 1, pp + 1)
    decreases |p| - pp, 1
  {
    if tp >= |t| && pp >= |p| then true
    else if pp >= |p| then false
    else if p[pp] == ws.multiCharWildcard then MatchFrom(ws, t, p, tp, pp + 1)
    else if p[pp] == ws.singleCharWildcard then Match(ws, t, p, tp + 1, pp + 1)
    else
      var q := LiteralPos(p, pp);
      if tp >= |t| then false
      else if SameChar(ws, p[q], t[tp]) then Match(ws, t, p, tp + 1, q + 1)
      else false
  }

  /** The loop of the multi-char wildcard: try the rest of the pattern at text positions i, i + 1,
      ..., |t|, stopping at the first success. */
  function MatchFrom(ws: WildcardSearch, t: string, p: string, i: nat, pp: nat): bool
    requires pp <= |p|
    decreases |p| - pp + 1, 0, |t| + 1 - i
  {
    if i < |t| + 1 then Match(ws, t, p, i, pp) || MatchFrom(ws, t, p, i + 1, pp) else false
  }

  /** The multi-char loop succeeds iff the rest of the pattern matches from some position i..|t|. */
  lemma {:induction false} MatchFromMeansSomePosition(ws: WildcardSearch, t: string, p: string, i: nat, pp: nat)
    requires pp <= |p|
    ensures MatchFrom(ws, t, p, i, pp) <==> exists j :: i <= j <= |t| && Match(ws, t, p, j, pp)
    decreases |t| + 1 - i
  {
    if i < |t| + 1 {
      MatchFromMeansSomePosition(ws, t, p, i + 1, pp);
      if Match(ws, t, p, i, pp) {
        assert exists j :: i <= j <= |t| && Match(ws, t, p, j, pp) by {
          assert i <= i <= |t| && Match(ws, t, p, i, pp);
        }
      } else if MatchFrom(ws, t, p, i + 1, pp) {
        var j :| i + 1 <= j <= |t| && Match(ws, t, p, j, pp);
        assert exists j' :: i <= j' <= |t| && Match(ws, t, p, j', pp) by {
          assert i <= j <= |t| && Match(ws, t, p, j, pp);
        }
      } else {
        assert !MatchFrom(ws, t, p, i, pp);
        forall j | i <= j <= |t|
          ensures !Match(ws, t, p, j, pp)
        {
          if j != i {
            assert !(i + 1 <= j <= |t| && Match(ws, t, p, j, pp));
          }
        }
      }
    }
  }

  /** A multi-char wildcard at patternPos rest - 1 matches iff the rest of the pattern matches from
      some text position in textPos..|t|. */
  lemma MultiWildcardMeansSomeSplit(ws: WildcardSearch, t: string, p: string, tp: nat, rest: nat)
    requires 0 < rest <= |p| && p[rest - 1] == ws.multiCharWildcard
    ensures Match(ws, t, p, tp, rest - 1) <==> exists j :: tp <= j <= |t| && Match(ws, t, p, j, rest)
  {
    MatchFromMeansSomePosition(ws, t, p, tp, rest);
  }

  /** The exception matches throws for a null argument, naming it. */
  datatype Error = IllegalArgument(argument: string)

  /** matches(text, pattern), as written: both must be non-null. */
  function Matches(ws: WildcardSearch, text: Option<string>, pattern: Option<string>): (r: Result<bool, Error>)
    ensures text.None? ==> r == Err(IllegalArgument("text"))
    ensures text.Some? && pattern.None? ==> r == Err(IllegalArgument("pattern"))
    ensures text.Some? && pattern.Some? ==> r == Ok(Match(ws, text.value, pattern.value, 0, 0))
  {
    if text.None? then Err(IllegalArgument("text"))
    else if pattern.None? then Err(IllegalArgument("pattern"))
    else Ok(Match(ws, text.value, pattern.value, 0, 0))
  }

  /** WildcardSearchTest: a missing text or pattern is rejected, naming the argument. */
  lemma NullArgumentExamples(ws: WildcardSearch)
    ensures Matches(ws, None, Some("T*")) == Err(IllegalArgument("text"))
    ensures Matches(ws, Some("Test"), None) == Err(IllegalArgument("pattern"))
    ensures Matches(ws, None, None) == Err(IllegalArgument("text"))
  {
  }

  /** WildcardSearchTest: a prefix followed by the multi-char wildcard, ignoring case. */
  lemma PrefixExamples(ws: WildcardSearch)
    requires ws == GetDefaultInstance()
    ensures Match(ws, "Test", "T*", 0, 0) && Match(ws, "Test", "t*", 0, 0)
  {
  }

  /** WildcardSearchTest: the multi-char wildcard alone and around a character. */
  lemma InfixExamples(ws: WildcardSearch)
    requires ws == GetDefaultInstance()
    ensures Match(ws, "Test", "*", 0, 0) && Match(ws, "Test", "*e*", 0, 0)
  {
  }

  /** WildcardSearchTest: no position of "Test" holds an 'x'. */
  lemma InfixMissExample(ws: WildcardSearch)
    requires ws == GetDefaultInstance()
    ensures !Match(ws, "Test", "*x*", 0, 0)
  {
  }

  /** WildcardSearchTest: the single-char wildcard takes exactly one character. */
  lemma SingleExamples(ws: WildcardSearch)
    requires ws == GetDefaultInstance()
    ensures Match(ws, "Test", "t_st", 0, 0) && Match(ws, "Test", "T_st", 0, 0)
    ensures Match(ws, "Test", "T_s*", 0, 0)
  {
  }

  /** WildcardSearchTest: an escaped multi-char wildcard only matches a literal '*'. */
  lemma EscapedMultiExamples(ws: WildcardSearch)
    requires ws == GetDefaultInstance()
    ensures Match(ws, "T*st", "T*", 0, 0)
    ensures !Match(ws, "Test", "T\\*st", 0, 0) && Match(ws, "T*st", "T\\*st", 0, 0)
  {
  }

  /** WildcardSearchTest: an escaped single-char wildcard only matches a literal '_'. */
  lemma EscapedSingleExamples(ws: WildcardSearch)
    requires ws == GetDefaultInstance()
    ensures Match(ws, "T_st", "T\\_st", 0, 0) && !Match(ws, "Test", "T\\_st", 0, 0)
  {
  }

  /** A trailing backslash is compared as a literal backslash. */
  lemma TrailingEscapeIsLiteral(ws: WildcardSearch)
    requires ws.multiCharWildcard != '\\' && ws.singleCharWildcard != '\\'
    requires ws.multiCharWildcard != 'a' && ws.singleCharWildcard != 'a'
    ensures Match(ws, "a\\", "a\\", 0, 0)
    ensures !Match(ws, "a", "a\\", 0, 0)
  {
  }

  /** As written, the single-char wildcard also matches past the end of the text: "" matches "_"
      and "a" matches "a_", though the wildcard is documented to match exactly one character. */
  lemma SingleWildcardPastEnd()
    ensures Match(GetDefaultInstance(), "", "_", 0, 0)
    ensures Match(GetDefaultInstance(), "a", "a_", 0, 0)
    ensures !MatchExact(GetDefaultInstance(), "", "_", 0, 0)
    ensures !MatchExact(GetDefaultInstance(), "a", "a_", 0, 0)
  {
  }

  /** The matcher as documented: identical to Match except that the single-char wildcard needs a
      text character to consume. */
  function MatchExact(ws: WildcardSearch, t: string, p: string, tp: nat, pp: nat): (r: bool)
    requires pp <= |p|
    ensures pp == |p| ==> (r <==> tp >= |t|)
    ensures pp < |p| && tp >= |t| && p[pp] != ws.multiCharWildcard ==> !r
    decreases |p| - pp, 1
  {
    if tp >= |t| && pp >= |p| then true
    else if pp >= |p| then false
    else if p[pp] == ws.multiCharWildcard then MatchExactFrom(ws, t, p, tp, pp + 1)
    else if p[pp] == ws.singleCharWildcard then tp < |t| && MatchExact(ws, t, p, tp + 1, pp + 1)
    else
      var q := LiteralPos(p, pp);
      if tp >= |t| then false
      else if SameChar(ws, p[q], t[tp]) then MatchExact(ws, t, p, tp + 1, q + 1)
      else false
  }

  function MatchExactFrom(ws: WildcardSearch, t: string, p: string, i: nat, pp: nat): bool
    requires pp <= |p|
    decreases |p| - pp + 1, 0, |t| + 1 - i
  {
    if i < |t| + 1 then MatchExact(ws, t, p, i, pp) || MatchExactFrom(ws, t, p, i + 1, pp) else false
  }

  /** matches(text, pattern) with the documented single-char wildcard. */
  function MatchesExact(ws: WildcardSearch, text: Option<string>, pattern: Option<string>): (r: Result<bool, Error>)
    ensures text.None? ==> r == Err(IllegalArgument("text"))
    ensures text.Some? && pattern.None? ==> r == Err(IllegalArgument("pattern"))
    ensures text.Some? && pattern.Some? ==> r == Ok(Glob(ws, pattern.value, text.value))
  {
    if text.None? then Err(IllegalArgument("text"))
    else if pattern.None? then Err(IllegalArgument("pattern"))
    else
      MatchExactIsGlob(ws, text.value, pattern.value, 0, 0);
      assert pattern.value[0..] == pattern.value && text.value[0..] == text.value;
      Ok(MatchExact(ws, text.value, pattern.value, 0, 0))
  }

  /** Reference semantics of a wildcard pattern on whole strings: '*' takes any prefix of the
      text, '_' exactly one character, an escaped or ordinary character one equal character. */
  predicate Glob(ws: WildcardSearch, p: string, t: string)
    decreases |p|
  {
    if p == [] then t == []
    else if p[0] == ws.multiCharWildcard then exists k :: 0 <= k <= |t| && Glob(ws, p[1..], t[k..])
    else if p[0] == ws.singleCharWildcard then |t| > 0 && Glob(ws, p[1..], t[1..])
    else if p[0] == EscapeChar && |p| > 1 then |t| > 0 && SameChar(ws, p[1], t[0]) && Glob(ws, p[2..], t[1..])
    else |t| > 0 && SameChar(ws, p[0], t[0]) && Glob(ws, p[1..], t[1..])
  }

  /** The corrected matcher decides exactly the reference semantics. */
  lemma {:induction false} MatchExactIsGlob(ws: WildcardSearch, t: string, p: string, tp: nat, pp: nat)
    requires tp <= |t| && pp <= |p|
    ensures MatchExact(ws, t, p, tp, pp) == Glob(ws, p[pp..], t[tp..])
    decreases |p| - pp, 1
  {
    if pp == |p| {
    } else if p[pp] == ws.multiCharWildcard {
      MatchExactFromIsGlob(ws, t, p, tp, pp + 1);
      StarIsGlob(ws, t, p, tp, pp);
    } else if p[pp] == ws.singleCharWildcard {
      if tp < |t| {
        MatchExactIsGlob(ws, t, p, tp + 1, pp + 1);
      }
      SingleIsGlob(ws, t, p, tp, pp);
    } else {
      var q := LiteralPos(p, pp);
      if tp < |t| {
        MatchExactIsGlob(ws, t, p, tp + 1, q + 1);
      }
      LiteralIsGlob(ws, t, p, tp, pp, q);
    }
  }

  /** The multi-char case of MatchExactIsGlob, given the claim for the rest of the pattern. */
  lemma StarIsGlob(ws: WildcardSearch, t: string, p: string, tp: nat, pp: nat)
    requires tp <= |t| && pp < |p| && p[pp] == ws.multiCharWildcard
    requires MatchExactFrom(ws, t, p, tp, pp + 1) <==> exists j :: tp <= j <= |t| && Glob(ws, p[pp + 1..], t[j..])
    ensures MatchExact(ws, t, p, tp, pp) == Glob(ws, p[pp..], t[tp..])
  {
    assert p[pp..][1..] == p[pp + 1..];
    if MatchExact(ws, t, p, tp, pp) {
      var j :| tp <= j <= |t| && Glob(ws, p[pp + 1..], t[j..]);
      assert t[tp..][j - tp..] == t[j..];
    }
    if Glob(ws, p[pp..], t[tp..]) {
      var k :| 0 <= k <= |t[tp..]| && Glob(ws, p[pp..][1..], t[tp..][k..]);
      assert t[tp..][k..] == t[tp + k..];
    }
  }

  /** The single-char case of MatchExactIsGlob, given the claim one step further. */
  lemma SingleIsGlob(ws: WildcardSearch, t: string, p: string, tp: nat, pp: nat)
    requires tp <= |t| && pp < |p| && p[pp] == ws.singleCharWildcard && p[pp] != ws.multiCharWildcard
    requires tp < |t| ==> MatchExact(ws, t, p, tp + 1, pp + 1) == Glob(ws, p[pp + 1..], t[tp + 1..])
    ensures MatchExact(ws, t, p, tp, pp) == Glob(ws, p[pp..], t[tp..])
  {
    assert p[pp..][1..] == p[pp + 1..];
    if tp < |t| {
      assert t[tp..][1..] == t[tp + 1..];
    }
  }

  /** The ordinary-character case of MatchExactIsGlob, given the claim past the compared character. */
  lemma LiteralIsGlob(ws: WildcardSearch, t: string, p: string, tp: nat, pp: nat, q: nat)
    requires tp <= |t| && pp < |p| && p[pp] != ws.singleCharWildcard && p[pp] != ws.multiCharWildcard
    requires q == LiteralPos(p, pp)
    requires tp < |t| ==> MatchExact(ws, t, p, tp + 1, q + 1) == Glob(ws, p[q + 1..], t[tp + 1..])
    ensures MatchExact(ws, t, p, tp, pp) == Glob(ws, p[pp..], t[tp..])
  {
    if tp < |t| {
      assert t[tp..][1..] == t[tp + 1..];
      if q == pp + 1 {
        assert p[pp..][2..] == p[q + 1..];
      } else {
        assert p[pp..][1..] == p[q + 1..];
      }
    }
  }

  lemma {:induction false} MatchExactFromIsGlob(ws: WildcardSearch, t: string, p: string, i: nat, pp: nat)
    requires i <= |t| + 1 && pp <= |p|
    ensures MatchExactFrom(ws, t, p, i, pp) <==> exists j :: i <= j <= |t| && Glob(ws, p[pp..], t[j..])
    decreases |p| - pp + 1, 0, |t| + 1 - i
  {
    if i < |t| + 1 {
      MatchExactIsGlob(ws, t, p, i, pp);
      MatchExactFromIsGlob(ws, t, p, i + 1, pp);
    }
  }

  /** Under the documented semantics a pattern of single-char wildcards and ordinary characters
      only matches texts of its own length. */
  lemma {:induction false} StarFreeMatchesOwnLength(ws: WildcardSearch, p: string, t: string)
    requires forall i :: 0 <= i < |p| ==> p[i] != ws.multiCharWildcard && p[i] != EscapeChar
    requires Glob(ws, p, t)
    ensures |t| == |p|
    decreases |p|
  {
    if p != [] {
      StarFreeMatchesOwnLength(ws, p[1..], t[1..]);
    }
  }

  /** Every text the corrected matcher accepts, the matcher as written accepts too. */
  lemma {:induction false} ExactImpliesAsWritten(ws: WildcardSearch, t: string, p: string, tp: nat, pp: nat)
    requires pp <= |p|
    requires MatchExact(ws, t, p, tp, pp)
    ensures Match(ws, t, p, tp, pp)
    decreases |p| - pp, 1
  {
    if pp == |p| {
    } else if p[pp] == ws.multiCharWildcard {
      ExactFromImpliesAsWritten(ws, t, p, tp, pp + 1);
    } else if p[pp] == ws.singleCharWildcard {
      ExactImpliesAsWritten(ws, t, p, tp + 1, pp + 1);
    } else {
      ExactImpliesAsWritten(ws, t, p, tp + 1, LiteralPos(p, pp) + 1);
    }
  }

  lemma {:induction false} ExactFromImpliesAsWritten(ws: WildcardSearch, t: string, p: string, i: nat, pp: nat)
    requires pp <= |p|
    requires MatchExactFrom(ws, t, p, i, pp)
    ensures MatchFrom(ws, t, p, i, pp)
    decreases |p| - pp + 1, 0, |t| + 1 - i
  {
    if MatchExact(ws, t, p, i, pp) {
      ExactImpliesAsWritten(ws, t, p, i, pp);
    } else {
      ExactFromImpliesAsWritten(ws, t, p, i + 1, pp);
    }
  }
}

=== FILE: wrappers.dfy ===
/** Option stands for a Java reference that may be null; Result for a call that either returns a
    value or throws. Both are shared by every module of this model. */
module Wrappers {

  /** A nullable value: None is Java's null. */
  datatype Option<+T> = None | Some(value: T) {

    /** The value, or `default` when this is null. */
    function GetOr(default: T): T {
      match this
      case Some(v) => v
      case None => default
    }
  }

  /** The outcome of a Java call: the returned value, or the exception it throws. */
  datatype Result<+T, +E> = Ok(value: T) | Err(error: E)
}
